=== FILE: README.md ===
# Inventory app core in Dafny

This project models the logic of a Next.js/Prisma inventory-management application:
items, stock locations, suppliers and purchase orders, listed in paginated, filtered,
URL-synchronised tables and edited through multi-step modal forms. It covers:

- **List-query state and URL sync.** `useDataTableFilters` (module `DataTableFilters`)
  is a class. Its fields are the hook's state: search text, per-key filter values with
  `"all"` meaning no constraint, page index and size, rows, total count and loading flag.
  Every handler rewrites them, mirrors them into the query string and issues one fetch.
  `useSearchParams` (module `UrlQuery`) keeps the query string as an ordered list of
  key/value pairs, as `URLSearchParams` does. Its `setParams` loop deletes every key
  whose value is null, undefined, `""` or `"all"`. Navigation is a history list:
  `push` appends an entry and `replace` overwrites the last one.
- **Query builders.** `getItems` (module `ItemQuery`) and `getPurchaseOrders` (module
  `PurchaseOrderQuery`) run over tables held as sequences. Both share `ListQuery` (the
  `.`-joined ID filters, `findMany`/`count` and skip/take/totalPages) and `Paging`
  (windows and ceiling division). The two validating server actions are in
  `QueryActions`.
- **Mutations.** `editPurchaseOrder` (module `EditPurchaseOrder`) diffs an order's lines
  by `Item_ID`: lines are added, deactivated, updated or reactivated. `editItem` (module
  `EditItem`) rewrites a stock alert only when the threshold changed. Each keeps its
  tables as fields of a `Database` class.
- **Form rules.** The stock-status rule, the modals' label lookups and their
  open/close/confirm state are in `ItemForms`. The step counter shared by the add
  modals is in `Wizard`. The purchase-order form's line list, item-price autofill and
  order total are in `PurchaseOrderForm`.
- **Filter UI.** Badges from the URL are in `FilterBadges`. The toolbar's column filters
  are in `DataTableToolbar`, and the filter popover's badge row in `FilterWidgets`. The
  "Showing x to y" and navigation arithmetic of both pagination footers is in
  `Pagination`. The per-table filter context is in `TableFiltersContext`.
- **Aggregation and display.** The supplier order counts and value map are in
  `SupplierStats`, and the location stock map in `LocationStats`. The address, name,
  initials and colour helpers of the directory pages are in `DirectoryPages`. The view
  modals and table cells of items and orders are in `ItemViews` and `PurchaseOrderViews`.

Shared modules: `Wrappers` (Option/Result), `Strings` (the JavaScript string built-ins
the code uses: `split`, `join`, `includes`, `trim`, case mapping, `String(n)` and
`Number(s)` on integers), `Options` (select options and `find` lookups), `Badges` (the
tinted badge class strings that status and priority colours are built from) and `DbIds`
(src/types/db-ids.ts).

The database is in-memory sequences of rows. Each `groupBy` result is an input, together
with a predicate stating what the database computes for it. The injected `fetchData`
and schema validation are function parameters that either succeed or fail.

### Behaviour of the code worth knowing

- In `getItems` a row matches the search when ANY space-split term is contained in its
  name or its SKU (src/server/database/items/get/items.ts:56-65). The match is
  case-sensitive, because those clauses carry no `mode: "insensitive"`.
  `ItemQuery.SearchIsAnyTerm` states this.
- A trailing space in the search text yields an empty term. Every string contains the
  empty term, so such a search matches every active item
  (`ItemQuery.TrailingSpaceMatchesEveryRow`).
- `getItems` passes `page` and `per_page` to the database unchecked
  (src/server/database/items/get/items.ts:102-107). A page below 1 gives a negative
  `skip`, which the database refuses. A page size of 0 gives no rows and a `totalPages`
  of Infinity, or NaN when nothing matches (`ListQuery.PageOf`).
- A filter value ending in `"."` contains an empty part, and `Number("")` is 0, so such
  a filter also admits ID 0 (src/server/database/items/get/items.ts:70,
  `ListQuery.TrailingDotAdmitsZero`).
- The toolbar's load effect depends on `getAllParams`, which changes with the URL, so
  after a handler changes the URL the column filters are rebuilt from it
  (src/components/Table/data-table-toolbar.tsx:57-64). Choosing "All" in a select
  therefore removes the column's filter when the URL held the column, but leaves an
  `"all"` entry when it did not (`DataTableToolbar.SelectAllOutcome`).
- The edit-item form measures `isDirty` against its loaded defaults, status included.
  When the stored status disagrees with the one computed from quantity and threshold,
  the effect rewrites it on mount, and from the first edit on the form counts as dirty
  even with quantity and threshold back at their loaded values
  (`ItemForms.EditItemForm.SetQuantity`).

## Model

| member | source | states |
|---|---|---|
| Strings.Split | src/server/database/items/get/items.ts:56 | `split` on one character yields at least one part, and no part holds the separator |
| Strings.JoinSplit | src/server/database/items/get/items.ts:70 | joining the parts of a split with the same separator gives back the original string |
| Strings.SplitJoin | src/server/database/items/get/items.ts:70-72 | separator-free parts joined with `"."` split back into the same parts, so a joined ID list round-trips |
| Strings.EmptyIsContained | src/server/database/items/get/items.ts:56-65 | every string contains the empty term, so an empty search term matches every row |
| Strings.ContainsChar | src/components/Table/filter-badges.tsx:32 | a one-character term is contained exactly when that character occurs |
| Strings.CaseMappingKeepsOthers | src/components/suppliers/index.tsx:64 | `toUpperCase` and `toLowerCase` keep the length, and leave every character that is not a letter of the other case where it was |
| Strings.CaseMappingIdempotent | src/server/database/purchase-orders/getPurchaseOrders.ts:75-82 | applying either case mapping a second time changes nothing |
| Strings.UpperHasNoLower | src/components/suppliers/index.tsx:64 | an upper-cased string holds no lower-case ASCII letter, and a lower-cased one no upper-case letter |
| Strings.LowerOfUpper | src/server/database/purchase-orders/getPurchaseOrders.ts:75-82 | lower-casing forgets whether a letter was upper-cased first, and upper-casing whether it was lower-cased |
| Strings.ContainsIgnoringCase | src/server/database/purchase-orders/getPurchaseOrders.ts:78-79 | a case-sensitive match is also a case-insensitive one |
| Strings.Trim | src/components/suppliers/index.tsx:69 | `trim` never lengthens a string, and what it returns neither starts nor ends with white space |
| Strings.TrimIsSlice | src/components/suppliers/index.tsx:69 | `trim` keeps one contiguous slice of the string and drops only white space before and after it |
| Strings.IntToString | src/hooks/use-search-params.ts:49 | `String(n)` is a non-empty run of digits, optionally after a minus sign |
| Strings.ParseIntToString | src/hooks/use-search-params.ts:49 | `Number(String(n))` gives `n` back for every integer |
| Strings.ParseNumberTrims | src/server/database/items/get/items.ts:69-71 | `Number(s)` reads the same value as parsing `s.trim()`: white space at either end is ignored |
| ListQuery.IdList | src/server/database/items/get/items.ts:70-72 | `split(".").map(Number)` yields one parsed value per part |
| DataTableToolbar.ReplaceAll | src/components/Table/data-table-toolbar.tsx:107 | the table library's in-place update of an existing column filter, reached through `col.setFilterValue(value)`: the filter list keeps its length and order, entries for the column take the new value and the others are kept |
| DataTableToolbar.GetReplaceAll | src/components/Table/data-table-toolbar.tsx:107 | after the replacement the column reads the new value if it had a filter, and every other column reads as before |
| DataTableFilters.InitialFilters | src/hooks/use-data-table-filters.ts:59-66 | the reduced filter object holds each key at most once |
| DataTableFilters.InitialFilterValue | src/hooks/use-data-table-filters.ts:59-66 | each configured key starts at the URL value under its mapped name, or `"all"` when that value is missing or empty; keys that are not configured are absent |
| DataTableFilters.ClearedFilters | src/hooks/use-data-table-filters.ts:148 | the cleared filter object holds each key at most once |
| DataTableFilters.ClearedFilterValue | src/hooks/use-data-table-filters.ts:147-153 | after `clearAllFilters` exactly the configured keys are present and each holds `"all"` |
| DataTableFilters.ActiveIffCounted | src/hooks/use-data-table-filters.ts:173-175 | `hasActiveFilters` holds exactly when `activeFilterCount > 0` |
| DataTableFilters.ActiveOnly | src/hooks/use-data-table-filters.ts:107 | the filters sent to `fetchData` are exactly the entries whose value is not `"all"`, and there are `activeFilterCount` of them |
| DataTableFilters.LookupSyncEntries | src/hooks/use-data-table-filters.ts:76-86 | the object `syncUrlParams` builds holds, under each name, the last filter mapped to it, else the search, page-size or page entry |
| DataTableFilters.SyncedName | src/hooks/use-data-table-filters.ts:74-89 | after a sync each URL name holds the synced value, is deleted when that value clears, and otherwise keeps its old value |
| DataTableFilters.SyncedPaging | src/hooks/use-data-table-filters.ts:76-80 | after a sync, `page` holds `pageIndex + 1`, `per_page` holds the page size, and the search name is present exactly when the search is neither `""` nor `"all"` |
| DataTableFilters.SyncedFilter | src/hooks/use-data-table-filters.ts:83-86 | after a sync each filter's URL name holds its value, or is absent when the value is `"all"` or `""` |
| DataTableFilters.SyncKeepsOtherNames | src/hooks/use-data-table-filters.ts:74-89 | URL names the sync does not write keep their values |
| DataTableFilters.UrlRoundTrip | src/hooks/use-data-table-filters.ts:58-89 | syncing a state to the URL and hydrating a fresh controller from it gives back the same filters and search text |
| DataTableFilters.FilterController.constructor | src/hooks/use-data-table-filters.ts:44-72 | on mount the filters and search come from the URL, and the page index, page size and total come from the server's first page |
| DataTableFilters.FilterController.SyncUrlParams | src/hooks/use-data-table-filters.ts:74-91 | the loop builds the sync object and writes it with a history replace |
| DataTableFilters.FilterController.Fetch | src/hooks/use-data-table-filters.ts:93-119 | the URL is synced with a history replace and the path stays; rows and total come from a successful fetch or stay as they were; loading ends |
| DataTableFilters.FilterController.SetSearchQuery | src/hooks/use-data-table-filters.ts:58 | staging search text changes nothing else |
| DataTableFilters.FilterController.HandleSearch | src/hooks/use-data-table-filters.ts:121-125 | back to page index 0, then a fetch with the staged search; the path stays |
| DataTableFilters.FilterController.HandleFilterChange | src/hooks/use-data-table-filters.ts:127-136 | only `key` changes, to `value`; the page resets; then a fetch; the path stays |
| DataTableFilters.FilterController.HandlePaginationChange | src/hooks/use-data-table-filters.ts:138-145 | the page index becomes the requested one, unclamped; filters, search and path stay |
| DataTableFilters.FilterController.ClearAllFilters | src/hooks/use-data-table-filters.ts:147-153 | every configured key becomes `"all"` and no filter stays active; the page resets; the path stays |
| DataTableFilters.FilterController.ClearSearch | src/hooks/use-data-table-filters.ts:155-160 | the search becomes `""`, the filters and path stay and the page resets |
| DataTableFilters.FilterController.RemoveFilter | src/hooks/use-data-table-filters.ts:162-171 | only `key` changes, to `"all"`; the page resets; the path stays |
| DataTableToolbar.FieldsClassified | src/components/Table/data-table-toolbar.tsx:50-51 | search inputs are exactly the fields with no options that are not sliders, filter selects exactly the fields with options or a slider |
| DataTableToolbar.FieldsPartition | src/components/Table/data-table-toolbar.tsx:48-54 | search inputs and filter selects together are the fields, with none in both |
| DataTableToolbar.LoadedFiltersAgree | src/components/Table/data-table-toolbar.tsx:57-64 | on load each URL name becomes one column filter holding the value `getAllParams` reports for it |
| DataTableToolbar.AfterNavigation | src/components/Table/data-table-toolbar.tsx:57-64 | after a handler navigates, the load effect replaces the filters with the URL's when the URL changed; otherwise the handler's own update stays |
| DataTableToolbar.ReloadAfterSetParam | src/components/Table/data-table-toolbar.tsx:57-64 | after one name is written to the URL, the reloaded filters hold the name's new value, or none when the write deletes it, and every other column the value the URL had |
| DataTableToolbar.SelectAllOutcome | src/components/Table/data-table-toolbar.tsx:181-194 | choosing "All" when the URL holds the column deletes the parameter and the reload leaves no filter for it; when the URL does not hold it, the URL is unchanged and the select's `"all"` entry stays |
| DataTableToolbar.ActiveFilters | src/components/Table/data-table-toolbar.tsx:67-76 | a filter is counted exactly when it is not `page`, not `"all"`, not empty and not a search column |
| DataTableToolbar.SetFilterValue | src/components/Table/data-table-toolbar.tsx:107 | a column's `setFilterValue`: `""` removes the column's filter, an existing filter is rewritten in place, a new one appended; `GetSetFilterValue` states what every column then reads |
| DataTableToolbar.GetSetFilterValue | src/components/Table/data-table-toolbar.tsx:107 | after `setFilterValue` the column reads the value, or nothing when it is empty; other columns are unchanged |
| DataTableToolbar.ClearingSearch | src/components/Table/data-table-toolbar.tsx:79-82 | after one search input is cleared, a search stays active exactly when another search column has text |
| DataTableToolbar.SelectValue | src/components/Table/data-table-toolbar.tsx:182-186 | the select handler: every filter for the column dropped, one added back when the value is non-empty; `SelectReplaces` states the result |
| DataTableToolbar.SelectReplaces | src/components/Table/data-table-toolbar.tsx:182-186 | after a select the column has exactly that value, or none when it is empty; other columns are unchanged |
| DataTableToolbar.Toolbar.constructor | src/components/Table/data-table-toolbar.tsx:45-64 | on mount the column filters are loaded from the URL and the popover is closed |
| DataTableToolbar.Toolbar.OnSearchInput | src/components/Table/data-table-toolbar.tsx:105-109 | typing sets the column filter and writes the text to the URL parameter, pushing one history entry; if the URL changed, the filters are then reloaded from it |
| DataTableToolbar.Toolbar.OnSearchEnter | src/components/Table/data-table-toolbar.tsx:110 | Enter writes the column's current text to the URL, pushing one history entry; if the URL changed, the filters are reloaded from it |
| DataTableToolbar.Toolbar.ClearSearch | src/components/Table/data-table-toolbar.tsx:118-121 | the column filter empties and the URL parameter is removed, other parameters unchanged, and one history entry is pushed; if the URL changed, the filters are reloaded from it |
| DataTableToolbar.Toolbar.SelectFilter | src/components/Table/data-table-toolbar.tsx:181-188 | the column's filter is replaced; the URL holds the value, or drops it for `""` and `"all"`, and one history entry is pushed; if the URL changed, the filters are reloaded from it |
| DataTableToolbar.Toolbar.ClearAllFilters | src/components/Table/data-table-toolbar.tsx:84-87 | "Clear all" leaves no column filters and an empty query pushed as one history entry on the same path, and closes the popover (154-156) |
| UrlQuery.Delete | src/hooks/use-search-params.ts:46-47 | `delete(key)` keeps only pairs already present whose name is not `key` |
| UrlQuery.GetDelete | src/hooks/use-search-params.ts:46-47 | after `delete(key)`, `get(key)` is null and every other name reads as before |
| UrlQuery.GetPut | src/hooks/use-search-params.ts:49 | after `set(key, value)`, `get(key)` is `value` and every other name reads as before |
| UrlQuery.AllParamsKeys | src/hooks/use-search-params.ts:28-34 | a name is in `getAllParams()` exactly when the query holds it |
| UrlQuery.AllParamsAgreesWithGet | src/hooks/use-search-params.ts:18-34 | with unique names, `getAllParams()[k]` equals `getParam(k)` |
| UrlQuery.AllParamsIsLastValue | src/hooks/use-search-params.ts:28-34 | `getAllParams()[name]` is the last value stored under the name, and is present exactly when there is one |
| UrlQuery.ValuesOfDelete | src/hooks/use-search-params.ts:46-47 | `delete(key)` drops every value under `key` and keeps every other name's values in order |
| UrlQuery.ValuesOfPut | src/hooks/use-search-params.ts:49 | `set(key, value)` leaves `value` as the only value under `key` and keeps every other name's values in order |
| UrlQuery.ValuesOfSetParam | src/hooks/use-search-params.ts:67-72 | one `setParam(key, value)` replaces or removes the values under `key` and keeps every other name's values |
| UrlQuery.DeleteAbsent | src/hooks/use-search-params.ts:46-47 | deleting a name the query does not hold leaves the query unchanged |
| UrlQuery.GetFound | src/hooks/use-search-params.ts:18-23 | a value `get` returns is stored under that name in some pair |
| UrlQuery.LookupAssign | src/hooks/use-search-params.ts:77-83 | after `obj[key] = value` the object holds `value` under `key`, keeps other names, and keeps names unique |
| UrlQuery.GetApplyEntries | src/hooks/use-search-params.ts:40-62 | after `setParams` each named entry is written or deleted, and every other name keeps its value |
| UrlQuery.GetSome | src/hooks/use-search-params.ts:18-23 | `get(key)` is non-null exactly when some pair has that name |
| UrlQuery.SearchParams.constructor | src/hooks/use-search-params.ts:10-13 | the hook starts at the current location, with a one-entry history |
| UrlQuery.SearchParams.Navigate | src/hooks/use-search-params.ts:55-59 | `router.replace` overwrites the top of the history and `router.push` appends; the location becomes the target |
| UrlQuery.SearchParams.GetParam | src/hooks/use-search-params.ts:18-23 | the value is non-null exactly when the query holds the name |
| UrlQuery.SearchParams.GetAllParams | src/hooks/use-search-params.ts:28-34 | the loop builds the last-wins object, whose names are exactly those `getParam` finds |
| UrlQuery.SearchParams.SetParams | src/hooks/use-search-params.ts:40-62 | null, undefined, `""` and `"all"` delete their name and other values are written as strings; the path stays; the history is pushed or replaced |
| UrlQuery.SearchParams.SetParam | src/hooks/use-search-params.ts:67-72 | only `key` changes: it is written, or deleted when the value clears |
| UrlQuery.SearchParams.RemoveParams | src/hooks/use-search-params.ts:77-83 | every listed name is gone and every other name is untouched |
| UrlQuery.SearchParams.ClearParams | src/hooks/use-search-params.ts:88-98 | the query becomes empty and the path stays |
| ListQuery.ParseAll | src/server/database/items/get/items.ts:70 | `map(Number)` parses every part, position by position |
| ListQuery.IdFilterRoundTrip | src/server/database/items/get/items.ts:70-72 | a non-empty selection joined with `"."` admits exactly the selected IDs |
| ListQuery.TrailingDotAdmitsZero | src/server/database/items/get/items.ts:70 | a filter ending in `"."` has an empty part, which `Number` reads as 0, so it admits ID 0 |
| ListQuery.Select | src/server/database/items/get/items.ts:75-76 | `findMany({ where })` returns exactly the rows satisfying the clause, and only table rows |
| ListQuery.SelectAgrees | src/server/database/items/get/items.ts:67-76 | two `where` clauses that agree on every row select the same rows |
| ListQuery.PageOf | src/server/database/items/get/items.ts:102-121 | a page exists exactly when `page >= 1` and the page size is at least 1; its rows are exactly the `skip`/`take` window of the matches at `skip = (page - 1) * pageSize`, `take = pageSize` (at most `pageSize` rows, each the match at its offset); it echoes page and size, counts every match and reports `totalPages = ceil(count / pageSize)`, whose pages cover the count; a page size of 0 gives no rows, the count, and an infinite page count exactly when something matches (NaN otherwise); a negative `skip` is a database error; only a negative `take` with a non-negative `skip` is left unsupported |
| ItemQuery.GetItems | src/server/database/items/get/items.ts:42-123 | with defaults page 1 and per_page 100, the page is exactly the `skip`/`take` window of the active matching rows for that page, at most `pageSize` of them, each an active matching table row; its pagination counts all matches with `totalPages = ceil(count / pageSize)` |
| ItemQuery.AtPageWindow | src/server/database/items/get/items.ts:42-107 | only the filters choose the matching rows: asking for page `p` at size `s` returns the window of the same matches and the same `totalPages` |
| ItemQuery.PagesListEveryMatch | src/server/database/items/get/items.ts:42-121 | calling `getItems` for pages 1 to the reported `totalPages` at a fixed page size lists every matching item exactly once, in table order |
| ItemQuery.InactiveRowsInvisible | src/server/database/items/get/items.ts:68 | inactive rows are neither listed nor counted |
| ItemQuery.ItemIdIgnored | src/server/database/items/get/items.ts:48 | the `Item_ID` parameter never changes the answer |
| ItemQuery.MatchesSearch | src/server/database/items/get/items.ts:56-65 | the search clause: no term, or some space-split term contained in the name or the SKU; `SearchIsAnyTerm` and `TrailingSpaceMatchesEveryRow` state it |
| ItemQuery.SearchIsAnyTerm | src/server/database/items/get/items.ts:56-65 | a row matches space-joined terms exactly when some term occurs in its name or its SKU |
| ItemQuery.TrailingSpaceMatchesEveryRow | src/server/database/items/get/items.ts:56-63 | a search ending in a space yields an empty term, which matches every row |
| PurchaseOrderQuery.WithItemCounts | src/server/database/purchase-orders/getPurchaseOrders.ts:151-153 | each listed order is its row together with `Item_Count`, the number of its lines, in the same order |
| PurchaseOrderQuery.GetPurchaseOrders | src/server/database/purchase-orders/getPurchaseOrders.ts:52-186 | with defaults page 1 and per_page 100, the page is exactly the `skip`/`take` window of the matching orders for that page, each with its line count, at most `pageSize` of them, each a matching table row; the pagination counts all matches with `totalPages = ceil(count / pageSize)` |
| PurchaseOrderQuery.AtPageWindow | src/server/database/purchase-orders/getPurchaseOrders.ts:52-153 | only the filters choose the matching orders: asking for page `p` at size `s` returns the window of the same matches, with their item counts, and the same `totalPages` |
| PurchaseOrderQuery.PagesListEveryMatch | src/server/database/purchase-orders/getPurchaseOrders.ts:52-186 | calling `getPurchaseOrders` for pages 1 to the reported `totalPages` at a fixed page size lists every matching order exactly once, in table order, with its item count |
| PurchaseOrderQuery.ActiveFlagIgnored | src/server/database/purchase-orders/getPurchaseOrders.ts:96-101 | whether an order is active never affects whether it is listed |
| PurchaseOrderQuery.PurchaseOrderIdIgnored | src/server/database/purchase-orders/getPurchaseOrders.ts:58 | the `Purchase_Order_ID` parameter never changes the answer |
| PurchaseOrderQuery.SearchByOrderNumber | src/server/database/purchase-orders/getPurchaseOrders.ts:84-89 | searching for an order's own number finds it, whatever its supplier is called |
| PurchaseOrderQuery.SupplierNameCaseIgnored | src/server/database/purchase-orders/getPurchaseOrders.ts:75-82 | the supplier-name match ignores case |
| PurchaseOrderQuery.MatchesSearch | src/server/database/purchase-orders/getPurchaseOrders.ts:66-94 | the search clause: no term, or some term matching the supplier name ignoring case or equal as a number to the order ID; `SearchIsAnyTerm`, `SearchByOrderNumber` and `SupplierNameCaseIgnored` state it |
| PurchaseOrderQuery.SearchIsAnyTerm | src/server/database/purchase-orders/getPurchaseOrders.ts:66-94 | an order matches space-joined terms exactly when one of the terms matches it |
| QueryActions.RenameItemsParams | src/server/actions/get/items.ts:15-22 | `pageSize` becomes `per_page`, `search` becomes `Search_Term`, and category, status and location become the ID fields |
| QueryActions.GetItemsAction | src/server/actions/get/items.ts:15-29 | the action fails with "Invalid parameters" exactly when validation fails; otherwise it returns `getItems` of the validated data |
| QueryActions.QuantityRangeIgnored | src/server/actions/get/items.ts:13-22 | `quantityRange` is accepted but never changes the result |
| QueryActions.CoerceNumber | src/lib/schemas/purchase-orders/search-params.ts:4-6 | an absent number takes its default; a given number, or NaN, passes through |
| QueryActions.ParsePurchaseOrdersSchema | src/lib/schemas/purchase-orders/search-params.ts:3-11 | validation succeeds exactly when none of page, per_page and the order ID is NaN; page and per_page default to 1 and 10 and the strings pass through |
| QueryActions.PurchaseOrdersActionOutcome | src/server/actions/purchase-orders/get/purchase-orders.ts:14-28 | the action fails with "Invalid parameters" exactly when the page or page size is NaN; otherwise it runs the query on the renamed parameters, with no order ID |
| QueryActions.PurchaseOrdersActionEchoesPaging | src/server/actions/purchase-orders/get/purchase-orders.ts:14-28 | a successful page echoes the caller's page and page size; no default applies |
| QueryActions.SchemaDefaults | src/lib/schemas/purchase-orders/search-params.ts:4-5 | an object without page or per_page validates to 1 and 10 |
| EditPurchaseOrder.Message | src/server/database/purchase-orders/editPurchaseOrder.ts:96-119 | success reads "Purchase order updated successfully.", a known request error "A database error occurred.", anything else "An unexpected error occurred." |
| EditPurchaseOrder.IndexOfOrder | src/server/database/purchase-orders/editPurchaseOrder.ts:14-15 | the update finds the row with the order's ID, or none exists and the update throws |
| EditPurchaseOrder.LinesOf | src/server/database/purchase-orders/editPurchaseOrder.ts:27-34 | the current items are exactly the order's line rows |
| EditPurchaseOrder.ItemsToAdd | src/server/database/purchase-orders/editPurchaseOrder.ts:40-42 | the items to add are exactly the submitted lines whose item the order does not have |
| EditPurchaseOrder.ItemsToRemove | src/server/database/purchase-orders/editPurchaseOrder.ts:44-46 | the items to remove are exactly the current lines whose item is no longer submitted |
| EditPurchaseOrder.FirstWithItem | src/server/database/purchase-orders/editPurchaseOrder.ts:75-77 | `find` returns a current line for the item exactly when the order has one |
| EditPurchaseOrder.FirstWithItemIsFirst | src/server/database/purchase-orders/editPurchaseOrder.ts:75-77 | `find` returns the earliest current line for the item |
| EditPurchaseOrder.LastSubmitted | src/server/database/purchase-orders/editPurchaseOrder.ts:74-89 | the last submitted line for an item exists exactly when the item is submitted |
| EditPurchaseOrder.ActiveLinesWereSubmitted | src/server/database/purchase-orders/editPurchaseOrder.ts:40-89 | after an edit every active line of the order carries a submitted item |
| EditPurchaseOrder.SubmittedItemsAreActive | src/server/database/purchase-orders/editPurchaseOrder.ts:40-89 | after an edit every submitted item has an active line on the order |
| EditPurchaseOrder.LastSubmissionWins | src/server/database/purchase-orders/editPurchaseOrder.ts:74-89 | the line `find` picks for a submitted item ends active, with the quantity and price of the last submitted line for that item |
| EditPurchaseOrder.UnsubmittedLinesDeactivated | src/server/database/purchase-orders/editPurchaseOrder.ts:63-71 | a current line whose item is not submitted stays in the table, deactivated and otherwise unchanged |
| EditPurchaseOrder.EditIsLocal | src/server/database/purchase-orders/editPurchaseOrder.ts:49-89 | no row is deleted or re-keyed, other orders' rows are untouched, and every inserted row belongs to the order, is active and carries an item the order lacked |
| EditPurchaseOrder.EditedLineId | src/server/database/purchase-orders/editPurchaseOrder.ts:49-60 | existing rows keep their IDs and inserted rows are numbered from the autoincrement counter |
| EditPurchaseOrder.EditedLinesValid | src/server/database/purchase-orders/editPurchaseOrder.ts:49-89 | line IDs stay unique and below the advanced counter |
| EditPurchaseOrder.Database.constructor | src/server/database/purchase-orders/editPurchaseOrder.ts:9 | the tables start empty |
| EditPurchaseOrder.Database.EditPurchaseOrder | src/server/database/purchase-orders/editPurchaseOrder.ts:9-121 | an unknown order fails with a known request error; a write the database rejects fails with that error's kind; on either failure the transaction leaves the tables unchanged; otherwise the header is overwritten and the lines are reconciled into `EditedLines`, with the line counter advanced by the number of inserts |
| EditPurchaseOrder.Database.AddLines | src/server/database/purchase-orders/editPurchaseOrder.ts:49-60 | the add loop inserts one active row per item to add, with fresh consecutive IDs |
| EditPurchaseOrder.Database.DeactivateLines | src/server/database/purchase-orders/editPurchaseOrder.ts:63-71 | the deactivate loop deactivates exactly the rows of the removed lines |
| EditPurchaseOrder.Database.UpdateLines | src/server/database/purchase-orders/editPurchaseOrder.ts:74-89 | the update loop leaves each row as the submitted items rewrite it |
| EditPurchaseOrder.Deactivate | src/server/database/purchase-orders/editPurchaseOrder.ts:64-70 | only the row with the given line ID becomes inactive |
| EditPurchaseOrder.Update | src/server/database/purchase-orders/editPurchaseOrder.ts:79-87 | only the row with the given line ID takes the submitted quantity and price, and is reactivated |
| EditItem.Message | src/server/database/items/edit/item.ts:53-74 | success reads "Item updated successfully.", a known request error "A database error occurred.", anything else "An unexpected error occurred." |
| EditItem.IndexOfItem | src/server/database/items/edit/item.ts:13-14 | the update finds the row with the item's ID, or none exists and the update throws |
| EditItem.IndexOfAlert | src/server/database/items/edit/item.ts:32-35 | `findUnique` finds the alert with the given ID, or reports that none exists |
| EditItem.EditedItem | src/server/database/items/edit/item.ts:13-28 | the item row after the update: every column from the arguments, `Is_Active` true, and the stored description kept when none is submitted |
| EditItem.EditOverwritesItem | src/server/database/items/edit/item.ts:13-28 | the edited row depends only on its ID, the arguments and, when no description is submitted, the stored description; it is active |
| EditItem.EditItemIdempotent | src/server/database/items/edit/item.ts:13-28 | applying the same edit twice gives the same item row |
| EditItem.AlertKeysKept | src/server/database/items/edit/item.ts:37-45 | the conditional update keeps alert IDs, so each alert is found where it was |
| EditItem.AlertSettles | src/server/database/items/edit/item.ts:37-45 | after an edit an existing alert stores the submitted threshold, so repeating the edit rewrites no alert |
| EditItem.AlertUpdateIsLocal | src/server/database/items/edit/item.ts:37-45 | only the named alert can change, and only when its threshold differs |
| EditItem.Database.constructor | src/server/database/items/edit/item.ts:8 | the tables start empty |
| EditItem.Database.EditItem | src/server/database/items/edit/item.ts:8-77 | an unknown item fails with a known request error; a write the database rejects fails with that error's kind; on either failure both tables are unchanged; otherwise the item is overwritten, and the alert is rewritten and returned exactly when it exists with a different threshold |
| EditPurchaseOrder.EditedLines | src/server/database/purchase-orders/editPurchaseOrder.ts:26-89 | the line table after an edit: every existing row in place as the updates leave it, then one inserted row per item to add; its properties are the `EditPurchaseOrder` lemmas above |
| EditPurchaseOrder.EditComposition | src/server/database/purchase-orders/editPurchaseOrder.ts:48-89 | the add, deactivate and update loops, run in that order, produce the edited line table, with unique IDs below the new counter |
| ItemForms.StockStatus | src/components/items/modals/add-item-modal.tsx:101-110 | the status the effect computes: out of stock at or below 0, low stock at or below the threshold, in stock above it; `StockStatusCases` and `StockStatusMonotone` state the rule |
| ItemForms.StockStatusCases | src/components/items/modals/add-item-modal.tsx:97-114 | the status is out of stock exactly when the quantity is at most 0, low stock exactly when it is positive and at most the threshold, and in stock otherwise |
| ItemForms.StockStatusMonotone | src/components/items/modals/add-item-modal.tsx:100-110 | more stock never gives a worse status |
| ItemForms.NotInStockIffAlerted | src/components/items/modals/add-item-modal.tsx:100-110 | with a non-negative threshold, the status is not "in stock" exactly when the quantity is at most the threshold |
| ItemForms.StatusAfterEffect | src/components/items/modals/add-item-modal.tsx:97-114 | the effect leaves the status alone unless both quantity and threshold are defined |
| ItemForms.StatusColorDistinct | src/components/items/modals/edit-item-modal.tsx:109-115 | only the three item statuses get a colour, and each gets its own |
| ItemForms.UncalculatedStatusLabel | src/components/items/modals/add-item-modal.tsx:116-120 | with no status the label reads "Not calculated"; with no ID the category, supplier and location labels read "N/A" (179-189) |
| ItemForms.StepsCoverFields | src/components/items/modals/add-item-modal.tsx:122-139 | each validated field belongs to exactly one of steps 1 to 3, and the review step validates none |
| ItemForms.AddItemForm.constructor | src/components/items/modals/add-item-modal.tsx:73-92 | the modal opens at step 1 with nothing entered, no status, a clean form and no confirmation |
| ItemForms.AddItemForm.SetQuantity | src/components/items/modals/add-item-modal.tsx:94-114 | editing the quantity dirties the form and re-runs the status effect; the status keeps following quantity and threshold |
| ItemForms.AddItemForm.SetThreshold | src/components/items/modals/add-item-modal.tsx:94-114 | editing the threshold dirties the form and re-runs the status effect |
| ItemForms.AddItemForm.HandleNext | src/components/items/modals/add-item-modal.tsx:141-147 | the step advances, capped at 4, only when the current step's fields validate |
| ItemForms.AddItemForm.HandlePrevious | src/components/items/modals/add-item-modal.tsx:149-152 | the step goes back, never below 1 |
| ItemForms.AddItemForm.HandleClose | src/components/items/modals/add-item-modal.tsx:195-201 | a dirty form asks for confirmation; a clean one closes |
| ItemForms.AddItemForm.HandleConfirmExit | src/components/items/modals/add-item-modal.tsx:203-206 | confirming hides the dialog and closes the modal |
| ItemForms.LoadedQuantity | src/components/items/modals/edit-item-modal.tsx:74 | a stored quantity of 0 or null loads as undefined; any other loads as it is |
| ItemForms.ZeroQuantityKeepsStoredStatus | src/components/items/modals/edit-item-modal.tsx:74-101 | a stored quantity of 0 keeps the stored status; any other stored quantity recomputes it from the threshold |
| ItemForms.EditItemForm.constructor | src/components/items/modals/edit-item-modal.tsx:60-101 | the modal keeps the loaded values as the form's defaults and as its values, and the effect runs once on them |
| ItemForms.EditItemForm.SetQuantity | src/components/items/modals/edit-item-modal.tsx:66-101 | the form is dirty exactly when its values at the edit differ from the defaults, so an edit back to the loaded values leaves it clean unless the effect has already moved the status; the status effect then re-runs without re-measuring |
| ItemForms.EditItemForm.SetThreshold | src/components/items/modals/edit-item-modal.tsx:66-101 | the form is dirty exactly when its values at the edit differ from the defaults; the status effect then re-runs without re-measuring |
| ItemForms.EditItemForm.HandleClose | src/components/items/modals/edit-item-modal.tsx:145-151 | a dirty form asks for confirmation; a clean one navigates back |
| ItemForms.EditItemForm.HandleConfirmExit | src/components/items/modals/edit-item-modal.tsx:153-156 | confirming hides the dialog and navigates back |
| Wizard.Next | src/components/items/modals/add-item-modal.tsx:141-147 | a validated step advances by one, capped at the step count; an invalid one stays |
| Wizard.Previous | src/components/items/modals/add-item-modal.tsx:149-152 | the step goes back by one, never below 1 |
| Wizard.StepStaysInRange | src/components/items/modals/add-item-modal.tsx:141-152 | each button keeps the step between 1 and the step count |
| Wizard.RunStaysInRange | src/components/items/modals/add-item-modal.tsx:141-152 | any sequence of clicks that starts in range ends in range |
| Wizard.RunBoundedByValidations | src/components/items/modals/add-item-modal.tsx:141-147 | the step never gets further ahead than the number of successful validations |
| PurchaseOrderForm.Without | src/components/purchase-orders/modals/add-purchase-order-modal.tsx:403 | removing an index in range drops exactly that line and keeps the others in order; an index out of range changes nothing |
| PurchaseOrderForm.RemoveUndoesAppend | src/components/purchase-orders/modals/add-purchase-order-modal.tsx:379-403 | removing the line just appended gives back the lines before it |
| PurchaseOrderForm.RemoveDropsOne | src/components/purchase-orders/modals/add-purchase-order-modal.tsx:403 | the lines lose exactly the removed line, as a multiset |
| PurchaseOrderForm.Total | src/components/purchase-orders/modals/add-purchase-order-modal.tsx:122-125 | `calculateTotal`: the lines' quantity times price, summed from the left; `TotalConcat`, `TotalUpdate` and `RemoveSubtractsLine` state how it moves |
| PurchaseOrderForm.TotalConcat | src/components/purchase-orders/modals/add-purchase-order-modal.tsx:122-125 | the total of two runs of lines is the sum of their totals |
| PurchaseOrderForm.TotalUpdate | src/components/purchase-orders/modals/add-purchase-order-modal.tsx:122-125 | replacing one line changes the total by the difference of the two amounts |
| PurchaseOrderForm.AppendBlankKeepsTotal | src/components/purchase-orders/modals/add-purchase-order-modal.tsx:379 | "Add Item" leaves the total as it was, because the blank line is priced 0 |
| PurchaseOrderForm.RemoveSubtractsLine | src/components/purchase-orders/modals/add-purchase-order-modal.tsx:399-405 | removing a line takes exactly its amount off the total |
| PurchaseOrderForm.FindChoice | src/components/purchase-orders/modals/add-purchase-order-modal.tsx:434-436 | `find` returns a listed choice with that value, or none exists |
| PurchaseOrderForm.ChosenItemPrice | src/components/purchase-orders/modals/add-purchase-order-modal.tsx:432-443 | choosing a listed item sets the line's price to that item's unit price and keeps its quantity |
| PurchaseOrderForm.FindChoiceFirst | src/components/purchase-orders/modals/add-purchase-order-modal.tsx:434-436 | `find` returns the first choice listed under the value |
| PurchaseOrderForm.ChoiceOptions | src/components/purchase-orders/modals/add-purchase-order-modal.tsx:102-104 | the item choices, in order, as options with the same value and caption |
| PurchaseOrderForm.UnchosenItemLabel | src/components/purchase-orders/modals/add-purchase-order-modal.tsx:102-104 | a line with no item chosen is labelled "N/A" |
| PurchaseOrderForm.StepsCoverFields | src/components/purchase-orders/modals/add-purchase-order-modal.tsx:106-120 | each validated field belongs to exactly one of steps 1 and 2, and the review step validates none |
| PurchaseOrderForm.AddPurchaseOrderForm.constructor | src/components/purchase-orders/modals/add-purchase-order-modal.tsx:71-88 | the modal opens at step 1, pending approval, with no lines, no supplier and no choices |
| PurchaseOrderForm.AddPurchaseOrderForm.SetSupplier | src/components/purchase-orders/modals/add-purchase-order-modal.tsx:171-183 | with no supplier (or ID 0) the choices are emptied; otherwise they become the fetched items, or stay when the fetch fails |
| PurchaseOrderForm.AddPurchaseOrderForm.AppendLine | src/components/purchase-orders/modals/add-purchase-order-modal.tsx:379 | "Add Item" appends one blank line and keeps the total |
| PurchaseOrderForm.AddPurchaseOrderForm.RemoveLine | src/components/purchase-orders/modals/add-purchase-order-modal.tsx:398-405 | the trash button removes the line only while there is more than one, and the total loses that line's amount; the form becomes dirty exactly when a line was removed (or it already was) |
| PurchaseOrderForm.AddPurchaseOrderForm.SelectItem | src/components/purchase-orders/modals/add-purchase-order-modal.tsx:432-443 | choosing an item sets the line's item ID and, for a listed choice, its price; the total changes by the line's change |
| PurchaseOrderForm.AddPurchaseOrderForm.HandleNext | src/components/purchase-orders/modals/add-purchase-order-modal.tsx:127-133 | the step advances, capped at 3, only when the current step's fields validate |
| PurchaseOrderForm.AddPurchaseOrderForm.HandlePrevious | src/components/purchase-orders/modals/add-purchase-order-modal.tsx:135-138 | the step goes back, never below 1 |
| PurchaseOrderForm.AddPurchaseOrderForm.HandleClose | src/components/purchase-orders/modals/add-purchase-order-modal.tsx:189-195 | a dirty form asks for confirmation; a clean one closes; every entered field (lines, supplier, status, priority, step) is kept |
| PurchaseOrderForm.AddPurchaseOrderForm.HandleConfirmExit | src/components/purchase-orders/modals/add-purchase-order-modal.tsx:197-200 | confirming hides the dialog and closes the modal, leaving every entered field (lines, supplier, status, priority, step) as it was |
| Options.FindByNumber | src/components/items/modals/add-item-modal.tsx:118 | `find` returns the first option whose value reads as the ID; an undefined ID matches none |
| Options.LabelIsCaptionOfMatch | src/components/items/modals/add-item-modal.tsx:179-189 | a label other than the fallback is the caption of an option whose value reads as the ID; an undefined ID gets the fallback |
| Options.LabelOfListedId | src/components/items/modals/add-item-modal.tsx:179-189 | the option listed under the ID's own string form supplies the label, unless an earlier option reads as the same number |
| Options.FindByValue | src/components/Table/filter-badges.tsx:43 | `find` returns a listed option with that value, or none exists |
| Options.CaptionOfListedValue | src/components/Table/filter-badges.tsx:43-48 | a value shows the caption of the first option listed under it |
| Options.FindByValueFirst | src/components/Table/filter-badges.tsx:43 | `find` returns the first option listed under the value |
| Options.UnlistedValueShownRaw | src/components/Table/filter-badges.tsx:48 | an unlisted value is shown as it is |
| FilterBadges.PartCaptions | src/components/Table/filter-badges.tsx:33-34 | each `.`-separated part is shown as its option's caption, or as itself |
| FilterBadges.SingleValueIsOnePart | src/components/Table/filter-badges.tsx:32-49 | for a value without `.`, the multi-value text equals the single-value text |
| FilterBadges.Badges | src/components/Table/filter-badges.tsx:25-63 | `activeFilters`: the badges of the fields in field order; `BadgesSound`, `BadgesComplete` and the `ActiveFilters` loop state its contents |
| FilterBadges.BadgeOf | src/components/Table/filter-badges.tsx:29-30 | a field has a badge exactly when its URL value is non-empty, and the badge carries that value |
| FilterBadges.ActiveFilters | src/components/Table/filter-badges.tsx:25-63 | the loop builds the badges of the fields, in field order |
| FilterBadges.BadgesSound | src/components/Table/filter-badges.tsx:28-60 | every badge is the badge of one of the fields |
| FilterBadges.BadgesComplete | src/components/Table/filter-badges.tsx:28-60 | every field with a non-empty URL value has its badge, and there are at most as many badges as fields |
| FilterBadges.RemovedFilter | src/components/Table/filter-badges.tsx:65-70 | `removeFilter(key)`: the query with the key deleted and `page` set to `"1"`; `RemoveFilterEffect` states the result parameter by parameter |
| FilterBadges.RemoveFilterEffect | src/components/Table/filter-badges.tsx:65-70 | after a badge is removed its parameter is gone, `page` is `"1"`, and every other parameter is kept |
| FilterBadges.Visible | src/components/Table/filter-badges.tsx:74 | `slice(0, maxVisible)`, with a negative end counted from the back as JavaScript does |
| FilterBadges.HiddenCount | src/components/Table/filter-badges.tsx:75 | `activeFilters.length - maxVisible`, the "+N more" number; `VisibleAndHidden` ties it to the visible badges |
| FilterBadges.VisibleAndHidden | src/components/Table/filter-badges.tsx:74-75 | with a non-negative limit, the first badges are visible and, with the "+N more" count, every badge is counted exactly once |
| FilterWidgets.FilterLabel | src/components/data-table/data-table-filters.tsx:45-48 | `getFilterLabel`: the filter's label, ": ", then the first option with that value's label, or the raw value when there is none or its label is empty |
| FilterWidgets.ActiveBadges | src/components/data-table/data-table-filters.tsx:128-148 | the badge row: one badge per configured filter whose value is not `"all"`, in configuration order; `BadgesMatchActiveFilters` and `RemovedFilterLosesBadge` state what it shows |
| FilterWidgets.BadgesMatchActiveFilters | src/components/data-table/data-table-filters.tsx:128-148 | the badge row holds exactly the active filters in order, `activeFilterCount` of them, and shows exactly when `hasActiveFilters` |
| FilterWidgets.RemovedFilterLosesBadge | src/components/data-table/data-table-filters.tsx:141 | setting a filter to `"all"` drops its badge and lowers the count by one when it was active |
| Paging.CeilDiv | src/server/database/items/get/items.ts:107 | `Math.ceil(count / pageSize)` is the fewest pages whose capacity covers the count |
| Paging.Window | src/server/database/items/get/items.ts:102-103 | `skip`/`take` returns at most `take` rows, exactly the rows from offset `skip` on |
| Paging.PageLength | src/server/database/items/get/items.ts:102-107 | every page before the last is full, the last holds the remainder, and pages past `totalPages` are empty |
| Paging.PagesCover | src/server/database/items/get/items.ts:102-107 | reading pages 1 to `totalPages` in turn yields every matching row exactly once, in order |
| Paging.ReadPagesFrom | src/server/database/items/get/items.ts:102-107 | when each page a caller fetches is a fixed transformation of its `skip`/`take` window, and the transformation respects concatenation, fetching pages in turn yields the transformation of those windows concatenated |
| Pagination.ShownRange | src/components/data-table/data-table-pagination.tsx:27 | the "Showing x to y" numbers: `pageIndex * pageSize + 1` and `min((pageIndex + 1) * pageSize, total)`; `RangeMatchesWindow` and `LastPageEndsAtTotal` state what they count |
| Pagination.RangeMatchesWindow | src/components/data-table/data-table-pagination.tsx:27 | the "Showing x to y" range counts exactly the rows the page holds and contains the position of each; past the last row it is empty |
| Pagination.LastPageEndsAtTotal | src/components/Table/data-table-pagination.tsx:19 | on a page within the page count the range is non-empty, the last page's range ends at the total, and every earlier page shows a full page |
| Pagination.Target | src/components/data-table/data-table-pagination.tsx:33-62 | the page index each of the four buttons passes to `onPageChange`: 0, one back, one on, the last |
| Pagination.Disabled | src/components/data-table/data-table-pagination.tsx:34-63 | the backward buttons are disabled without a previous page, the forward ones without a next page, and all four while loading; `EnabledTargetInRange` and `NothingToNavigate` state the consequences |
| Pagination.EnabledTargetInRange | src/components/data-table/data-table-pagination.tsx:33-63 | an enabled first/previous/next/last button asks `onPageChange` for a different page that lies in range, and no button is enabled while loading |
| Pagination.NothingToNavigate | src/components/data-table/data-table-pagination.tsx:34-63 | on the only page, and whenever `isLoading` is set, all four buttons are disabled |
| Pagination.PageLabel | src/components/data-table/data-table-pagination.tsx:48 | "Page {pageIndex + 1} of {pageCount}"; `PageLabelShowsPage` states that the page number reads back |
| Pagination.PageLabelShowsPage | src/components/data-table/data-table-pagination.tsx:48 | "Page n of m" begins with "Page " followed by the digits that read back as `pageIndex + 1` |
| Pagination.SetPageIndex | src/components/Table/data-table-pagination.tsx:25 | the table's `setPageIndex` keeps the page size, never goes below 0 or past the last page, and takes the requested index exactly when it is in range |
| Pagination.PressMatchesTarget | src/components/Table/data-table-pagination.tsx:25-45 | an enabled button of the table footer moves the table to the page the callback footer's same button requests, and nothing else changes |
| TableFiltersContext.Merge | src/context/table-filters-context.tsx:37 | the table's new entry has the keys of the old entry and of `filters`; `filters` wins on its keys, the old entry supplies the rest, and a missing entry contributes nothing |
| TableFiltersContext.MergeIdempotent | src/context/table-filters-context.tsx:34-39 | calling `setTableFilters` twice with the same lists leaves the entry as one call does |
| TableFiltersContext.MergeTwice | src/context/table-filters-context.tsx:34-39 | two successive `setTableFilters` calls equal one call with the second lists spread over the first |
| TableFiltersContext.TableFiltersProvider.constructor | src/context/table-filters-context.tsx:27-32 | the provider's state starts as `initialFilters` |
| TableFiltersContext.TableFiltersProvider.GetTableFilters | src/context/table-filters-context.tsx:41 | a table's entry is returned exactly when the table has one, and is undefined otherwise |
| TableFiltersContext.TableFiltersProvider.SetTableFilters | src/context/table-filters-context.tsx:34-39 | only the named table's entry changes, to the merge of its old entry with `filters`; every other table reads back as before |
| TableFiltersContext.UseTableFilters | src/context/table-filters-context.tsx:50-58 | outside a provider the hook fails with its error message; inside, it yields the table's entry exactly when the table has one |
| TableFiltersContext.SetThenUse | src/context/table-filters-context.tsx:34-58 | after a table merges lists through the context, the hook reads back each merged list and every list it held before that was not overwritten |
| DirectoryPages.PresentParts | src/components/suppliers/index.tsx:68 | `filter(Boolean)` keeps every present part, returns no empty string and never more parts than it was given |
| DirectoryPages.PresentSnoc | src/components/suppliers/index.tsx:68 | `filter(Boolean)` visits the parts from the left: filtering one more part appends it exactly when it is present and non-empty |
| DirectoryPages.PresentPartsPositions | src/components/suppliers/index.tsx:68 | `filter(Boolean)` keeps exactly the present, non-empty parts, in their original order: each kept part comes from a present position, the positions increase, and every present position is used |
| DirectoryPages.EmptyLikeMissing | src/components/suppliers/index.tsx:67-70 | an empty column and a null one give the same formatted address |
| DirectoryPages.FormatAddress | src/components/suppliers/index.tsx:67-70 | `formatAddress`: the present street, city and state name joined by ", ", then a space and the zip code (or nothing), trimmed; its behaviour is stated by `FullAddress`, `EmptyLikeMissing` and `AddressWithoutZip` |
| DirectoryPages.FullAddress | src/components/suppliers/index.tsx:67-70 | a complete address with tidy columns reads "street, city, state zip" |
| DirectoryPages.AddressWithoutZip | src/components/locations/index.tsx:63-66 | without a zip code the trailing space is trimmed away, leaving the present columns joined by ", " |
| DirectoryPages.FormatName | src/components/suppliers/index.tsx:72-78 | `formatName`: "" without a contact, otherwise the present first and last names joined by one space; `NameSplitsBack` states that the names split back out |
| DirectoryPages.NameSplitsBack | src/components/suppliers/index.tsx:72-78 | the first and last names joined by one space split back into the two names; a missing name leaves the other on its own |
| DirectoryPages.Initials | src/components/suppliers/index.tsx:59-65 | `getInitials`: the first character of each space-separated word, upper-cased; `InitialsOfWords` states one initial per word |
| DirectoryPages.InitialsOfWords | src/components/suppliers/index.tsx:59-65 | a name of space-separated words has one initial per word: the word's first letter, upper-cased |
| DirectoryPages.StatusBadgeOf | src/components/locations/index.tsx:52-61 | the badge says "Active" exactly for an active row and "Inactive" exactly for an inactive one |
| DirectoryPages.CapacityColor | src/components/locations/index.tsx:46-50 | red at or above 90 percent, orange from 70 up to 90, green below 70, each in both directions |
| DirectoryPages.CapacityColorMonotone | src/components/locations/index.tsx:46-50 | a fuller location never shows a calmer colour |
| SupplierStats.FindCount | src/server/database/suppliers/GET/getSuppliers.ts:120-122 | a non-zero count is the count of a group keyed by the supplier; with no such group the lookup falls back to 0 |
| SupplierStats.FindCountIsCount | src/server/database/suppliers/GET/getSuppliers.ts:44-53 | when the group list is what `groupBy` returns, the `find(...) ?? 0` lookup is the supplier's (active) order count, 0 for a supplier without orders |
| SupplierStats.OrderTotalIsPriceSum | src/server/database/suppliers/GET/getSuppliers.ts:55-58 | when the sums are what `groupBy` returns, an order's looked-up total is the sum of its lines' non-null prices, 0 when it has none |
| SupplierStats.TotalValuesAgree | src/server/database/suppliers/GET/getSuppliers.ts:107-116 | `totalValueMap` has an entry exactly for the suppliers with orders, holding the sum of those orders' totals; the rest sum to 0 |
| SupplierStats.BuildTotalValueMap | src/server/database/suppliers/GET/getSuppliers.ts:107-116 | the `forEach` loop builds the map that adds each order's total to its supplier's entry |
| SupplierStats.GetSuppliers | src/server/database/suppliers/GET/getSuppliers.ts:119-139 | one record per supplier, in order, each carrying the supplier's looked-up order count, active order count and total value |
| SupplierStats.SupplierValueIsPrice | src/server/database/suppliers/GET/getSuppliers.ts:109-116 | summing the looked-up order totals per supplier equals summing the line prices of the supplier's orders in the tables |
| SupplierStats.SupplierStatsCorrect | src/server/database/suppliers/GET/getSuppliers.ts:119-137 | each record keeps its supplier row and reports its order count, its active order count and the summed line prices of its orders |
| SupplierStats.NoOrdersNoValue | src/server/database/suppliers/GET/getSuppliers.ts:120-129 | a supplier without purchase orders reports 0 orders, 0 active orders and a value of 0 |
| LocationStats.StockMapAgrees | src/server/database/locations/GET/getLocations.ts:61-64 | `stockMap` has an entry exactly for the grouped locations, holding that location's summed quantity with null read as 0 |
| LocationStats.BuildStockMap | src/server/database/locations/GET/getLocations.ts:61-64 | the `forEach` loop builds the map in which each group sets its location's stock |
| LocationStats.GetLocations | src/server/database/locations/GET/getLocations.ts:113-119 | one record per location, in order, each carrying the location's looked-up stock and item count |
| LocationStats.SumWithoutItems | src/server/database/locations/GET/getLocations.ts:56-59 | a location holding no items has no quantity sum (SQL `SUM` over no rows is null) |
| LocationStats.WithStock | src/server/database/locations/GET/getLocations.ts:113-117 | one location record: `stockMap.get(id) ?? 0` and `_count.Items ?? 0`; `LocationStatsCorrect` ties both to the tables |
| LocationStats.LocationStatsCorrect | src/server/database/locations/GET/getLocations.ts:113-117 | each record keeps its location row; its current stock is the summed quantity of its items (0 when none or all null), and its item count is `_count.Items`, or 0 when that is absent |
| ItemViews.ViewLabelsFallBack | src/components/items/modals/view-item-modal.tsx:45-48 | with no option for the ID the reference labels read "N/A" and the status label "Unknown"; any other reference label is some option's caption |
| ItemViews.StockAlertOf | src/components/items/modals/view-item-modal.tsx:167-179 | the alert shows exactly when the quantity, with null read as 0, is at or below the threshold, and it says "out of stock" exactly when the quantity is 0 |
| ItemViews.AlertAgreesWithStatus | src/components/items/modals/view-item-modal.tsx:167-179 | for a recorded quantity the alert shows exactly when the stock status the forms derive is not "in stock", and says "out of stock" exactly when that status is out of stock |
| ItemViews.NullQuantityRunsLow | src/components/items/modals/view-item-modal.tsx:167-179 | a null quantity counts as 0 for showing the alert, yet gets the "running low" wording, and its detail line begins "Only null" |
| ItemViews.BadgeMatchesModalColor | src/components/items/items-columns.tsx:16-27 | the table's status badge and the modal's status colour agree on every status ID, and only the three stock statuses get colour classes |
| ItemViews.ItemIdText | src/components/items/items-columns.tsx:33 | the ID cell starts with the prefix "ITM-0" |
| ItemViews.ItemIdReadsBack | src/components/items/items-columns.tsx:33 | the text after "ITM-0" reads back as the item ID |
| ItemViews.QuantityCellOf | src/components/items/items-columns.tsx:52-58 | the quantity is highlighted exactly when it is at or below the threshold, each null read as 0 |
| ItemViews.QuantityCellReadsBack | src/components/items/items-columns.tsx:52-58 | the cell's two numbers read back as the quantity and the threshold, each null read as 0 |
| ItemViews.HighlightMatchesAlert | src/components/items/items-columns.tsx:52-58 | when a threshold is recorded, the table highlights a quantity exactly when the item modal shows its stock alert |
| PurchaseOrderViews.UnlistedOrderLabel | src/components/purchase-orders/modals/view-purchase-order-modal.tsx:49-53 | an ID that no option reads as shows "Unknown" for the status and "N/A" for the supplier and the priority |
| PurchaseOrderViews.StatusColor | src/components/purchase-orders/modals/view-purchase-order-modal.tsx:55-65 | `getStatusColor`: a tinted class per status, "" for ORDERED and unknown statuses; `StatusColorCases` states which statuses share a colour |
| PurchaseOrderViews.StatusColorCases | src/components/purchase-orders/modals/view-purchase-order-modal.tsx:55-65 | exactly the statuses 1 to 8 other than ORDERED get a colour, and only cancelled and rejected share one |
| PurchaseOrderViews.PriorityColor | src/components/purchase-orders/modals/view-purchase-order-modal.tsx:67-73 | a colour is returned exactly for the low, medium and high priorities |
| PurchaseOrderViews.TotalItems | src/components/purchase-orders/modals/view-purchase-order-modal.tsx:86 | `totalItems`: the lines' quantities summed from the left, 0 without lines; `TotalItemsAdds`, `TotalItemsBound` and `TotalItemsNonNegative` state its properties |
| PurchaseOrderViews.TotalItemsAdds | src/components/purchase-orders/modals/view-purchase-order-modal.tsx:86 | the `reduce` total is additive: the lines of two lists together total the sum of their totals |
| PurchaseOrderViews.TotalItemsBound | src/components/purchase-orders/modals/view-purchase-order-modal.tsx:86 | with non-negative quantities, no line's quantity exceeds the total |
| PurchaseOrderViews.TotalItemsNonNegative | src/components/purchase-orders/modals/view-purchase-order-modal.tsx:86 | with non-negative quantities the total is non-negative |
| PurchaseOrderViews.BannersOf | src/components/purchase-orders/modals/view-purchase-order-modal.tsx:205-218 | the pending banner shows exactly for status 1 and the cancelled banner exactly for status 7, never both |
| PurchaseOrderViews.OrderViewer.constructor | src/components/purchase-orders/modals/view-purchase-order-modal.tsx:89-91 | opening the modal on a row shows it, with that order selected |
| PurchaseOrderViews.OrderViewer.Close | src/components/purchase-orders/modals/view-purchase-order-modal.tsx:91-94 | closing the modal also clears the selected order |
| PurchaseOrderViews.BadgeMatchesModalColor | src/components/purchase-orders/purchase-orders-columns.tsx:28-47 | the table's status badge and the modal's status colour agree on every status ID |
| PurchaseOrderViews.PriorityVariantCases | src/components/purchase-orders/purchase-orders-columns.tsx:49-60 | each known priority has its own badge variant, and exactly the unknown ones fall to the default, which are exactly those the modal leaves uncoloured |
| PurchaseOrderViews.OrderIdText | src/components/purchase-orders/purchase-orders-columns.tsx:66 | the ID cell starts with the prefix "PO-0" |
| PurchaseOrderViews.OrderIdReadsBack | src/components/purchase-orders/purchase-orders-columns.tsx:66 | the text after "PO-0" reads back as the order ID |
| PurchaseOrderViews.ItemsCell | src/components/purchase-orders/purchase-orders-columns.tsx:81 | the Items cell reads back as `Item_Count` |
| Badges.ToneOfTintClass | src/components/purchase-orders/modals/view-purchase-order-modal.tsx:57-63 | the colour family of a badge class can be read back from the class string |
| Badges.TintClassInjective | src/components/purchase-orders/modals/view-purchase-order-modal.tsx:57-71 | two badge classes are equal exactly when their colour families are |

## Left out

- React rendering and JSX are not modelled. That covers dialogs, popovers, badges as markup, the sidebar and navigation, and column view options. Colours, labels and banners are modelled as returned strings and flags.
- The `setTimeout(…, 0)` deferral of fetches and the race between out-of-order responses are not modelled. A fetch is one synchronous call that succeeds or fails.
- `router.refresh`/`back`, toasts and `console` logging are I/O. `push` and `replace` are kept only as the history update they make.
- Prisma is not modelled: transaction atomicity and isolation, and the classification of `PrismaClientKnownRequestError`. That classification is reduced to an error-kind datatype. The database's `contains` collation is not modelled; `contains` is plain substring containment, lower-cased on both sides where the code asks for `mode: "insensitive"`.
- Floating point and currency are not modelled. Prices and line amounts are integers. `Total_Amount` in `getPurchaseOrders` (src/server/database/purchase-orders/getPurchaseOrders.ts:154-159) and `calculateTotal` in the order view modal (src/components/purchase-orders/modals/view-purchase-order-modal.tsx:82-84) are left out, because both multiply by a decimal price. So are `formatCurrency`/`Intl.NumberFormat`, `toFixed`, the stats cards and the capacity percentage of a location (src/components/locations/index.tsx:42-44). `DirectoryPages.CapacityColor` takes that percentage as an exact real, without NaN or Infinity.
- Date handling is not modelled: the ISO-string slicing of order dates (src/server/database/purchase-orders/getPurchaseOrders.ts:160-174) and `date-fns` formatting. Clock readings are plain integer parameters.
- Zod schemas are a foreign validation library. The purchase-order schema contributes only its defaults (page 1, per_page 10). The items search-parameter schema is not part of this model, so the items action takes its validation as a parameter.
- The purchase-orders action imports `getPurchaseOrders` from a path that has no file. It is taken to be src/server/database/purchase-orders/getPurchaseOrders.ts.
- The toolbar imports its URL hook from a path that has no file. It is taken to be the hook in src/hooks/use-search-params.ts.
- Only the table-library behaviour the components rely on is modelled: `setFilterValue("")` removes the column filter, `setFilterValue(value)` rewrites an existing column filter in place (`DataTableToolbar.ReplaceAll`) or appends a new one, `setPageIndex` clamps into range, and `getCanPreviousPage`/`getCanNextPage`. Sorting, row models and column visibility are not.
- `Object.entries` visits integer-like keys in numeric order first, and the model does not capture that. The parameter and filter maps are iterated in the order of their configured field lists.
- The thin ORM wrappers are not modelled: `createItem`, `createPurchaseOrder`, `cancelPurchaseOrder`, `deleteItem`, the option loaders and the stats counters. The mutation action wrappers and the legacy dashboards, which only wire hooks into markup, are not modelled either.
- `removeFilter` in the filter badges pushes a new URL. `FilterBadges.RemoveFilterEffect` states the query it pushes, not the navigation.
- DataTableToolbar.AfterNavigation: the load effect is taken to re-run exactly when a navigation changes the query. The router and the hook's memoisation, which decide this, are not modelled.
- ItemForms.EditItemForm.SetQuantity: only quantity, threshold and status enter the comparison with the defaults. Edits to the other fields are not modelled.
- ItemForms.EditItemForm.SetThreshold: only quantity, threshold and status enter the comparison with the defaults, as for `SetQuantity`.
- Strings.ParseNumber: `Number(s)` is modelled only for optional-sign decimal integers with surrounding white space, and `""` or white space only reads as 0. Fractions, exponents, hexadecimal and `Infinity` read as NaN, which is `None`. In the purchase-order search by ID (`PurchaseOrderQuery.MatchesSearch`, src/server/database/purchase-orders/getPurchaseOrders.ts:84-89) a term such as `1.5` or `1e3` therefore adds no `Purchase_Order_ID` clause in the model, where the code passes that number to the ID comparison (so `1e3` would look for order 1000).
- Strings.ToUpper: case mapping covers ASCII letters only. Other characters are left unchanged.
- Strings.ToLower: case mapping covers ASCII letters only. Other characters are left unchanged.
- ListQuery.PageOf: a negative page size with a `skip` of 0 or more reaches the database as a negative `take`, which reads rows from the end of the result. The model reports it as `Unsupported` rather than computing those rows.
- ListQuery.InIdFilter: an ID-filter part that is not a number becomes `NaN` in the `in` list. The model takes such a part to match no row; the database's treatment of `NaN` is not modelled.
- EditPurchaseOrder.Database.EditPurchaseOrder: whether the database rejects a write is an input (`rejected`), not computed. Such rejections include a foreign key to an unknown supplier, status, priority or item, the item 0 that a null item ID is written as, and an invalid date. On a rejection the model restores the line counter, although the database may have consumed autoincrement values.
- EditItem.Database.EditItem: whether the database rejects a write is an input (`rejected`), not computed. Such rejections include a foreign key to an unknown category, supplier, location or status, and a value the client refuses to send.

=== FILE: badges.dfy ===
/**
 * The tinted badge classes the status and priority colour maps return. Every tinted badge
 * has the form `bg-{c}-500/10 text-{c}-500 hover:bg-{c}-500/20` for one colour family `c`.
 */
module Badges {
  import opened Wrappers

  /** The colour families the badges use. */
  datatype Tone = Green | Orange | Red | Blue | Yellow | Purple | Gray

  /** The colour family's name in the class names. */
  function Family(t: Tone): (r: string)
    ensures |r| >= 3
  {
    match t
    case Green => "green"
    case Orange => "orange"
    case Red => "red"
    case Blue => "blue"
    case Yellow => "yellow"
    case Purple => "purple"
    case Gray => "gray"
  }

  /** The Tailwind classes of a badge tinted with `t`. */
  function TintClass(t: Tone): (r: string)
    ensures |r| > 5
  {
    var c := Family(t);
    "bg-" + c + "-500/10 text-" + c + "-500 hover:bg-" + c + "-500/20"
  }

  /** The colour family named by a class string: its fourth character, and its sixth to tell green from gray. */
  function ToneOf(c: string): Option<Tone>
  {
    if |c| <= 5 then None
    else match c[3]
      case 'o' => Some(Orange)
      case 'r' => Some(Red)
      case 'b' => Some(Blue)
      case 'y' => Some(Yellow)
      case 'p' => Some(Purple)
      case 'g' => if c[5] == 'e' then Some(Green) else Some(Gray)
      case _ => None
  }

  /** The colour family reads back from the classes. */
  lemma ToneOfTintClass(t: Tone)
    ensures ToneOf(TintClass(t)) == Some(t)
  {
    var c := TintClass(t);
    assert c[3] == Family(t)[0] && c[5] == Family(t)[2];
  }

  /** Different colour families give different classes. */
  lemma TintClassInjective(t: Tone, u: Tone)
    ensures TintClass(t) == TintClass(u) <==> t == u
  {
    ToneOfTintClass(t);
    ToneOfTintClass(u);
  }
}

=== FILE: data_table_filters.dfy ===
/**
 * The list-query state controller of one data table
 * (`useDataTableFilters`, src/hooks/use-data-table-filters.ts).
 *
 * It owns the search text, the per-key filter values (`"all"` means no
 * constraint), the page index and size, the rows on screen and their total
 * count.  Every handler updates that state, mirrors it into the URL query
 * string with a history replace, and calls the injected `fetchData`, whose
 * success replaces the rows and total and whose failure keeps them.
 */
module DataTableFilters {
  import opened Wrappers
  import opened Strings
  import opened UrlQuery
  import opened Paging
  import opened Options

  /** One configured filter: its state key, display caption and selectable options. */
  datatype FilterConfig = FilterConfig(key: string, caption: string, options: seq<FilterOption>)

  /** A filter-values object: (key, value) entries in insertion order. */
  type Filters = seq<(string, string)>

  /** What `fetchData` receives. */
  datatype FetchRequest = FetchRequest(page: int, pageSize: int, search: Option<string>, filters: Filters)

  /** What `fetchData` settles with: a page of rows and its pagination, or a rejection. */
  datatype FetchOutcome<T> = Fetched(data: seq<T>, pagination: PageInfo) | FetchFailed

  /** The mapping used when the caller passes none. */
  const DefaultMapping: map<string, string> :=
    map["search" := "Search_Term", "page" := "page", "pageSize" := "per_page"]

  /** `urlParamMapping[key] || fallback` */
  function ParamName(mapping: map<string, string>, key: string, fallback: string): string
  {
    if key in mapping && mapping[key] != "" then mapping[key] else fallback
  }

  function SearchName(mapping: map<string, string>): string { ParamName(mapping, "search", "Search_Term") }
  function PageName(mapping: map<string, string>): string { ParamName(mapping, "page", "page") }
  function PerPageName(mapping: map<string, string>): string { ParamName(mapping, "pageSize", "per_page") }
  function FilterName(mapping: map<string, string>, key: string): string { ParamName(mapping, key, key) }

  /** `value || fallback` for a string that may be null. */
  function OrElse(v: Option<string>, fallback: string): string
  {
    if v.Some? && v.value != "" then v.value else fallback
  }

  function ConfigKeys(configs: seq<FilterConfig>): set<string>
  {
    set c | c in configs :: c.key
  }

  // ---------------------------------------------------------------------------
  // Initial state

  /** The initial filters: every configured key holds its URL value, or `"all"`. */
  function InitialFilters(configs: seq<FilterConfig>, mapping: map<string, string>, q: Query): (r: Filters)
    ensures UniqueKeys(r)
  {
    if |configs| == 0 then []
    else
      var c := configs[|configs| - 1];
      var prev := InitialFilters(configs[..|configs| - 1], mapping, q);
      var v := OrElse(Get(q, FilterName(mapping, c.key)), "all");
      LookupAssign(prev, c.key, v, c.key);
      Assign(prev, c.key, v)
  }

  /** Each configured key starts at the value found under its URL name, or `"all"` when absent or empty. */
  lemma {:induction false} InitialFilterValue(configs: seq<FilterConfig>, mapping: map<string, string>, q: Query, key: string)
    ensures Lookup(InitialFilters(configs, mapping, q), key)
            == if key in ConfigKeys(configs) then Some(OrElse(Get(q, FilterName(mapping, key)), "all")) else None
    decreases |configs|
  {
    if |configs| > 0 {
      var c := configs[|configs| - 1];
      var init := configs[..|configs| - 1];
      InitialFilterValue(init, mapping, q, key);
      LookupAssign(InitialFilters(init, mapping, q), c.key, OrElse(Get(q, FilterName(mapping, c.key)), "all"), key);
      assert configs == init + [c];
      assert ConfigKeys(configs) == ConfigKeys(init) + {c.key};
    }
  }

  /** `clearAllFilters`: a fresh object holding `"all"` under every configured key. */
  function ClearedFilters(configs: seq<FilterConfig>): (r: Filters)
    ensures UniqueKeys(r)
  {
    if |configs| == 0 then []
    else
      var prev := ClearedFilters(configs[..|configs| - 1]);
      LookupAssign(prev, configs[|configs| - 1].key, "all", "");
      Assign(prev, configs[|configs| - 1].key, "all")
  }

  /** After `clearAllFilters` exactly the configured keys are present, each holding `"all"`. */
  lemma {:induction false} ClearedFilterValue(configs: seq<FilterConfig>, key: string)
    ensures Lookup(ClearedFilters(configs), key) == if key in ConfigKeys(configs) then Some("all") else None
    decreases |configs|
  {
    if |configs| > 0 {
      var c := configs[|configs| - 1];
      var init := configs[..|configs| - 1];
      ClearedFilterValue(init, key);
      LookupAssign(ClearedFilters(init), c.key, "all", key);
      assert configs == init + [c];
      assert ConfigKeys(configs) == ConfigKeys(init) + {c.key};
    }
  }

  // ---------------------------------------------------------------------------
  // Derived values

  /** `activeFilterCount`: the number of values other than `"all"`. */
  function ActiveFilterCount(fs: Filters): nat
  {
    if |fs| == 0 then 0 else ActiveFilterCount(fs[..|fs| - 1]) + (if fs[|fs| - 1].1 != "all" then 1 else 0)
  }

  /** `hasActiveFilters`: some value is not `"all"`. */
  predicate HasActiveFilters(fs: Filters)
  {
    exists i :: 0 <= i < |fs| && fs[i].1 != "all"
  }

  /** `hasActiveFilters` holds exactly when `activeFilterCount > 0`. */
  lemma {:induction false} ActiveIffCounted(fs: Filters)
    ensures HasActiveFilters(fs) <==> ActiveFilterCount(fs) > 0
    decreases |fs|
  {
    if |fs| > 0 {
      var init := fs[..|fs| - 1];
      ActiveIffCounted(init);
      if HasActiveFilters(init) {
        var i :| 0 <= i < |init| && init[i].1 != "all";
        assert fs[i] == init[i];
      }
      if HasActiveFilters(fs) && fs[|fs| - 1].1 == "all" {
        var i :| 0 <= i < |fs| && fs[i].1 != "all";
        assert init[i] == fs[i];
      }
    }
  }

  /** The filters passed to `fetchData`: the entries whose value is not `"all"`, in order. */
  function ActiveOnly(fs: Filters): (r: Filters)
    ensures |r| == ActiveFilterCount(fs)
    ensures forall p | p in r :: p in fs && p.1 != "all"
    ensures forall p | p in fs && p.1 != "all" :: p in r
  {
    if |fs| == 0 then []
    else
      var last := fs[|fs| - 1];
      assert fs == fs[..|fs| - 1] + [last];
      ActiveOnly(fs[..|fs| - 1]) + (if last.1 != "all" then [last] else [])
  }

  /** The request `fetch` issues for a state: one-based page, no search when empty, only active filters. */
  function RequestFor(pageIndex: int, pageSize: int, search: string, fs: Filters): FetchRequest
  {
    FetchRequest(pageIndex + 1, pageSize, if search == "" then None else Some(search), ActiveOnly(fs))
  }

  // ---------------------------------------------------------------------------
  // URL synchronisation

  /** A filter value as a URL parameter: `"all"` becomes null (deleted). */
  function FilterParam(v: string): ParamValue
  {
    if v != "all" then Str(v) else Null
  }

  /** The first three entries of `syncUrlParams`' object: page, page size and search. */
  function BaseEntries(mapping: map<string, string>, pageIndex: int, pageSize: int, search: string): Entries
  {
    var withPage := Assign([], PageName(mapping), Num(pageIndex + 1));
    var withSize := Assign(withPage, PerPageName(mapping), Num(pageSize));
    Assign(withSize, SearchName(mapping), if search != "" then Str(search) else Null)
  }

  /** The object `syncUrlParams` hands to `setParams`, filter entries added in order. */
  function SyncEntries(mapping: map<string, string>, pageIndex: int, pageSize: int, search: string, fs: Filters): Entries
  {
    if |fs| == 0 then BaseEntries(mapping, pageIndex, pageSize, search)
    else
      var (key, value) := fs[|fs| - 1];
      Assign(SyncEntries(mapping, pageIndex, pageSize, search, fs[..|fs| - 1]), FilterName(mapping, key), FilterParam(value))
  }

  /** The value of the last filter whose URL name is `name`. */
  function LastFilterFor(mapping: map<string, string>, fs: Filters, name: string): Option<string>
  {
    if |fs| == 0 then None
    else if FilterName(mapping, fs[|fs| - 1].0) == name then Some(fs[|fs| - 1].1)
    else LastFilterFor(mapping, fs[..|fs| - 1], name)
  }

  /** What the sync object holds under a name: a filter's value, else search, page size or page. */
  function SyncedValue(mapping: map<string, string>, pageIndex: int, pageSize: int, search: string, fs: Filters, name: string): Option<ParamValue>
  {
    match LastFilterFor(mapping, fs, name)
    case Some(v) => Some(FilterParam(v))
    case None =>
      if name == SearchName(mapping) then Some(if search != "" then Str(search) else Null)
      else if name == PerPageName(mapping) then Some(Num(pageSize))
      else if name == PageName(mapping) then Some(Num(pageIndex + 1))
      else None
  }

  lemma {:induction false} LookupSyncEntries(mapping: map<string, string>, pageIndex: int, pageSize: int, search: string, fs: Filters, name: string)
    ensures UniqueKeys(SyncEntries(mapping, pageIndex, pageSize, search, fs))
    ensures Lookup(SyncEntries(mapping, pageIndex, pageSize, search, fs), name)
            == SyncedValue(mapping, pageIndex, pageSize, search, fs, name)
    decreases |fs|
  {
    if |fs| == 0 {
      var withPage := Assign([], PageName(mapping), Num(pageIndex + 1));
      var withSize := Assign(withPage, PerPageName(mapping), Num(pageSize));
      var searchValue := if search != "" then Str(search) else Null;
      LookupAssign([], PageName(mapping), Num(pageIndex + 1), name);
      LookupAssign(withPage, PerPageName(mapping), Num(pageSize), name);
      LookupAssign(withSize, SearchName(mapping), searchValue, name);
    } else {
      var (key, value) := fs[|fs| - 1];
      LookupSyncEntries(mapping, pageIndex, pageSize, search, fs[..|fs| - 1], name);
      LookupAssign(SyncEntries(mapping, pageIndex, pageSize, search, fs[..|fs| - 1]), FilterName(mapping, key), FilterParam(value), name);
    }
  }

  /** The URL names the controller writes are pairwise different. */
  predicate DistinctNames(mapping: map<string, string>, fs: Filters)
  {
    var fixed := [PageName(mapping), PerPageName(mapping), SearchName(mapping)];
    && PageName(mapping) != PerPageName(mapping)
    && PageName(mapping) != SearchName(mapping)
    && PerPageName(mapping) != SearchName(mapping)
    && (forall i | 0 <= i < |fs| :: FilterName(mapping, fs[i].0) !in fixed)
    && (forall i, j | 0 <= i < j < |fs| :: FilterName(mapping, fs[i].0) != FilterName(mapping, fs[j].0))
  }

  lemma {:induction false} LastFilterForOwnName(mapping: map<string, string>, fs: Filters, i: nat)
    requires i < |fs|
    requires forall a, b | 0 <= a < b < |fs| :: FilterName(mapping, fs[a].0) != FilterName(mapping, fs[b].0)
    ensures LastFilterFor(mapping, fs, FilterName(mapping, fs[i].0)) == Some(fs[i].1)
    decreases |fs|
  {
    if i < |fs| - 1 {
      LastFilterForOwnName(mapping, fs[..|fs| - 1], i);
    }
  }

  lemma {:induction false} LastFilterForOther(mapping: map<string, string>, fs: Filters, name: string)
    requires forall i | 0 <= i < |fs| :: FilterName(mapping, fs[i].0) != name
    ensures LastFilterFor(mapping, fs, name) == None
    decreases |fs|
  {
    if |fs| > 0 {
      LastFilterForOther(mapping, fs[..|fs| - 1], name);
    }
  }

  /** What a sync leaves under one name: the synced entry when there is one, else the old value. */
  lemma SyncedName(q: Query, mapping: map<string, string>, pageIndex: int, pageSize: int, search: string, fs: Filters, name: string)
    ensures Get(ApplyEntries(q, SyncEntries(mapping, pageIndex, pageSize, search, fs)), name)
            == match SyncedValue(mapping, pageIndex, pageSize, search, fs, name)
               case None => Get(q, name)
               case Some(v) => if Clears(v) then None else Some(Render(v))
  {
    GetApplyEntries(q, SyncEntries(mapping, pageIndex, pageSize, search, fs), name);
    LookupSyncEntries(mapping, pageIndex, pageSize, search, fs, name);
  }

  /**
   * After a sync, with distinct URL names: `page` holds `pageIndex + 1`, `per_page` the
   * page size, and the search name is present iff the search text is neither `""` nor `"all"`.
   */
  lemma SyncedPaging(q: Query, mapping: map<string, string>, pageIndex: int, pageSize: int, search: string, fs: Filters)
    requires DistinctNames(mapping, fs)
    ensures var q' := ApplyEntries(q, SyncEntries(mapping, pageIndex, pageSize, search, fs));
      && Get(q', PageName(mapping)) == Some(IntToString(pageIndex + 1))
      && Get(q', PerPageName(mapping)) == Some(IntToString(pageSize))
      && Get(q', SearchName(mapping)) == (if search == "" || search == "all" then None else Some(search))
  {
    var fixed := [PageName(mapping), PerPageName(mapping), SearchName(mapping)];
    assert fixed[0] == PageName(mapping) && fixed[1] == PerPageName(mapping) && fixed[2] == SearchName(mapping);
    SyncedName(q, mapping, pageIndex, pageSize, search, fs, PageName(mapping));
    LastFilterForOther(mapping, fs, PageName(mapping));
    SyncedName(q, mapping, pageIndex, pageSize, search, fs, PerPageName(mapping));
    LastFilterForOther(mapping, fs, PerPageName(mapping));
    SyncedName(q, mapping, pageIndex, pageSize, search, fs, SearchName(mapping));
    LastFilterForOther(mapping, fs, SearchName(mapping));
  }

  /** After a sync, with distinct URL names, each filter's name is present iff its value is neither `"all"` nor `""`. */
  lemma SyncedFilter(q: Query, mapping: map<string, string>, pageIndex: int, pageSize: int, search: string, fs: Filters, i: nat)
    requires i < |fs|
    requires forall a, b | 0 <= a < b < |fs| :: FilterName(mapping, fs[a].0) != FilterName(mapping, fs[b].0)
    ensures Get(ApplyEntries(q, SyncEntries(mapping, pageIndex, pageSize, search, fs)), FilterName(mapping, fs[i].0))
            == if fs[i].1 == "all" || fs[i].1 == "" then None else Some(fs[i].1)
  {
    SyncedName(q, mapping, pageIndex, pageSize, search, fs, FilterName(mapping, fs[i].0));
    LastFilterForOwnName(mapping, fs, i);
  }

  /** Names the controller never writes keep their value through a sync. */
  lemma SyncKeepsOtherNames(q: Query, mapping: map<string, string>, pageIndex: int, pageSize: int, search: string, fs: Filters, name: string)
    requires name != PageName(mapping) && name != PerPageName(mapping) && name != SearchName(mapping)
    requires forall i | 0 <= i < |fs| :: FilterName(mapping, fs[i].0) != name
    ensures Get(ApplyEntries(q, SyncEntries(mapping, pageIndex, pageSize, search, fs)), name) == Get(q, name)
  {
    GetApplyEntries(q, SyncEntries(mapping, pageIndex, pageSize, search, fs), name);
    LookupSyncEntries(mapping, pageIndex, pageSize, search, fs, name);
    LastFilterForOther(mapping, fs, name);
  }

  /** Appending a fresh key is all `obj[key] = value` does when the key is new. */
  lemma {:induction false} AssignFresh<V>(ps: seq<(string, V)>, key: string, value: V)
    requires forall i | 0 <= i < |ps| :: ps[i].0 != key
    ensures Assign(ps, key, value) == ps + [(key, value)]
    decreases |ps|
  {
    if |ps| > 0 {
      AssignFresh(ps[1..], key, value);
      assert [ps[0]] + (ps[1..] + [(key, value)]) == ps + [(key, value)];
    }
  }

  /** The filters are exactly the configured keys, in configuration order. */
  predicate ShapedBy(fs: Filters, configs: seq<FilterConfig>)
  {
    |fs| == |configs| && forall i | 0 <= i < |fs| :: fs[i].0 == configs[i].key
  }

  /**
   * URL round trip: syncing a state whose filters follow the configuration (no value
   * `""`, no search `"all"`, distinct URL names) and then hydrating a fresh controller
   * from the resulting URL gives back the same filters and search text.
   */
  lemma {:induction false} UrlRoundTrip(q: Query, mapping: map<string, string>, configs: seq<FilterConfig>,
                                        pageIndex: int, pageSize: int, search: string, fs: Filters)
    requires ShapedBy(fs, configs)
    requires DistinctNames(mapping, fs)
    requires forall i | 0 <= i < |fs| :: fs[i].1 != ""
    requires search != "all"
    ensures var q' := ApplyEntries(q, SyncEntries(mapping, pageIndex, pageSize, search, fs));
      && InitialFilters(configs, mapping, q') == fs
      && OrElse(Get(q', SearchName(mapping)), "") == search
  {
    var q' := ApplyEntries(q, SyncEntries(mapping, pageIndex, pageSize, search, fs));
    SyncedPaging(q, mapping, pageIndex, pageSize, search, fs);
    forall i | 0 <= i < |fs|
      ensures Get(q', FilterName(mapping, fs[i].0)) == if fs[i].1 == "all" || fs[i].1 == "" then None else Some(fs[i].1)
    {
      SyncedFilter(q, mapping, pageIndex, pageSize, search, fs, i);
    }
    HydratePrefix(q', mapping, configs, fs, |fs|);
    assert configs[..|fs|] == configs && fs[..|fs|] == fs;
  }

  lemma {:induction false} HydratePrefix(q: Query, mapping: map<string, string>, configs: seq<FilterConfig>, fs: Filters, n: nat)
    requires ShapedBy(fs, configs) && n <= |fs|
    requires forall i, j | 0 <= i < j < |fs| :: FilterName(mapping, fs[i].0) != FilterName(mapping, fs[j].0)
    requires forall i | 0 <= i < |fs| :: fs[i].1 != ""
    requires forall i | 0 <= i < |fs| :: Get(q, FilterName(mapping, fs[i].0))
                                         == if fs[i].1 == "all" || fs[i].1 == "" then None else Some(fs[i].1)
    ensures InitialFilters(configs[..n], mapping, q) == fs[..n]
    decreases n
  {
    if n > 0 {
      HydratePrefix(q, mapping, configs, fs, n - 1);
      var prev, c := fs[..n - 1], configs[n - 1];
      var v := OrElse(Get(q, FilterName(mapping, c.key)), "all");
      assert configs[..n][..n - 1] == configs[..n - 1];
      assert InitialFilters(configs[..n], mapping, q) == Assign(prev, c.key, v);
      assert v == fs[n - 1].1;
      forall i | 0 <= i < |prev| ensures prev[i].0 != c.key {
        assert FilterName(mapping, fs[i].0) != FilterName(mapping, fs[n - 1].0);
      }
      AssignFresh(prev, c.key, v);
      assert fs[..n] == prev + [(c.key, v)];
    }
  }

  // ---------------------------------------------------------------------------
  // The controller

  class FilterController<T> {
    const configs: seq<FilterConfig>
    const mapping: map<string, string>
    const fetchData: FetchRequest -> FetchOutcome<T>
    const url: SearchParams

    var data: seq<T>
    var searchQuery: string
    var filters: Filters
    var isLoading: bool
    var pageIndex: int
    var pageSize: int
    var totalCount: int

    ghost predicate Valid()
      reads this, url
    {
      url.Valid() && UniqueKeys(filters)
    }

    /** The request that a fetch from the current state issues. */
    function Request(): FetchRequest
      reads this
    {
      RequestFor(pageIndex, pageSize, searchQuery, filters)
    }

    /**
     * The state once a fetch from the current state has settled: the URL holds the
     * synced query (written with a history replace), rows and total come from a
     * successful fetch or stay as they were, and loading is over.
     */
    ghost predicate Settled(data0: seq<T>, total0: int, query0: Query, history0: seq<Url>)
      reads this, url
    {
      && !isLoading
      && |history0| >= 1
      && url.query == ApplyEntries(query0, SyncEntries(mapping, pageIndex, pageSize, searchQuery, filters))
      && url.history == history0[..|history0| - 1] + [Url(url.pathname, url.query)]
      && match fetchData(Request())
         case Fetched(rows, info) => data == rows && totalCount == info.totalCount
         case FetchFailed => data == data0 && totalCount == total0
    }

    /** Mount: filters and search come from the URL, page and total from the server's first page. */
    constructor (initialData: seq<T>, initialPagination: PageInfo, fetchData: FetchRequest -> FetchOutcome<T>,
                 configs: seq<FilterConfig>, urlParamMapping: Option<map<string, string>>, url: SearchParams)
      requires url.Valid()
      ensures Valid()
      ensures this.configs == configs && this.fetchData == fetchData && this.url == url
      ensures mapping == urlParamMapping.GetOr(DefaultMapping)
      ensures data == initialData
      ensures searchQuery == OrElse(url.GetParam(SearchName(mapping)), "")
      ensures filters == InitialFilters(configs, mapping, url.query)
      ensures pageIndex == initialPagination.page - 1 && pageSize == initialPagination.pageSize
      ensures totalCount == initialPagination.totalCount
      ensures !isLoading
    {
      var m := urlParamMapping.GetOr(DefaultMapping);
      this.configs := configs;
      this.mapping := m;
      this.fetchData := fetchData;
      this.url := url;
      data := initialData;
      searchQuery := OrElse(url.GetParam(SearchName(m)), "");
      filters := InitialFilters(configs, m, url.query);
      isLoading := false;
      pageIndex := initialPagination.page - 1;
      pageSize := initialPagination.pageSize;
      totalCount := initialPagination.totalCount;
    }

    /** `syncUrlParams`: builds the parameter object entry by entry and writes it with a replace. */
    method SyncUrlParams(pageIndex: int, pageSize: int, search: string, fs: Filters)
      requires url.Valid()
      modifies url
      ensures url.Valid()
      ensures url.pathname == old(url.pathname)
      ensures url.query == ApplyEntries(old(url.query), SyncEntries(mapping, pageIndex, pageSize, search, fs))
      ensures url.history == old(url.history)[..|old(url.history)| - 1] + [Url(url.pathname, url.query)]
    {
      var params := BaseEntries(mapping, pageIndex, pageSize, search);
      var i := 0;
      while i < |fs|
        invariant 0 <= i <= |fs|
        invariant params == SyncEntries(mapping, pageIndex, pageSize, search, fs[..i])
      {
        assert fs[..i + 1][..i] == fs[..i];
        var (key, value) := fs[i];
        params := Assign(params, FilterName(mapping, key), if value != "all" then Str(value) else Null);
        i := i + 1;
      }
      assert fs[..|fs|] == fs;
      url.SetParams(params, true);
    }

    /** `fetch`: sync the URL, call `fetchData`, keep the old rows on failure, clear loading. */
    method Fetch()
      requires Valid()
      modifies this, url
      ensures Valid()
      ensures searchQuery == old(searchQuery) && filters == old(filters)
      ensures pageIndex == old(pageIndex) && pageSize == old(pageSize)
      ensures Settled(old(data), old(totalCount), old(url.query), old(url.history))
      ensures url.pathname == old(url.pathname)
    {
      isLoading := true;
      SyncUrlParams(pageIndex, pageSize, searchQuery, filters);
      var outcome := fetchData(RequestFor(pageIndex, pageSize, searchQuery, filters));
      match outcome {
        case Fetched(rows, info) =>
          data := rows;
          totalCount := info.totalCount;
        case FetchFailed =>
      }
      isLoading := false;
    }

    /** The exposed `setSearchQuery`: stages the search text without fetching. */
    method SetSearchQuery(text: string)
      modifies this
      ensures searchQuery == text
      ensures filters == old(filters) && pageIndex == old(pageIndex) && pageSize == old(pageSize)
      ensures data == old(data) && totalCount == old(totalCount) && isLoading == old(isLoading)
    {
      searchQuery := text;
    }

    /** `handleSearch`: back to the first page with the staged search text. */
    method HandleSearch()
      requires Valid()
      modifies this, url
      ensures Valid()
      ensures pageIndex == 0 && pageSize == old(pageSize)
      ensures searchQuery == old(searchQuery) && filters == old(filters)
      ensures Settled(old(data), old(totalCount), old(url.query), old(url.history))
      ensures url.pathname == old(url.pathname)
    {
      pageIndex := 0;
      Fetch();
    }

    /** `handleFilterChange(key, value)`: only `key` changes, and the page resets. */
    method HandleFilterChange(key: string, value: string)
      requires Valid()
      modifies this, url
      ensures Valid()
      ensures filters == Assign(old(filters), key, value)
      ensures Lookup(filters, key) == Some(value)
      ensures forall other | other != key :: Lookup(filters, other) == Lookup(old(filters), other)
      ensures pageIndex == 0 && pageSize == old(pageSize) && searchQuery == old(searchQuery)
      ensures Settled(old(data), old(totalCount), old(url.query), old(url.history))
      ensures url.pathname == old(url.pathname)
    {
      LookupAssign(filters, key, value, key);
      forall other ensures Lookup(Assign(filters, key, value), other)
                           == if other == key then Some(value) else Lookup(filters, other) {
        LookupAssign(filters, key, value, other);
      }
      filters := Assign(filters, key, value);
      pageIndex := 0;
      Fetch();
    }

    /** `handlePaginationChange(i)`: moves to page index `i` unclamped; filters and search stay. */
    method HandlePaginationChange(newPageIndex: int)
      requires Valid()
      modifies this, url
      ensures Valid()
      ensures pageIndex == newPageIndex && pageSize == old(pageSize)
      ensures searchQuery == old(searchQuery) && filters == old(filters)
      ensures Settled(old(data), old(totalCount), old(url.query), old(url.history))
      ensures url.pathname == old(url.pathname)
    {
      pageIndex := newPageIndex;
      Fetch();
    }

    /** `clearAllFilters`: every configured key back to `"all"`, page reset. */
    method ClearAllFilters()
      requires Valid()
      modifies this, url
      ensures Valid()
      ensures filters == ClearedFilters(configs)
      ensures forall key :: Lookup(filters, key) == if key in ConfigKeys(configs) then Some("all") else None
      ensures !HasActiveFilters(filters)
      ensures pageIndex == 0 && pageSize == old(pageSize) && searchQuery == old(searchQuery)
      ensures Settled(old(data), old(totalCount), old(url.query), old(url.history))
      ensures url.pathname == old(url.pathname)
    {
      filters := ClearedFilters(configs);
      forall key ensures Lookup(filters, key) == if key in ConfigKeys(configs) then Some("all") else None {
        ClearedFilterValue(configs, key);
      }
      pageIndex := 0;
      Fetch();
      forall i | 0 <= i < |filters| ensures filters[i].1 == "all" {
        LookupFirstOf(filters, i);
      }
    }

    /** `clearSearch`: the search text becomes `""`, page reset. */
    method ClearSearch()
      requires Valid()
      modifies this, url
      ensures Valid()
      ensures searchQuery == "" && filters == old(filters)
      ensures pageIndex == 0 && pageSize == old(pageSize)
      ensures Settled(old(data), old(totalCount), old(url.query), old(url.history))
      ensures url.pathname == old(url.pathname)
    {
      searchQuery := "";
      pageIndex := 0;
      Fetch();
    }

    /** `removeFilter(key)`: only `key` changes, to `"all"`, and the page resets. */
    method RemoveFilter(key: string)
      requires Valid()
      modifies this, url
      ensures Valid()
      ensures filters == Assign(old(filters), key, "all")
      ensures Lookup(filters, key) == Some("all")
      ensures forall other | other != key :: Lookup(filters, other) == Lookup(old(filters), other)
      ensures pageIndex == 0 && pageSize == old(pageSize) && searchQuery == old(searchQuery)
      ensures Settled(old(data), old(totalCount), old(url.query), old(url.history))
      ensures url.pathname == old(url.pathname)
    {
      LookupAssign(filters, key, "all", key);
      forall other ensures Lookup(Assign(filters, key, "all"), other)
                           == if other == key then Some("all") else Lookup(filters, other) {
        LookupAssign(filters, key, "all", other);
      }
      filters := Assign(filters, key, "all");
      pageIndex := 0;
      Fetch();
    }

    /** `hasActiveSearch` */
    predicate HasActiveSearch()
      reads this
    {
      searchQuery != ""
    }
  }

  /** With unique keys, the value stored at position `i` is the value looked up under its key. */
  lemma {:induction false} LookupFirstOf<V>(ps: seq<(string, V)>, i: nat)
    requires UniqueKeys(ps) && i < |ps|
    ensures Lookup(ps, ps[i].0) == Some(ps[i].1)
    decreases |ps|
  {
    if i < |ps| - 1 {
      LookupFirstOf(ps[..|ps| - 1], i);
    }
  }
}

=== FILE: data_table_toolbar.dfy ===
/**
 * The table toolbar (src/components/Table/data-table-toolbar.tsx): its filter fields split
 * into search inputs and select/slider filters; the table's column filters are loaded
 * from the URL, edited by the inputs and selects, and every edit is mirrored into the
 * URL through the search-params hook.
 */
module DataTableToolbar {
  import opened Wrappers
  import opened Options
  import opened UrlQuery

  /** The table's column filters, `{ id, value }` in order; the first entry with an id is its filter value. */
  type ColumnFilters = seq<(string, string)>

  /** A field rendered as a search input: no options and not a slider. */
  predicate IsSearchField(f: FilterField)
  {
    f.options.None? && !f.isSlider
  }

  /** Search inputs: fields with no options that are not sliders. */
  function Searchable(fields: seq<FilterField>): seq<FilterField>
  {
    if |fields| == 0 then []
    else (if IsSearchField(fields[0]) then [fields[0]] else []) + Searchable(fields[1..])
  }

  /** Filter selects: fields with options or sliders, that is, every field that is not a search input. */
  function Filterable(fields: seq<FilterField>): seq<FilterField>
  {
    if |fields| == 0 then []
    else (if !IsSearchField(fields[0]) then [fields[0]] else []) + Filterable(fields[1..])
  }

  /** The search inputs are exactly the fields with no options that are not sliders, the selects exactly the others. */
  lemma {:induction false} FieldsClassified(fields: seq<FilterField>)
    ensures forall f | f in Searchable(fields) :: f in fields && f.options.None? && !f.isSlider
    ensures forall f | f in fields && f.options.None? && !f.isSlider :: f in Searchable(fields)
    ensures forall f | f in Filterable(fields) :: f in fields && (f.options.Some? || f.isSlider)
    ensures forall f | f in fields && (f.options.Some? || f.isSlider) :: f in Filterable(fields)
    decreases |fields|
  {
    if |fields| > 0 {
      var f, rest := fields[0], fields[1..];
      FieldsClassified(rest);
      assert fields == [f] + rest;
    }
  }

  /** Search inputs and filter selects partition the fields: together they are the fields, with none in both. */
  lemma FieldsPartition(fields: seq<FilterField>)
    ensures multiset(Searchable(fields)) + multiset(Filterable(fields)) == multiset(fields)
    ensures forall f | f in Searchable(fields) :: f !in Filterable(fields)
  {
    FieldsClassified(fields);
    FieldsCounted(fields);
  }

  lemma {:induction false} FieldsCounted(fields: seq<FilterField>)
    ensures multiset(Searchable(fields)) + multiset(Filterable(fields)) == multiset(fields)
    decreases |fields|
  {
    if |fields| > 0 {
      var f, rest := fields[0], fields[1..];
      FieldsCounted(rest);
      assert fields == [f] + rest;
      assert multiset(fields) == multiset{f} + multiset(rest);
      if IsSearchField(f) {
        assert Searchable(fields) == [f] + Searchable(rest);
        assert Filterable(fields) == Filterable(rest);
      } else {
        assert Searchable(fields) == Searchable(rest);
        assert Filterable(fields) == [f] + Filterable(rest);
      }
    }
  }

  /** The column filters the load effect builds from `getAllParams()`: one entry per URL name, holding its last value. */
  function LoadedFilters(q: Query): ColumnFilters
  {
    if |q| == 0 then [] else Assign(LoadedFilters(q[..|q| - 1]), q[|q| - 1].0, q[|q| - 1].1)
  }

  /** On load, each URL name becomes one column filter holding the value `getAllParams` reports for it. */
  lemma {:induction false} LoadedFiltersAgree(q: Query, id: string)
    ensures UniqueKeys(LoadedFilters(q))
    ensures Lookup(LoadedFilters(q), id) == if id in AllParams(q) then Some(AllParams(q)[id]) else None
    decreases |q|
  {
    if |q| > 0 {
      var init := q[..|q| - 1];
      LoadedFiltersAgree(init, id);
      LookupAssign(LoadedFilters(init), q[|q| - 1].0, q[|q| - 1].1, id);
    }
  }

  /** A search column: some searchable field has this id. */
  predicate IsSearchColumn(id: string, fields: seq<FilterField>)
  {
    exists f | f in Searchable(fields) :: f.key == id
  }

  /** The filters counted on the "Filters" button: not the page, not `"all"`, not empty, not a search column. */
  function ActiveFilters(cf: ColumnFilters, fields: seq<FilterField>): (r: ColumnFilters)
    ensures forall p | p in r :: p in cf
    ensures forall p | p in cf :: p in r <==> p.0 != "page" && p.1 != "all" && p.1 != "" && !IsSearchColumn(p.0, fields)
  {
    if |cf| == 0 then []
    else
      var p := cf[0];
      (if p.0 != "page" && p.1 != "all" && p.1 != "" && !IsSearchColumn(p.0, fields) then [p] else [])
      + ActiveFilters(cf[1..], fields)
  }

  /** `hasActiveSearch`: some search column has a non-empty filter value. */
  predicate HasActiveSearch(cf: ColumnFilters, fields: seq<FilterField>)
  {
    exists f | f in Searchable(fields) :: Get(cf, f.key).Some? && Get(cf, f.key).value != ""
  }

  /** Every entry with this id rewritten to the new value. */
  function ReplaceAll(cf: ColumnFilters, id: string, value: string): (r: ColumnFilters)
    ensures |r| == |cf|
    ensures forall k | 0 <= k < |r| :: r[k] == if cf[k].0 == id then (id, value) else cf[k]
  {
    if |cf| == 0 then [] else [if cf[0].0 == id then (id, value) else cf[0]] + ReplaceAll(cf[1..], id, value)
  }

  /**
   * A column's `setFilterValue(value)`: an empty string removes the column's filter, an
   * existing filter is rewritten in place, and a new one is appended.
   */
  function SetFilterValue(cf: ColumnFilters, id: string, value: string): ColumnFilters
  {
    if value == "" then Delete(cf, id)
    else if Get(cf, id).Some? then ReplaceAll(cf, id, value)
    else cf + [(id, value)]
  }

  lemma {:induction false} GetReplaceAll(cf: ColumnFilters, id: string, value: string, other: string)
    ensures Get(ReplaceAll(cf, id, value), other)
            == if other == id && Get(cf, id).Some? then Some(value) else Get(cf, other)
    decreases |cf|
  {
    if |cf| > 0 {
      GetReplaceAll(cf[1..], id, value, other);
      assert ReplaceAll(cf, id, value)[1..] == ReplaceAll(cf[1..], id, value);
    }
  }

  lemma {:induction false} GetAppend(cf: ColumnFilters, p: (string, string), other: string)
    ensures Get(cf + [p], other) == if Get(cf, other).Some? then Get(cf, other) else if p.0 == other then Some(p.1) else None
    decreases |cf|
  {
    if |cf| > 0 {
      GetAppend(cf[1..], p, other);
      assert (cf + [p])[1..] == cf[1..] + [p];
    }
  }

  /** After `setFilterValue(value)` the column reads `value` (nothing when empty); other columns read as before. */
  lemma GetSetFilterValue(cf: ColumnFilters, id: string, value: string, other: string)
    ensures Get(SetFilterValue(cf, id, value), other)
            == if other == id then (if value == "" then None else Some(value)) else Get(cf, other)
  {
    if value == "" {
      GetDelete(cf, id, other);
    } else if Get(cf, id).Some? {
      GetReplaceAll(cf, id, value, other);
    } else {
      GetAppend(cf, (id, value), other);
    }
  }

  /** Clearing a search input ends the active search unless another search column still has text. */
  lemma ClearingSearch(cf: ColumnFilters, fields: seq<FilterField>, id: string)
    ensures HasActiveSearch(SetFilterValue(cf, id, ""), fields)
            <==> exists f | f in Searchable(fields) && f.key != id :: Get(cf, f.key).Some? && Get(cf, f.key).value != ""
  {
    forall f | f in Searchable(fields) {
      GetSetFilterValue(cf, id, "", f.key);
    }
  }

  /** The select's update: every filter for the column is dropped, and one is added back when the value is non-empty. */
  function SelectValue(cf: ColumnFilters, id: string, value: string): ColumnFilters
  {
    Delete(cf, id) + (if value != "" then [(id, value)] else [])
  }

  /** Selecting a value leaves exactly that value as the column's filter, and every other column as it was. */
  lemma SelectReplaces(cf: ColumnFilters, id: string, value: string, other: string)
    ensures Get(SelectValue(cf, id, value), other)
            == if other == id then (if value == "" then None else Some(value)) else Get(cf, other)
    ensures forall p | p in SelectValue(cf, id, value) && p.0 == id :: p == (id, value)
  {
    GetDelete(cf, id, other);
    if value == "" {
      assert SelectValue(cf, id, value) == Delete(cf, id);
    } else {
      GetAppend(Delete(cf, id), (id, value), other);
    }
  }

  /** The URL value the select writes: `value || null`. */
  function SelectParam(value: string): ParamValue
  {
    if value == "" then Null else Str(value)
  }

  /**
   * The column filters once a handler's navigation has rendered: when the URL changed, the
   * hook hands out new search params, `getAllParams` changes with them and the load effect
   * replaces the filters; when it did not, the handler's own update stays.
   */
  function AfterNavigation(local: ColumnFilters, before: Query, after: Query): ColumnFilters
  {
    if after != before then LoadedFilters(after) else local
  }

  /**
   * After one name is written to the URL, the reloaded filters hold that name's new value
   * (none when the write deletes it) and, for every other column, the value the URL had.
   */
  lemma ReloadAfterSetParam(q: Query, key: string, value: ParamValue, other: string)
    ensures Lookup(LoadedFilters(ApplyEntries(q, [(key, value)])), other)
            == if other != key then Lookup(LoadedFilters(q), other)
               else if Clears(value) then None else Some(Render(value))
  {
    var q' := ApplyEntries(q, [(key, value)]);
    LoadedFiltersAgree(q, other);
    LoadedFiltersAgree(q', other);
    AllParamsIsLastValue(q, other);
    AllParamsIsLastValue(q', other);
    ValuesOfSetParam(q, key, value, other);
  }

  /**
   * Choosing "All" in a select: when the URL held the column, the parameter is deleted and the
   * reload leaves the column with no filter; when it did not, the URL stays as it was, nothing
   * reloads, and the select's own `"all"` entry remains.
   */
  lemma SelectAllOutcome(cf: ColumnFilters, q: Query, key: string)
    ensures var q' := ApplyEntries(q, [(key, SelectParam("all"))]);
            var after := AfterNavigation(SelectValue(cf, key, "all"), q, q');
            && (Get(q, key).Some? ==> q' != q && Lookup(after, key) == None)
            && (Get(q, key).None? ==> q' == q && Get(after, key) == Some("all"))
  {
    var q' := ApplyEntries(q, [(key, SelectParam("all"))]);
    var ps := [(key, SelectParam("all"))];
    assert ps[..0] == [] && ApplyEntries(q, ps[..0]) == q;
    assert Clears(ps[0].1);
    assert q' == ApplyEntry(q, ps[0]) == Delete(q, key);
    if Get(q, key).Some? {
      GetDelete(q, key, key);
      ReloadAfterSetParam(q, key, SelectParam("all"), key);
    } else {
      DeleteAbsent(q, key);
      SelectReplaces(cf, key, "all", key);
    }
  }

  /** The toolbar's state: its fields, the table's column filters, the popover, and the URL hook. */
  class Toolbar {
    const fields: seq<FilterField>
    const url: SearchParams
    var columnFilters: ColumnFilters
    var filterOpen: bool

    ghost predicate Valid()
      reads this, url
    {
      url.Valid()
    }

    /** Mount: the load effect copies every URL parameter into the column filters. */
    constructor (fields: seq<FilterField>, url: SearchParams)
      requires url.Valid()
      ensures Valid() && this.fields == fields && this.url == url
      ensures columnFilters == LoadedFilters(url.query) && !filterOpen
    {
      this.fields := fields;
      this.url := url;
      columnFilters := LoadedFilters(url.query);
      filterOpen := false;
    }

    /**
     * Typing in a search input: the column filter and the URL parameter both take the text,
     * then the filters are reloaded from the URL if it changed.
     */
    method OnSearchInput(key: string, value: string)
      requires Valid()
      modifies this, url
      ensures Valid()
      ensures url.query == ApplyEntries(old(url.query), [(key, Str(value))])
      ensures url.pathname == old(url.pathname)
      ensures url.history == old(url.history) + [Url(url.pathname, url.query)]
      ensures columnFilters == AfterNavigation(SetFilterValue(old(columnFilters), key, value), old(url.query), url.query)
      ensures filterOpen == old(filterOpen)
    {
      var before := url.query;
      columnFilters := SetFilterValue(columnFilters, key, value);
      url.SetParam(key, Str(value), false);
      if url.query != before {
        columnFilters := LoadedFilters(url.query);
      }
    }

    /** Enter in a search input writes the column's current text to the URL, which reloads the filters if it changed. */
    method OnSearchEnter(key: string)
      requires Valid()
      modifies this, url
      ensures Valid()
      ensures url.query == ApplyEntries(old(url.query), [(key, Str(Get(old(columnFilters), key).GetOr("")))])
      ensures url.pathname == old(url.pathname)
      ensures url.history == old(url.history) + [Url(url.pathname, url.query)]
      ensures columnFilters == AfterNavigation(old(columnFilters), old(url.query), url.query)
      ensures filterOpen == old(filterOpen)
    {
      var before := url.query;
      var val := Get(columnFilters, key).GetOr("");
      url.SetParam(key, Str(val), false);
      if url.query != before {
        columnFilters := LoadedFilters(url.query);
      }
    }

    /**
     * The clear button of a search input: empties the column filter and removes the URL
     * parameter, then the filters are reloaded from the URL if it changed.
     */
    method ClearSearch(key: string)
      requires Valid()
      modifies this, url
      ensures Valid()
      ensures Get(url.query, key) == None
      ensures forall other | other != key :: Get(url.query, other) == Get(old(url.query), other)
      ensures url.query == ApplyEntries(old(url.query), [(key, Null)])
      ensures url.pathname == old(url.pathname)
      ensures url.history == old(url.history) + [Url(url.pathname, url.query)]
      ensures columnFilters == AfterNavigation(SetFilterValue(old(columnFilters), key, ""), old(url.query), url.query)
      ensures filterOpen == old(filterOpen)
    {
      var before := url.query;
      columnFilters := SetFilterValue(columnFilters, key, "");
      url.SetParam(key, Null, false);
      if url.query != before {
        columnFilters := LoadedFilters(url.query);
      }
    }

    /**
     * Choosing a value in a filter select: the column's filter is replaced and the URL follows,
     * then the filters are reloaded from the URL if it changed (`SelectAllOutcome`).
     */
    method SelectFilter(key: string, value: string)
      requires Valid()
      modifies this, url
      ensures Valid()
      ensures Get(url.query, key) == if Clears(SelectParam(value)) then None else Some(value)
      ensures forall other | other != key :: Get(url.query, other) == Get(old(url.query), other)
      ensures url.query == ApplyEntries(old(url.query), [(key, SelectParam(value))])
      ensures url.pathname == old(url.pathname)
      ensures url.history == old(url.history) + [Url(url.pathname, url.query)]
      ensures columnFilters == AfterNavigation(SelectValue(old(columnFilters), key, value), old(url.query), url.query)
      ensures filterOpen == old(filterOpen)
    {
      var before := url.query;
      columnFilters := SelectValue(columnFilters, key, value);
      url.SetParam(key, SelectParam(value), false);
      if url.query != before {
        columnFilters := LoadedFilters(url.query);
      }
    }

    /** "Clear all": no column filters, an empty query (so a reload finds nothing either), and the popover closes. */
    method ClearAllFilters()
      requires Valid()
      modifies this, url
      ensures Valid()
      ensures columnFilters == [] && !filterOpen
      ensures url.query == [] && url.pathname == old(url.pathname)
      ensures url.history == old(url.history) + [Url(url.pathname, url.query)]
    {
      var before := url.query;
      columnFilters := [];
      url.ClearParams(false);
      if url.query != before {
        columnFilters := LoadedFilters(url.query);
      }
      filterOpen := false;
    }
  }
}

=== FILE: db_ids.dfy ===
/** The fixed row IDs of the status and priority lookup tables (src/types/db-ids.ts). */
module DbIds {
  /** Item statuses. */
  const IN_STOCK_ID := 1
  const LOW_STOCK_ID := 2
  const OUT_OF_STOCK_ID := 3

  /** Purchase-order statuses. */
  const PENDING_APPROVAL := 1
  const APPROVED := 2
  const ORDERED := 3
  const RECEIVED_PARTIAL := 4
  const RECEIVED_FULL := 5
  const COMPLETED := 6
  const CANCELLED := 7
  const REJECTED := 8

  /** Purchase-order priorities. */
  const PRIORITY_LOW := 1
  const PRIORITY_MEDIUM := 2
  const PRIORITY_HIGH := 3
}

=== FILE: directory_pages.dfy ===
/**
 * The display helpers of the suppliers page (src/components/suppliers/index.tsx) and the
 * locations page (src/components/locations/index.tsx). Both pages define `formatAddress`,
 * `formatName` and `getStatusBadge` with the same bodies; each is modelled once here.
 */
module DirectoryPages {
  import opened Wrappers
  import opened Strings

  /** The address columns of a supplier or location row; each may be null. */
  datatype Address = Address(street: Option<string>, city: Option<string>, stateName: Option<string>, zipCode: Option<string>)

  /** The first active contact's names; each may be null. */
  datatype Contact = Contact(firstName: Option<string>, lastName: Option<string>)

  /** `Boolean(x)` for a string that may be null: present and non-empty. */
  predicate Present(s: Option<string>)
  {
    s.Some? && s.value != ""
  }

  /** `[a, b, ...].filter(Boolean)` over nullable strings. */
  function PresentParts(xs: seq<Option<string>>): (r: seq<string>)
    ensures |r| <= |xs|
    ensures forall p | p in r :: p != ""
    ensures forall k | 0 <= k < |xs| && Present(xs[k]) :: xs[k].value in r
  {
    if |xs| == 0 then []
    else (if Present(xs[0]) then [xs[0].value] else []) + PresentParts(xs[1..])
  }

  function PartOf(x: Option<string>): seq<string>
  {
    if Present(x) then [x.value] else []
  }

  lemma PresentCons(xs: seq<Option<string>>)
    requires |xs| > 0
    ensures PresentParts(xs) == PartOf(xs[0]) + PresentParts(xs[1..])
  {
  }

  /** `pos` lists, in increasing order, the positions of `xs` that `parts` come from, and every present part has one. */
  ghost predicate PositionsOf(xs: seq<Option<string>>, parts: seq<string>, pos: seq<int>)
  {
    && |pos| == |parts|
    && (forall j | 0 <= j < |pos| :: 0 <= pos[j] < |xs| && Present(xs[pos[j]]) && parts[j] == xs[pos[j]].value)
    && (forall i, j | 0 <= i < j < |pos| :: pos[i] < pos[j])
    && (forall k | 0 <= k < |xs| && Present(xs[k]) :: k in pos)
  }

  /** `filter(Boolean)` keeps exactly the present parts, in order. */
  lemma {:induction false} PresentPartsPositions(xs: seq<Option<string>>) returns (pos: seq<int>)
    ensures |pos| == |PresentParts(xs)|
    ensures forall j | 0 <= j < |pos| :: 0 <= pos[j] < |xs| && Present(xs[pos[j]]) && PresentParts(xs)[j] == xs[pos[j]].value
    ensures forall i, j | 0 <= i < j < |pos| :: pos[i] < pos[j]
    ensures forall k | 0 <= k < |xs| && Present(xs[k]) :: k in pos
    decreases |xs|
  {
    if |xs| == 0 {
      return [];
    }
    var init, x := xs[..|xs| - 1], xs[|xs| - 1];
    var rest := PresentPartsPositions(init);
    assert init + [x] == xs;
    PresentSnoc(init, x);
    pos := PositionsSnoc(init, x, PresentParts(init), rest);
    assert PositionsOf(xs, PresentParts(xs), pos);
  }

  /** `filter` visits the parts from the left and appends each one it keeps. */
  lemma {:induction false} PresentSnoc(xs: seq<Option<string>>, x: Option<string>)
    ensures PresentParts(xs + [x]) == PresentParts(xs) + PartOf(x)
    decreases |xs|
  {
    if |xs| == 0 {
      assert [x][1..] == [];
      PresentCons([x]);
    } else {
      PresentSnoc(xs[1..], x);
      assert (xs + [x])[1..] == xs[1..] + [x];
      PresentCons(xs + [x]);
      PresentCons(xs);
    }
  }

  /** Positions in `xs` stay positions in `xs + [x]`, and the last one joins them when `x` is present. */
  lemma PositionsSnoc(xs: seq<Option<string>>, x: Option<string>, parts: seq<string>, rest: seq<int>) returns (pos: seq<int>)
    requires PositionsOf(xs, parts, rest)
    ensures PositionsOf(xs + [x], parts + PartOf(x), pos)
  {
    var ys := xs + [x];
    forall k | 0 <= k < |xs| ensures ys[k] == xs[k] { }
    if Present(x) {
      pos := rest + [|xs|];
      var ps := parts + [x.value];
      forall j | 0 <= j < |pos|
        ensures 0 <= pos[j] < |ys| && Present(ys[pos[j]]) && ps[j] == ys[pos[j]].value
      {
        if j < |rest| {
          assert pos[j] == rest[j] && ps[j] == parts[j];
        }
      }
      forall k | 0 <= k < |ys| && Present(ys[k]) ensures k in pos {
        if k < |xs| {
          assert k in rest;
        } else {
          assert pos[|rest|] == k;
        }
      }
      assert parts + PartOf(x) == ps;
    } else {
      pos := rest;
      assert parts + PartOf(x) == parts;
    }
  }

  lemma PresentTwo(a: Option<string>, b: Option<string>)
    ensures PresentParts([a, b]) == PartOf(a) + PartOf(b)
  {
    assert [a, b][1..] == [b];
    assert [b][1..] == [];
    PresentCons([a, b]);
    PresentCons([b]);
  }

  lemma PresentThree(a: Option<string>, b: Option<string>, c: Option<string>)
    ensures PresentParts([a, b, c]) == PartOf(a) + PartOf(b) + PartOf(c)
  {
    assert [a, b, c][1..] == [b, c];
    PresentCons([a, b, c]);
    PresentTwo(b, c);
  }

  /** `` `${parts.join(", ")} ${Zip_Code ?? ""}`.trim() `` with `parts` the present street, city and state name. */
  function FormatAddress(a: Address): string
  {
    var parts := PresentParts([a.street, a.city, a.stateName]);
    Trim(Join(parts, ", ") + " " + a.zipCode.GetOr(""))
  }

  /** An empty column and a null one format alike. */
  lemma EmptyLikeMissing(a: Address)
    ensures FormatAddress(a.(street := Some(""))) == FormatAddress(a.(street := None))
    ensures FormatAddress(a.(city := Some(""))) == FormatAddress(a.(city := None))
    ensures FormatAddress(a.(stateName := Some(""))) == FormatAddress(a.(stateName := None))
    ensures FormatAddress(a.(zipCode := Some(""))) == FormatAddress(a.(zipCode := None))
  {
    PresentThree(Some(""), a.city, a.stateName);
    PresentThree(None, a.city, a.stateName);
    PresentThree(a.street, Some(""), a.stateName);
    PresentThree(a.street, None, a.stateName);
    PresentThree(a.street, a.city, Some(""));
    PresentThree(a.street, a.city, None);
  }

  predicate Tidy(s: string)
  {
    s != "" && !IsWhitespace(s[0]) && !IsWhitespace(s[|s| - 1])
  }

  /** A complete address with tidy columns reads "street, city, state zip". */
  lemma FullAddress(street: string, city: string, stateName: string, zip: string)
    requires Tidy(street) && Tidy(city) && Tidy(stateName) && Tidy(zip)
    ensures FormatAddress(Address(Some(street), Some(city), Some(stateName), Some(zip)))
            == street + ", " + city + ", " + stateName + " " + zip
  {
    PresentThree(Some(street), Some(city), Some(stateName));
    var parts := [street, city, stateName];
    assert PresentParts([Some(street), Some(city), Some(stateName)]) == parts;
    JoinThree(street, city, stateName);
    JoinTidy(parts);
    var s := Join(parts, ", ") + " " + zip;
    TidySpaced(Join(parts, ", "), zip);
    TrimUnchanged(s);
  }

  lemma JoinThree(a: string, b: string, c: string)
    ensures Join([a, b, c], ", ") == a + ", " + b + ", " + c
  {
    assert [a, b, c][1..] == [b, c];
    assert [b, c][1..] == [c];
    assert Join([b, c], ", ") == b + ", " + c;
  }

  /** Two tidy strings joined by a space make a tidy string. */
  lemma TidySpaced(a: string, b: string)
    requires Tidy(a) && Tidy(b)
    ensures Tidy(a + " " + b)
  {
    var s := a + " " + b;
    assert s[0] == a[0];
    assert s[|s| - 1] == b[|b| - 1];
  }

  /** Without a zip code the trailing space is trimmed away: the present columns joined by ", ". */
  lemma AddressWithoutZip(a: Address)
    requires !Present(a.zipCode)
    requires Present(a.street) ==> Tidy(a.street.value)
    requires Present(a.city) ==> Tidy(a.city.value)
    requires Present(a.stateName) ==> Tidy(a.stateName.value)
    ensures FormatAddress(a) == Join(PresentParts([a.street, a.city, a.stateName]), ", ")
  {
    var parts := PresentParts([a.street, a.city, a.stateName]);
    var j := Join(parts, ", ");
    assert a.zipCode.GetOr("") == "";
    PresentThree(a.street, a.city, a.stateName);
    if |parts| > 0 {
      JoinTidy(parts);
    }
    TrimSpaceAfter(j);
    assert j + " " + a.zipCode.GetOr("") == j + " ";
  }

  lemma {:induction false} JoinTidy(parts: seq<string>)
    requires |parts| > 0 && forall k | 0 <= k < |parts| :: Tidy(parts[k])
    ensures Tidy(Join(parts, ", "))
    decreases |parts|
  {
    if |parts| > 1 {
      JoinTidy(parts[1..]);
      var t := Join(parts[1..], ", ");
      var j := Join(parts, ", ");
      assert Tidy(parts[0]);
      assert j == parts[0] + ", " + t;
      assert j[0] == parts[0][0];
      assert j[|j| - 1] == t[|t| - 1];
    }
  }

  /** Trimming a tidy (or empty) string followed by one space gives the string back. */
  lemma TrimSpaceAfter(s: string)
    requires s == "" || Tidy(s)
    ensures Trim(s + " ") == s
  {
    var t := s + " ";
    if s == "" {
      assert TrimStart(t) == TrimStart(t[1..]);
      assert t[1..] == "";
    } else {
      assert TrimStart(t) == t;
      assert t[..|t| - 1] == s;
      assert TrimEnd(t) == TrimEnd(s);
      assert TrimEnd(s) == s;
    }
  }

  /** `formatName`: "" with no contact, otherwise the present first and last names joined by one space. */
  function FormatName(contact: Option<Contact>): string
  {
    match contact
    case None => ""
    case Some(c) => Join(PresentParts([c.firstName, c.lastName]), " ")
  }

  /** Names without spaces are recovered by splitting the formatted name on spaces. */
  lemma NameSplitsBack(first: string, last: string)
    requires first != "" && last != "" && ' ' !in first && ' ' !in last
    ensures Split(FormatName(Some(Contact(Some(first), Some(last)))), ' ') == [first, last]
    ensures FormatName(Some(Contact(Some(first), None))) == first
    ensures FormatName(Some(Contact(None, Some(last)))) == last
  {
    var parts := PresentParts([Some(first), Some(last)]);
    PresentTwo(Some(first), Some(last));
    PresentTwo(Some(first), None);
    PresentTwo(None, Some(last));
    assert parts == [first, last];
    assert Join(parts, " ") == Join(parts, [' ']);
    SplitJoin(parts, ' ');
  }

  /** `parts.map((n) => n[0]).join("")`: an empty part's missing first character joins as nothing. */
  function FirstChars(parts: seq<string>): (r: string)
    ensures |r| <= |parts|
  {
    if |parts| == 0 then ""
    else (if parts[0] != "" then [parts[0][0]] else "") + FirstChars(parts[1..])
  }

  /** `getInitials(name)`: the first letter of each space-separated word, upper-cased. */
  function Initials(name: string): string
  {
    ToUpper(FirstChars(Split(name, ' ')))
  }

  /** A name made of words joined by single spaces has one initial per word: its first letter, upper-cased. */
  lemma InitialsOfWords(words: seq<string>)
    requires |words| >= 1
    requires forall k | 0 <= k < |words| :: words[k] != "" && ' ' !in words[k]
    ensures var r := Initials(Join(words, " "));
            |r| == |words| && forall k | 0 <= k < |words| :: r[k] == UpperChar(words[k][0])
  {
    assert Join(words, " ") == Join(words, [' ']);
    SplitJoin(words, ' ');
    FirstCharsOfWords(words);
  }

  lemma {:induction false} FirstCharsOfWords(words: seq<string>)
    requires forall k | 0 <= k < |words| :: words[k] != ""
    ensures |FirstChars(words)| == |words|
    ensures forall k | 0 <= k < |words| :: FirstChars(words)[k] == words[k][0]
    decreases |words|
  {
    if |words| > 0 {
      FirstCharsOfWords(words[1..]);
    }
  }

  /** The badge `getStatusBadge` renders: its text and its colour classes. */
  datatype StatusBadge = StatusBadge(text: string, className: string)

  /** `getStatusBadge(status)`: green "Active" or grey "Inactive". */
  function StatusBadgeOf(active: bool): (r: StatusBadge)
    ensures r.text == "Active" <==> active
    ensures r.text == "Inactive" <==> !active
  {
    if active then StatusBadge("Active", "bg-green-500/10 text-green-500 hover:bg-green-500/20")
    else StatusBadge("Inactive", "bg-gray-500/10 text-gray-500 hover:bg-gray-500/20")
  }

  /** `getCapacityColor(percentage)`, on an exact percentage. */
  function CapacityColor(percentage: real): (r: string)
    ensures r == "text-red-500" <==> percentage >= 90.0
    ensures r == "text-orange-500" <==> 70.0 <= percentage < 90.0
    ensures r == "text-green-500" <==> percentage < 70.0
  {
    if percentage >= 90.0 then "text-red-500"
    else if percentage >= 70.0 then "text-orange-500"
    else "text-green-500"
  }

  /** The colours in order of alarm. */
  function Severity(color: string): nat
  {
    if color == "text-red-500" then 2 else if color == "text-orange-500" then 1 else 0
  }

  /** A fuller location never shows a calmer colour. */
  lemma CapacityColorMonotone(p: real, q: real)
    requires p <= q
    ensures Severity(CapacityColor(p)) <= Severity(CapacityColor(q))
  {
  }
}

=== FILE: edit_item.dfy ===
/**
 * `editItem` (src/server/database/items/edit/item.ts): one transaction that overwrites an
 * item row (re-activating it) and then, only when the referenced stock alert exists and
 * its stored threshold differs from the submitted one, rewrites that alert's threshold.
 */
module EditItem {
  import opened Wrappers

  /** An `Items` row; `updatedAt` is `Updated_Datetime` as a clock reading. */
  datatype ItemRow = ItemRow(itemId: int, name: string, sku: string, description: Option<string>,
                             isActive: bool, quantity: int, categoryId: int, supplierId: int,
                             locationId: int, statusId: int, unitPrice: int, updatedAt: int)

  /** A `Stock_Alerts` row. */
  datatype StockAlertRow = StockAlertRow(stockAlertId: int, itemId: int, threshold: int, updatedAt: int)

  /** The validated form data; `description` is the one optional field. */
  datatype EditItemArgs = EditItemArgs(itemId: int, stockAlertId: int, name: string, sku: string,
                                       description: Option<string>, quantity: int, threshold: int,
                                       categoryId: int, supplierId: int, locationId: int,
                                       unitPrice: int, statusId: int)

  /** The two classes of thrown error the function distinguishes. */
  datatype ErrorKind = KnownRequestError | UnexpectedError

  /** `data: { item, stockAlert }` on success, where `stockAlert` is null unless the alert was rewritten. */
  datatype EditItemResult = ItemEdited(item: ItemRow, stockAlert: Option<StockAlertRow>) | ItemEditFailed(kind: ErrorKind)

  /** The `message` of each result. */
  function Message(r: EditItemResult): (m: string)
    ensures r.ItemEdited? ==> m == "Item updated successfully."
    ensures r == ItemEditFailed(KnownRequestError) ==> m == "A database error occurred."
    ensures r == ItemEditFailed(UnexpectedError) ==> m == "An unexpected error occurred."
  {
    match r
    case ItemEdited(_, _) => "Item updated successfully."
    case ItemEditFailed(KnownRequestError) => "A database error occurred."
    case ItemEditFailed(UnexpectedError) => "An unexpected error occurred."
  }

  /** Where `items.update({ where: { Item_ID } })` finds its row; None makes the update throw. */
  function IndexOfItem(items: seq<ItemRow>, id: int): (r: Option<nat>)
    ensures r.Some? ==> r.value < |items| && items[r.value].itemId == id
    ensures r.None? ==> forall k | 0 <= k < |items| :: items[k].itemId != id
  {
    if |items| == 0 then None
    else if items[0].itemId == id then Some(0)
    else match IndexOfItem(items[1..], id)
      case None => None
      case Some(k) => Some(k + 1)
  }

  /** Where `stock_Alerts.findUnique({ where: { Stock_Alerts_ID } })` finds its row, if anywhere. */
  function IndexOfAlert(alerts: seq<StockAlertRow>, id: int): (r: Option<nat>)
    ensures r.Some? ==> r.value < |alerts| && alerts[r.value].stockAlertId == id
    ensures r.None? ==> forall k | 0 <= k < |alerts| :: alerts[k].stockAlertId != id
  {
    if |alerts| == 0 then None
    else if alerts[0].stockAlertId == id then Some(0)
    else match IndexOfAlert(alerts[1..], id)
      case None => None
      case Some(k) => Some(k + 1)
  }

  /**
   * The item row after the update. Every column is taken from the arguments, `Is_Active`
   * is forced true, and an undefined description leaves the stored one in place.
   */
  function EditedItem(row: ItemRow, args: EditItemArgs, now: int): ItemRow
  {
    row.(name := args.name, sku := args.sku,
         description := if args.description.Some? then args.description else row.description,
         isActive := true, updatedAt := now, quantity := args.quantity,
         categoryId := args.categoryId, supplierId := args.supplierId,
         locationId := args.locationId, statusId := args.statusId, unitPrice := args.unitPrice)
  }

  /** The guard of the alert update: the alert exists and its threshold differs from the new one. */
  predicate ThresholdChanged(alerts: seq<StockAlertRow>, args: EditItemArgs)
  {
    var j := IndexOfAlert(alerts, args.stockAlertId);
    j.Some? && alerts[j.value].threshold != args.threshold
  }

  /** The alert table after the conditional update. */
  function AlertsAfter(alerts: seq<StockAlertRow>, args: EditItemArgs, now: int): (r: seq<StockAlertRow>)
    ensures |r| == |alerts|
  {
    if ThresholdChanged(alerts, args) then
      var j := IndexOfAlert(alerts, args.stockAlertId).value;
      alerts[j := alerts[j].(threshold := args.threshold, updatedAt := now)]
    else alerts
  }

  /** The item row's new contents depend only on its ID, the arguments and, when none is submitted, the stored description. */
  lemma EditOverwritesItem(a: ItemRow, b: ItemRow, args: EditItemArgs, now: int)
    requires a.itemId == b.itemId
    requires args.description.None? ==> a.description == b.description
    ensures EditedItem(a, args, now) == EditedItem(b, args, now)
    ensures EditedItem(a, args, now).isActive
  {
  }

  /** Editing is idempotent on the item row. */
  lemma EditItemIdempotent(row: ItemRow, args: EditItemArgs, now: int)
    ensures EditedItem(EditedItem(row, args, now), args, now) == EditedItem(row, args, now)
  {
  }

  /** Alert IDs survive the conditional update, so the alert is found at the same place. */
  lemma AlertKeysKept(alerts: seq<StockAlertRow>, args: EditItemArgs, now: int, id: int)
    ensures IndexOfAlert(AlertsAfter(alerts, args, now), id) == IndexOfAlert(alerts, id)
  {
    var r := AlertsAfter(alerts, args, now);
    assert forall k | 0 <= k < |r| :: r[k].stockAlertId == alerts[k].stockAlertId;
    IndexOfAlertByKeys(alerts, r, id);
  }

  lemma {:induction false} IndexOfAlertByKeys(a: seq<StockAlertRow>, b: seq<StockAlertRow>, id: int)
    requires |a| == |b| && forall k | 0 <= k < |a| :: a[k].stockAlertId == b[k].stockAlertId
    ensures IndexOfAlert(a, id) == IndexOfAlert(b, id)
  {
    if |a| > 0 && a[0].stockAlertId != id {
      IndexOfAlertByKeys(a[1..], b[1..], id);
    }
  }

  /** After an edit, an existing alert stores the submitted threshold, so repeating the edit rewrites no alert. */
  lemma AlertSettles(alerts: seq<StockAlertRow>, args: EditItemArgs, now: int)
    ensures var j := IndexOfAlert(AlertsAfter(alerts, args, now), args.stockAlertId);
            j.Some? ==> AlertsAfter(alerts, args, now)[j.value].threshold == args.threshold
    ensures !ThresholdChanged(AlertsAfter(alerts, args, now), args)
    ensures AlertsAfter(AlertsAfter(alerts, args, now), args, now) == AlertsAfter(alerts, args, now)
  {
    AlertKeysKept(alerts, args, now, args.stockAlertId);
  }

  /** Only the alert named by `stockAlertId` can change, and only its threshold and timestamp. */
  lemma AlertUpdateIsLocal(alerts: seq<StockAlertRow>, args: EditItemArgs, now: int, k: nat)
    requires k < |alerts|
    ensures var r := AlertsAfter(alerts, args, now)[k];
            && r.stockAlertId == alerts[k].stockAlertId && r.itemId == alerts[k].itemId
            && (r != alerts[k] <==> ThresholdChanged(alerts, args) && k == IndexOfAlert(alerts, args.stockAlertId).value)
  {
  }

  /** Item IDs and alert IDs are each unique, as `findUnique` on them presumes. */
  ghost predicate UniqueIds(items: seq<ItemRow>, alerts: seq<StockAlertRow>)
  {
    && (forall i, j | 0 <= i < j < |items| :: items[i].itemId != items[j].itemId)
    && (forall i, j | 0 <= i < j < |alerts| :: alerts[i].stockAlertId != alerts[j].stockAlertId)
  }

  class Database {
    var items: seq<ItemRow>
    var alerts: seq<StockAlertRow>

    ghost predicate Valid()
      reads this
    {
      UniqueIds(items, alerts)
    }

    constructor ()
      ensures Valid() && items == [] && alerts == []
    {
      items := [];
      alerts := [];
    }

    /**
     * `editItem(args)` at clock reading `now`. An unknown item makes the update throw a known
     * request error. `rejected` is the database's verdict on the writes, which this model does
     * not compute: a foreign-key violation for an unknown category, supplier, location or status
     * (a known request error), or a value the client refuses to send (an unexpected error). On
     * any failure the transaction leaves both tables as they were.
     */
    method EditItem(args: EditItemArgs, now: int, rejected: Option<ErrorKind>) returns (result: EditItemResult)
      requires Valid()
      modifies this
      ensures Valid()
      ensures match IndexOfItem(old(items), args.itemId)
        case None =>
          result == ItemEditFailed(KnownRequestError) && items == old(items) && alerts == old(alerts)
        case Some(i) =>
          if rejected.Some? then
            result == ItemEditFailed(rejected.value) && items == old(items) && alerts == old(alerts)
          else
            && items == old(items)[i := EditedItem(old(items)[i], args, now)]
            && alerts == AlertsAfter(old(alerts), args, now)
            && result.ItemEdited? && result.item == items[i]
            && (result.stockAlert.Some? <==> ThresholdChanged(old(alerts), args))
            && (result.stockAlert.Some? ==>
                  result.stockAlert.value == alerts[IndexOfAlert(old(alerts), args.stockAlertId).value])
    {
      var i := IndexOfItem(items, args.itemId);
      if i.None? {
        return ItemEditFailed(KnownRequestError);
      }
      var items0, alerts0 := items, alerts;
      var item := EditedItem(items[i.value], args, now);
      items := items[i.value := item];
      var stockAlert: Option<StockAlertRow> := None;
      var existing := IndexOfAlert(alerts, args.stockAlertId);
      if existing.Some? && alerts[existing.value].threshold != args.threshold {
        var updated := alerts[existing.value].(threshold := args.threshold, updatedAt := now);
        alerts := alerts[existing.value := updated];
        stockAlert := Some(updated);
      }
      if rejected.Some? {
        // the transaction rolls back
        items, alerts := items0, alerts0;
        return ItemEditFailed(rejected.value);
      }
      return ItemEdited(item, stockAlert);
    }
  }
}

=== FILE: edit_purchase_order.dfy ===
/**
 * `editPurchaseOrder` (src/server/database/purchase-orders/editPurchaseOrder.ts): one
 * transaction that overwrites an order's header and reconciles its line items with the
 * submitted list by item ID: submitted items the order lacks are inserted, current lines
 * whose item is no longer submitted are deactivated (never deleted), and every submitted
 * item that matches a current line rewrites that line and reactivates it.
 */
module EditPurchaseOrder {
  import opened Wrappers

  /** The editable columns of a `Purchase_Order` row. */
  datatype OrderHeader = OrderHeader(purchaseOrderId: int, supplierId: int, statusId: int, priorityId: int,
                                     orderDate: string, expectedDeliveryDate: string)

  /** A `Purchase_Order_Item` row. */
  datatype LineRow = LineRow(lineId: int, orderId: int, itemId: int, quantity: int, purchasePrice: int, isActive: bool)

  /** One submitted line; `itemId` may be null. */
  datatype SubmittedLine = SubmittedLine(purchaseOrderItemId: Option<int>, itemId: Option<int>,
                                         quantity: Option<int>, purchasePrice: Option<int>)

  /** The validated form data. */
  datatype EditArgs = EditArgs(purchaseOrderId: int, supplierId: int, statusId: int, priorityId: int,
                               orderDate: string, expectedDeliveryDate: string, purchaseOrderItems: seq<SubmittedLine>)

  /** The two classes of thrown error the function distinguishes. */
  datatype ErrorKind = KnownRequestError | UnexpectedError

  datatype EditResult = Edited(order: OrderHeader) | EditFailed(kind: ErrorKind)

  /** The `message` of each result. */
  function Message(r: EditResult): (m: string)
    ensures r.Edited? ==> m == "Purchase order updated successfully."
    ensures r == EditFailed(KnownRequestError) ==> m == "A database error occurred."
    ensures r == EditFailed(UnexpectedError) ==> m == "An unexpected error occurred."
  {
    match r
    case Edited(_) => "Purchase order updated successfully."
    case EditFailed(KnownRequestError) => "A database error occurred."
    case EditFailed(UnexpectedError) => "An unexpected error occurred."
  }

  /** `Number(item.itemId)`: a null item ID reads as 0. */
  function ItemKey(s: SubmittedLine): int { s.itemId.GetOr(0) }

  function QuantityOf(s: SubmittedLine): int { s.quantity.GetOr(0) }

  function PriceOf(s: SubmittedLine): int { s.purchasePrice.GetOr(0) }

  /** The header after the update: supplier, status, priority and both dates overwritten. */
  function Overwritten(h: OrderHeader, args: EditArgs): OrderHeader
  {
    h.(supplierId := args.supplierId, statusId := args.statusId, priorityId := args.priorityId,
       orderDate := args.orderDate, expectedDeliveryDate := args.expectedDeliveryDate)
  }

  /** Where `update({ where: { Purchase_Order_ID } })` finds its row; None makes the update throw. */
  function IndexOfOrder(orders: seq<OrderHeader>, id: int): (r: Option<nat>)
    ensures r.Some? ==> r.value < |orders| && orders[r.value].purchaseOrderId == id
    ensures r.None? ==> forall k | 0 <= k < |orders| :: orders[k].purchaseOrderId != id
  {
    if |orders| == 0 then None
    else if orders[0].purchaseOrderId == id then Some(0)
    else match IndexOfOrder(orders[1..], id)
         case None => None
         case Some(k) => Some(k + 1)
  }

  /** `findMany({ where: { Purchase_Order_ID } })`: the order's lines, in table order. */
  function LinesOf(lines: seq<LineRow>, orderId: int): (r: seq<LineRow>)
    ensures forall l | l in r :: l in lines && l.orderId == orderId
    ensures forall l | l in lines && l.orderId == orderId :: l in r
  {
    if |lines| == 0 then []
    else (if lines[0].orderId == orderId then [lines[0]] else []) + LinesOf(lines[1..], orderId)
  }

  /** `currentItemIds` as a set. */
  function ItemIdsOf(current: seq<LineRow>): set<int>
  {
    set l | l in current :: l.itemId
  }

  /** `newItemIds` as a set. */
  function SubmittedIds(items: seq<SubmittedLine>): set<int>
  {
    set s | s in items :: ItemKey(s)
  }

  /** `itemsToAdd`: the submitted lines whose item the order does not have yet. */
  function ItemsToAdd(items: seq<SubmittedLine>, current: seq<LineRow>): (r: seq<SubmittedLine>)
    ensures forall s | s in r :: s in items && ItemKey(s) !in ItemIdsOf(current)
    ensures forall s | s in items && ItemKey(s) !in ItemIdsOf(current) :: s in r
  {
    if |items| == 0 then []
    else (if ItemKey(items[0]) !in ItemIdsOf(current) then [items[0]] else []) + ItemsToAdd(items[1..], current)
  }

  /** `itemsToRemove`: the current lines whose item is no longer submitted. */
  function ItemsToRemove(current: seq<LineRow>, items: seq<SubmittedLine>): (r: seq<LineRow>)
    ensures forall l | l in r :: l in current && l.itemId !in SubmittedIds(items)
    ensures forall l | l in current && l.itemId !in SubmittedIds(items) :: l in r
  {
    if |current| == 0 then []
    else (if current[0].itemId !in SubmittedIds(items) then [current[0]] else []) + ItemsToRemove(current[1..], items)
  }

  /** `currentItems.find(ci => ci.Item_ID === key)`: the first current line for an item. */
  function FirstWithItem(current: seq<LineRow>, itemId: int): (r: Option<LineRow>)
    ensures r.None? <==> itemId !in ItemIdsOf(current)
    ensures r.Some? ==> r.value in current && r.value.itemId == itemId
  {
    if |current| == 0 then None
    else if current[0].itemId == itemId then Some(current[0])
    else
      assert ItemIdsOf(current) == {current[0].itemId} + ItemIdsOf(current[1..]);
      FirstWithItem(current[1..], itemId)
  }

  /** `find` returns the earliest line for the item: no line before it has that item. */
  lemma {:induction false} FirstWithItemIsFirst(current: seq<LineRow>, itemId: int)
    requires FirstWithItem(current, itemId).Some?
    ensures exists k | 0 <= k < |current| :: current[k] == FirstWithItem(current, itemId).value
                                             && forall j | 0 <= j < k :: current[j].itemId != itemId
    decreases |current|
  {
    if current[0].itemId != itemId {
      FirstWithItemIsFirst(current[1..], itemId);
      var k :| 0 <= k < |current[1..]| && current[1..][k] == FirstWithItem(current, itemId).value
               && forall j | 0 <= j < k :: current[1..][j].itemId != itemId;
      assert current[k + 1] == FirstWithItem(current, itemId).value;
      forall j | 0 <= j < k + 1 ensures current[j].itemId != itemId {
        if j > 0 { assert current[j] == current[1..][j - 1]; }
      }
    } else {
      assert current[0] == FirstWithItem(current, itemId).value;
    }
  }

  /** The last submitted line for an item: the one whose values the update loop leaves behind. */
  function LastSubmitted(items: seq<SubmittedLine>, itemId: int): (r: Option<SubmittedLine>)
    ensures r.None? <==> itemId !in SubmittedIds(items)
    ensures r.Some? ==> exists m | 0 <= m < |items| :: items[m] == r.value && ItemKey(r.value) == itemId
                          && forall j | m < j < |items| :: ItemKey(items[j]) != itemId
  {
    if |items| == 0 then None
    else if ItemKey(items[|items| - 1]) == itemId then Some(items[|items| - 1])
    else
      var init := items[..|items| - 1];
      assert items == init + [items[|items| - 1]];
      assert SubmittedIds(items) == SubmittedIds(init) + {ItemKey(items[|items| - 1])};
      LastSubmitted(init, itemId)
  }

  /** Whether a row is the one `find` picks for its own item among the current lines. */
  predicate IsFirstFor(current: seq<LineRow>, l: LineRow)
  {
    FirstWithItem(current, l.itemId).Some? && FirstWithItem(current, l.itemId).value.lineId == l.lineId
  }

  /** The row `create` inserts for a submitted line. */
  function NewRow(orderId: int, s: SubmittedLine, lineId: int): LineRow
  {
    LineRow(lineId, orderId, ItemKey(s), QuantityOf(s), PriceOf(s), true)
  }

  /** The row after `update` with a submitted line's values: quantity, price, active again. */
  function Reactivated(l: LineRow, s: SubmittedLine): LineRow
  {
    l.(quantity := QuantityOf(s), purchasePrice := PriceOf(s), isActive := true)
  }

  /** An existing row after the whole edit of order `orderId`. */
  function FinalLine(l: LineRow, orderId: int, current: seq<LineRow>, items: seq<SubmittedLine>): LineRow
  {
    if l.orderId != orderId then l
    else match LastSubmitted(items, l.itemId)
         case None => l.(isActive := false)
         case Some(s) => if IsFirstFor(current, l) then Reactivated(l, s) else l
  }

  /** The rows the add loop inserts, with consecutive autoincrement IDs from `start`. */
  function NewRows(orderId: int, toAdd: seq<SubmittedLine>, start: int): (r: seq<LineRow>)
    ensures |r| == |toAdd|
    ensures forall k | 0 <= k < |r| :: r[k] == NewRow(orderId, toAdd[k], start + k)
  {
    if |toAdd| == 0 then []
    else NewRows(orderId, toAdd[..|toAdd| - 1], start) + [NewRow(orderId, toAdd[|toAdd| - 1], start + |toAdd| - 1)]
  }

  /** Every existing row as `FinalLine` leaves it. */
  function FinalLines(lines: seq<LineRow>, orderId: int, current: seq<LineRow>, items: seq<SubmittedLine>): (r: seq<LineRow>)
    ensures |r| == |lines|
    ensures forall k | 0 <= k < |r| :: r[k] == FinalLine(lines[k], orderId, current, items)
  {
    if |lines| == 0 then []
    else FinalLines(lines[..|lines| - 1], orderId, current, items) + [FinalLine(lines[|lines| - 1], orderId, current, items)]
  }

  /** The line table after the edit: every existing row in place, then one inserted row per item to add. */
  function EditedLines(lines: seq<LineRow>, nextLineId: int, orderId: int, items: seq<SubmittedLine>): seq<LineRow>
  {
    var current := LinesOf(lines, orderId);
    FinalLines(lines, orderId, current, items) + NewRows(orderId, ItemsToAdd(items, current), nextLineId)
  }

  predicate UniqueLineIds(lines: seq<LineRow>)
  {
    forall i, j | 0 <= i < j < |lines| :: lines[i].lineId != lines[j].lineId
  }

  // ---------------------------------------------------------------------------
  // What an edit guarantees

  /** After an edit, every active line of the order carries a submitted item. */
  lemma ActiveLinesWereSubmitted(lines: seq<LineRow>, nextLineId: int, orderId: int, items: seq<SubmittedLine>, k: nat)
    requires k < |EditedLines(lines, nextLineId, orderId, items)|
    requires EditedLines(lines, nextLineId, orderId, items)[k].orderId == orderId
    requires EditedLines(lines, nextLineId, orderId, items)[k].isActive
    ensures EditedLines(lines, nextLineId, orderId, items)[k].itemId in SubmittedIds(items)
  {
    var current := LinesOf(lines, orderId);
    var toAdd := ItemsToAdd(items, current);
    EditedLineAt(lines, nextLineId, orderId, items, k);
    if k < |lines| {
      assert LastSubmitted(items, lines[k].itemId).Some?;
    } else {
      assert toAdd[k - |lines|] in items;
    }
  }

  /** After an edit, every submitted item has an active line on the order. */
  lemma SubmittedItemsAreActive(lines: seq<LineRow>, nextLineId: int, orderId: int, items: seq<SubmittedLine>, x: int)
    requires x in SubmittedIds(items)
    ensures var e := EditedLines(lines, nextLineId, orderId, items);
            exists k | 0 <= k < |e| :: e[k].orderId == orderId && e[k].isActive && e[k].itemId == x
  {
    var k := ActiveLineOf(lines, nextLineId, orderId, items, x);
  }

  /** Where that active line is: the current line `find` picks for the item, or the row inserted for it. */
  lemma ActiveLineOf(lines: seq<LineRow>, nextLineId: int, orderId: int, items: seq<SubmittedLine>, x: int) returns (k: nat)
    requires x in SubmittedIds(items)
    ensures var e := EditedLines(lines, nextLineId, orderId, items);
            k < |e| && e[k].orderId == orderId && e[k].isActive && e[k].itemId == x
  {
    var current := LinesOf(lines, orderId);
    if x in ItemIdsOf(current) {
      k := KeptLineOf(lines, orderId, current, items, x);
    } else {
      var m := AddedLineOf(items, current, x);
      k := |lines| + m;
    }
    EditedLineAt(lines, nextLineId, orderId, items, k);
  }

  /** The row at position `k` after an edit: an existing row as `FinalLine` leaves it, or an inserted row. */
  lemma EditedLineAt(lines: seq<LineRow>, nextLineId: int, orderId: int, items: seq<SubmittedLine>, k: nat)
    requires k < |lines| + |ItemsToAdd(items, LinesOf(lines, orderId))|
    ensures var current := LinesOf(lines, orderId);
            var toAdd := ItemsToAdd(items, current);
            var e := EditedLines(lines, nextLineId, orderId, items);
            && k < |e|
            && e[k] == if k < |lines| then FinalLine(lines[k], orderId, current, items)
                       else NewRow(orderId, toAdd[k - |lines|], nextLineId + k - |lines|)
  {
    var current := LinesOf(lines, orderId);
    var finals, added := FinalLines(lines, orderId, current, items), NewRows(orderId, ItemsToAdd(items, current), nextLineId);
    assert EditedLines(lines, nextLineId, orderId, items) == finals + added;
  }

  lemma KeptLineOf(lines: seq<LineRow>, orderId: int, current: seq<LineRow>, items: seq<SubmittedLine>, x: int) returns (k: nat)
    requires current == LinesOf(lines, orderId)
    requires x in SubmittedIds(items) && x in ItemIdsOf(current)
    ensures k < |lines| && lines[k].orderId == orderId && lines[k].itemId == x
    ensures FinalLine(lines[k], orderId, current, items).isActive
  {
    var c := FirstWithItem(current, x).value;
    assert c in lines;
    k :| k < |lines| && lines[k] == c;
    assert LastSubmitted(items, x).Some?;
  }

  lemma AddedLineOf(items: seq<SubmittedLine>, current: seq<LineRow>, x: int) returns (m: nat)
    requires x in SubmittedIds(items) && x !in ItemIdsOf(current)
    ensures m < |ItemsToAdd(items, current)| && ItemKey(ItemsToAdd(items, current)[m]) == x
  {
    var toAdd := ItemsToAdd(items, current);
    var s :| s in items && ItemKey(s) == x;
    assert s in toAdd;
    m :| m < |toAdd| && toAdd[m] == s;
  }


  /**
   * A current line picked by `find` for a submitted item ends up active with the quantity
   * and price of the last submitted line for that item (the last one wins).
   */
  lemma LastSubmissionWins(lines: seq<LineRow>, nextLineId: int, orderId: int, items: seq<SubmittedLine>, j: nat)
    requires j < |lines| && lines[j].orderId == orderId
    requires IsFirstFor(LinesOf(lines, orderId), lines[j])
    requires lines[j].itemId in SubmittedIds(items)
    ensures var e := EditedLines(lines, nextLineId, orderId, items);
            exists m | 0 <= m < |items| ::
              && ItemKey(items[m]) == lines[j].itemId
              && (forall n | m < n < |items| :: ItemKey(items[n]) != lines[j].itemId)
              && e[j] == lines[j].(quantity := QuantityOf(items[m]), purchasePrice := PriceOf(items[m]), isActive := true)
  {
    var s := LastSubmitted(items, lines[j].itemId).value;
    var m :| 0 <= m < |items| && items[m] == s && ItemKey(s) == lines[j].itemId
             && forall n | m < n < |items| :: ItemKey(items[n]) != lines[j].itemId;
    EditedLineAt(lines, nextLineId, orderId, items, j);
  }

  /** A current line whose item is not submitted stays in the table, deactivated and otherwise as it was. */
  lemma UnsubmittedLinesDeactivated(lines: seq<LineRow>, nextLineId: int, orderId: int, items: seq<SubmittedLine>, j: nat)
    requires j < |lines| && lines[j].orderId == orderId && lines[j].itemId !in SubmittedIds(items)
    ensures EditedLines(lines, nextLineId, orderId, items)[j] == lines[j].(isActive := false)
  {
    EditedLineAt(lines, nextLineId, orderId, items, j);
  }

  /**
   * No row is deleted or re-keyed, rows of other orders are untouched, and every inserted
   * row belongs to the order, is active, and carries an item the order did not have.
   */
  lemma EditIsLocal(lines: seq<LineRow>, nextLineId: int, orderId: int, items: seq<SubmittedLine>)
    ensures var e := EditedLines(lines, nextLineId, orderId, items);
            var current := LinesOf(lines, orderId);
      && |e| >= |lines|
      && (forall k | 0 <= k < |lines| :: e[k].lineId == lines[k].lineId && e[k].itemId == lines[k].itemId
                                         && e[k].orderId == lines[k].orderId)
      && (forall k | 0 <= k < |lines| && lines[k].orderId != orderId :: e[k] == lines[k])
      && (forall k | |lines| <= k < |e| :: e[k].orderId == orderId && e[k].isActive
                                           && e[k].itemId !in ItemIdsOf(current))
  {
    var e := EditedLines(lines, nextLineId, orderId, items);
    var current := LinesOf(lines, orderId);
    var toAdd := ItemsToAdd(items, current);
    forall k | |lines| <= k < |e|
      ensures e[k].orderId == orderId && e[k].isActive && e[k].itemId !in ItemIdsOf(current)
    {
      EditedLineAt(lines, nextLineId, orderId, items, k);
      assert toAdd[k - |lines|] in toAdd;
    }
  }

  // ---------------------------------------------------------------------------
  // The tables

  class Database {
    var orders: seq<OrderHeader>
    var lines: seq<LineRow>
    var nextLineId: int

    /** Line IDs are unique and below the next autoincrement value. */
    ghost predicate Valid()
      reads this
    {
      UniqueLineIds(lines) && forall k | 0 <= k < |lines| :: lines[k].lineId < nextLineId
    }

    constructor ()
      ensures Valid() && orders == [] && lines == []
    {
      orders := [];
      lines := [];
      nextLineId := 1;
    }

    /**
     * `editPurchaseOrder(args)`. An unknown order makes the header update throw a known
     * request error. `rejected` is the database's verdict on the writes, which this model does
     * not compute: a foreign-key violation for an unknown supplier, status, priority or item
     * (a null item ID is written as item 0) is a known request error, and an invalid date is
     * refused by the client as an unexpected error. On any failure the transaction leaves both
     * tables as they were.
     */
    method EditPurchaseOrder(args: EditArgs, rejected: Option<ErrorKind>) returns (result: EditResult)
      requires Valid()
      modifies this
      ensures Valid()
      ensures match IndexOfOrder(old(orders), args.purchaseOrderId)
        case None =>
          && result == EditFailed(KnownRequestError)
          && orders == old(orders) && lines == old(lines) && nextLineId == old(nextLineId)
        case Some(i) =>
          if rejected.Some? then
            && result == EditFailed(rejected.value)
            && orders == old(orders) && lines == old(lines) && nextLineId == old(nextLineId)
          else
            && orders == old(orders)[i := Overwritten(old(orders)[i], args)]
            && result == Edited(orders[i])
            && lines == EditedLines(old(lines), old(nextLineId), args.purchaseOrderId, args.purchaseOrderItems)
            && nextLineId == old(nextLineId)
                             + |ItemsToAdd(args.purchaseOrderItems, LinesOf(old(lines), args.purchaseOrderId))|
    {
      var idx := IndexOfOrder(orders, args.purchaseOrderId);
      if idx.None? {
        return EditFailed(KnownRequestError);
      }
      var orders0, lines0, next0 := orders, lines, nextLineId;
      var header := Overwritten(orders[idx.value], args);
      orders := orders[idx.value := header];
      var id := args.purchaseOrderId;
      var items := args.purchaseOrderItems;
      var current := LinesOf(lines, id);
      var toAdd := ItemsToAdd(items, current);
      var toRemove := ItemsToRemove(current, items);
      AddLines(id, toAdd);
      DeactivateLines(toRemove);
      EditComposition(lines0, next0, id, items);
      UpdateLines(current, items, id, lines0, next0);
      if rejected.Some? {
        // the transaction rolls back
        orders, lines, nextLineId := orders0, lines0, next0;
        return EditFailed(rejected.value);
      }
      return Edited(header);
    }

    /** The add loop: one active row per item to add, with fresh consecutive IDs. */
    method AddLines(id: int, toAdd: seq<SubmittedLine>)
      modifies this
      ensures orders == old(orders)
      ensures lines == old(lines) + NewRows(id, toAdd, old(nextLineId))
      ensures nextLineId == old(nextLineId) + |toAdd|
    {
      var i := 0;
      while i < |toAdd|
        invariant 0 <= i <= |toAdd|
        invariant orders == old(orders)
        invariant lines == old(lines) + NewRows(id, toAdd[..i], old(nextLineId))
        invariant nextLineId == old(nextLineId) + i
      {
        assert toAdd[..i + 1][..i] == toAdd[..i];
        lines := lines + [NewRow(id, toAdd[i], nextLineId)];
        nextLineId := nextLineId + 1;
        i := i + 1;
      }
      assert toAdd[..|toAdd|] == toAdd;
    }

    /** The deactivate loop: every row whose ID is among the removed lines becomes inactive. */
    method DeactivateLines(toRemove: seq<LineRow>)
      modifies this
      ensures orders == old(orders) && nextLineId == old(nextLineId)
      ensures lines == DeactivateAll(old(lines), LineIds(toRemove))
    {
      var i := 0;
      while i < |toRemove|
        invariant 0 <= i <= |toRemove|
        invariant orders == old(orders) && nextLineId == old(nextLineId)
        invariant lines == DeactivateAll(old(lines), LineIds(toRemove[..i]))
      {
        assert LineIds(toRemove[..i + 1]) == LineIds(toRemove[..i]) + {toRemove[i].lineId} by {
          assert toRemove[..i + 1] == toRemove[..i] + [toRemove[i]];
        }
        lines := Deactivate(lines, toRemove[i].lineId);
        i := i + 1;
      }
      assert toRemove[..|toRemove|] == toRemove;
    }

    /** The update loop: each submitted item that `find` matches rewrites and reactivates that line. */
    method UpdateLines(current: seq<LineRow>, items: seq<SubmittedLine>, ghost id: int, ghost before: seq<LineRow>, ghost next0: int)
      requires KeysKept(before, lines, next0)
      requires current == LinesOf(before, id)
      modifies this
      ensures orders == old(orders) && nextLineId == old(nextLineId)
      ensures lines == UpdateAll(old(lines), current, items)
    {
      ghost var rows0 := lines;
      UpdateNothing(rows0, current);
      assert items[..0] == [];
      var i := 0;
      while i < |items|
        invariant 0 <= i <= |items|
        invariant orders == old(orders) && nextLineId == old(nextLineId)
        invariant lines == UpdateAll(rows0, current, items[..i])
      {
        var existing := FirstWithItem(current, ItemKey(items[i]));
        ghost var after := if existing.Some? then Update(lines, existing.value.lineId, items[i]) else lines;
        UpdateAllStep(before, rows0, next0, current, id, items, i);
        assert after == UpdateAll(rows0, current, items[..i + 1]);
        if existing.Some? {
          lines := Update(lines, existing.value.lineId, items[i]);
        }
        i := i + 1;
      }
      assert items[..|items|] == items;
    }
  }

  function LineIds(rows: seq<LineRow>): set<int>
  {
    set l | l in rows :: l.lineId
  }

  /** `update({ where: { Purchase_Order_Item_ID }, data: { Is_Active: false } })` */
  function Deactivate(rows: seq<LineRow>, lineId: int): (r: seq<LineRow>)
    ensures |r| == |rows|
    ensures forall k | 0 <= k < |r| :: r[k] == if rows[k].lineId == lineId then rows[k].(isActive := false) else rows[k]
  {
    seq(|rows|, k requires 0 <= k < |rows| => if rows[k].lineId == lineId then rows[k].(isActive := false) else rows[k])
  }

  /** `update({ where: { Purchase_Order_Item_ID }, data: { Quantity, Purchase_Price, Is_Active: true } })` */
  function Update(rows: seq<LineRow>, lineId: int, s: SubmittedLine): (r: seq<LineRow>)
    ensures |r| == |rows|
    ensures forall k | 0 <= k < |r| :: r[k] == if rows[k].lineId == lineId then Reactivated(rows[k], s) else rows[k]
  {
    seq(|rows|, k requires 0 <= k < |rows| => if rows[k].lineId == lineId then Reactivated(rows[k], s) else rows[k])
  }

  /** Every row whose ID is in `ids` deactivated. */
  function DeactivateAll(rows: seq<LineRow>, ids: set<int>): (r: seq<LineRow>)
    ensures |r| == |rows|
    ensures forall k | 0 <= k < |r| :: r[k] == if rows[k].lineId in ids then rows[k].(isActive := false) else rows[k]
  {
    seq(|rows|, k requires 0 <= k < |rows| => if rows[k].lineId in ids then rows[k].(isActive := false) else rows[k])
  }

  /** Every row as the update loop leaves it after processing `items`. */
  function UpdateAll(rows: seq<LineRow>, current: seq<LineRow>, items: seq<SubmittedLine>): (r: seq<LineRow>)
    ensures |r| == |rows|
    ensures forall k | 0 <= k < |r| :: r[k] == Updated(rows[k], current, items)
  {
    seq(|rows|, k requires 0 <= k < |rows| => Updated(rows[k], current, items))
  }

  /** A row after the update loop has processed `items`. */
  function Updated(l: LineRow, current: seq<LineRow>, items: seq<SubmittedLine>): LineRow
  {
    if IsFirstFor(current, l) then
      match LastSubmitted(items, l.itemId)
      case None => l
      case Some(s) => Reactivated(l, s)
    else l
  }

  /** The shape the update loop relies on: rows keep their keys, IDs are unique, new rows have fresh IDs. */
  predicate KeysKept(before: seq<LineRow>, rows: seq<LineRow>, next0: int)
  {
    && |rows| >= |before|
    && UniqueLineIds(before)
    && (forall k | 0 <= k < |before| :: before[k].lineId < next0)
    && (forall k | 0 <= k < |before| :: rows[k].lineId == before[k].lineId && rows[k].itemId == before[k].itemId
                                        && rows[k].orderId == before[k].orderId)
    && (forall k | |before| <= k < |rows| :: rows[k].lineId >= next0)
  }

  /** In a key-preserving table, the row carrying a current line's ID is that line's row. */
  lemma RowOfCurrent(before: seq<LineRow>, rows: seq<LineRow>, next0: int, current: seq<LineRow>, c: LineRow, k: nat)
    requires KeysKept(before, rows, next0)
    requires forall l | l in current :: l in before
    requires c in current && k < |rows| && rows[k].lineId == c.lineId
    ensures k < |before| && before[k] == c
  {
    var j :| 0 <= j < |before| && before[j] == c;
  }

  /** One step of the update loop on one row. */
  lemma UpdateStep(before: seq<LineRow>, rows: seq<LineRow>, next0: int, current: seq<LineRow>, id: int,
                   items: seq<SubmittedLine>, i: nat, k: nat)
    requires KeysKept(before, rows, next0)
    requires current == LinesOf(before, id)
    requires i < |items| && k < |rows|
    ensures var existing := FirstWithItem(current, ItemKey(items[i]));
            var prev := Updated(rows[k], current, items[..i]);
            Updated(rows[k], current, items[..i + 1])
            == if existing.Some? && prev.lineId == existing.value.lineId then Reactivated(prev, items[i]) else prev
  {
    var key := ItemKey(items[i]);
    var existing := FirstWithItem(current, key);
    var prefix := items[..i];
    assert items[..i + 1] == prefix + [items[i]];
    assert items[..i + 1][..i] == prefix;
    var l := rows[k];
    if existing.Some? && l.lineId == existing.value.lineId {
      RowOfCurrent(before, rows, next0, current, existing.value, k);
      assert l.itemId == key;
      assert IsFirstFor(current, l);
      assert LastSubmitted(items[..i + 1], key) == Some(items[i]);
      ReactivateTwice(l, items[i], LastSubmitted(prefix, key));
    } else if l.itemId != key {
      assert LastSubmitted(items[..i + 1], l.itemId) == LastSubmitted(prefix, l.itemId);
    }
  }

  /** Before the update loop has processed any item, every row is as it was. */
  lemma UpdateNothing(rows: seq<LineRow>, current: seq<LineRow>)
    ensures UpdateAll(rows, current, []) == rows
  {
    var r := UpdateAll(rows, current, []);
    forall k | 0 <= k < |rows| ensures r[k] == rows[k] {
      assert LastSubmitted([], rows[k].itemId).None?;
    }
  }

  /** One step of the update loop on the whole table. */
  lemma UpdateAllStep(before: seq<LineRow>, rows: seq<LineRow>, next0: int, current: seq<LineRow>, id: int,
                      items: seq<SubmittedLine>, i: nat)
    requires KeysKept(before, rows, next0)
    requires current == LinesOf(before, id)
    requires i < |items|
    ensures var existing := FirstWithItem(current, ItemKey(items[i]));
            var prev := UpdateAll(rows, current, items[..i]);
            UpdateAll(rows, current, items[..i + 1])
            == if existing.Some? then Update(prev, existing.value.lineId, items[i]) else prev
  {
    var existing := FirstWithItem(current, ItemKey(items[i]));
    var prev := UpdateAll(rows, current, items[..i]);
    var next := if existing.Some? then Update(prev, existing.value.lineId, items[i]) else prev;
    forall k | 0 <= k < |rows| ensures UpdateAll(rows, current, items[..i + 1])[k] == next[k] {
      UpdateStep(before, rows, next0, current, id, items, i, k);
    }
  }

  lemma ReactivateTwice(l: LineRow, s: SubmittedLine, previous: Option<SubmittedLine>)
    ensures Reactivated(l, s) == Reactivated(match previous case None => l case Some(p) => Reactivated(l, p), s)
  {
  }

  /** The table after the add and deactivate loops keeps the keys of the rows it started from. */
  lemma AddedKeepKeys(before: seq<LineRow>, next0: int, id: int, toAdd: seq<SubmittedLine>, ids: set<int>)
    requires UniqueLineIds(before) && forall k | 0 <= k < |before| :: before[k].lineId < next0
    ensures KeysKept(before, DeactivateAll(before + NewRows(id, toAdd, next0), ids), next0)
  {
    var added := before + NewRows(id, toAdd, next0);
    var d := DeactivateAll(added, ids);
    forall k | 0 <= k < |before|
      ensures d[k].lineId == before[k].lineId && d[k].itemId == before[k].itemId && d[k].orderId == before[k].orderId
    {
      assert added[k] == before[k];
    }
    forall k | |before| <= k < |d| ensures d[k].lineId >= next0 {
      assert added[k] == NewRow(id, toAdd[k - |before|], next0 + k - |before|);
    }
  }

  /** An existing row ends the three loops as `FinalLine` says. */
  lemma OldRowFinal(before: seq<LineRow>, d: seq<LineRow>, next0: int, id: int, items: seq<SubmittedLine>, k: nat)
    requires KeysKept(before, d, next0) && k < |before|
    requires d[k] == if before[k].lineId in LineIds(ItemsToRemove(LinesOf(before, id), items))
                     then before[k].(isActive := false) else before[k]
    ensures Updated(d[k], LinesOf(before, id), items) == FinalLine(before[k], id, LinesOf(before, id), items)
  {
    var current := LinesOf(before, id);
    var toRemove := ItemsToRemove(current, items);
    var l := before[k];
    if l.lineId in LineIds(toRemove) {
      var c :| c in toRemove && c.lineId == l.lineId;
      RowOfCurrent(before, d, next0, current, c, k);
    }
    if IsFirstFor(current, d[k]) {
      RowOfCurrent(before, d, next0, current, FirstWithItem(current, l.itemId).value, k);
    }
    if l.orderId == id && l.itemId !in SubmittedIds(items) {
      assert l in current;
      assert l in toRemove;
    }
  }

  /** An inserted row is never the line `find` picks, so the update loop leaves it alone. */
  lemma NewRowNotCurrent(before: seq<LineRow>, d: seq<LineRow>, next0: int, id: int, k: nat)
    requires KeysKept(before, d, next0) && |before| <= k < |d|
    ensures !IsFirstFor(LinesOf(before, id), d[k])
  {
    var current := LinesOf(before, id);
    if IsFirstFor(current, d[k]) {
      RowOfCurrent(before, d, next0, current, FirstWithItem(current, d[k].itemId).value, k);
    }
  }

  /** The three loops, composed, produce `EditedLines`, with unique IDs below the new counter. */
  lemma EditComposition(before: seq<LineRow>, next0: int, id: int, items: seq<SubmittedLine>)
    requires UniqueLineIds(before) && forall k | 0 <= k < |before| :: before[k].lineId < next0
    ensures var current := LinesOf(before, id);
            var d := DeactivateAll(before + NewRows(id, ItemsToAdd(items, current), next0),
                                   LineIds(ItemsToRemove(current, items)));
            && KeysKept(before, d, next0)
            && UpdateAll(d, current, items) == EditedLines(before, next0, id, items)
    ensures UniqueLineIds(EditedLines(before, next0, id, items))
    ensures forall k | 0 <= k < |EditedLines(before, next0, id, items)| ::
              EditedLines(before, next0, id, items)[k].lineId < next0 + |ItemsToAdd(items, LinesOf(before, id))|
  {
    var current := LinesOf(before, id);
    var toAdd := ItemsToAdd(items, current);
    var ids := LineIds(ItemsToRemove(current, items));
    var added := before + NewRows(id, toAdd, next0);
    var d := DeactivateAll(added, ids);
    AddedKeepKeys(before, next0, id, toAdd, ids);
    var e := EditedLines(before, next0, id, items);
    var u := UpdateAll(d, current, items);
    forall k | 0 <= k < |u| ensures u[k] == e[k] {
      if k < |before| {
        assert added[k] == before[k];
        OldRowFinal(before, d, next0, id, items, k);
      } else {
        NewRowNotCurrent(before, d, next0, id, k);
        assert added[k] == NewRow(id, toAdd[k - |before|], next0 + k - |before|);
      }
    }
    EditedLinesValid(before, next0, id, items);
  }

  /** An edit keeps each existing row's ID and numbers the inserted rows from the counter. */
  lemma EditedLineId(before: seq<LineRow>, next0: int, id: int, items: seq<SubmittedLine>, k: nat)
    requires k < |EditedLines(before, next0, id, items)|
    ensures EditedLines(before, next0, id, items)[k].lineId
            == if k < |before| then before[k].lineId else next0 + k - |before|
  {
    EditedLineAt(before, next0, id, items, k);
  }

  /** The edited table keeps line IDs unique and below the advanced counter. */
  lemma EditedLinesValid(before: seq<LineRow>, next0: int, id: int, items: seq<SubmittedLine>)
    requires UniqueLineIds(before) && forall k | 0 <= k < |before| :: before[k].lineId < next0
    ensures UniqueLineIds(EditedLines(before, next0, id, items))
    ensures forall k | 0 <= k < |EditedLines(before, next0, id, items)| ::
              EditedLines(before, next0, id, items)[k].lineId < next0 + |ItemsToAdd(items, LinesOf(before, id))|
  {
    var e := EditedLines(before, next0, id, items);
    assert |e| == |before| + |ItemsToAdd(items, LinesOf(before, id))|;
    forall a, b | 0 <= a < b < |e| ensures e[a].lineId != e[b].lineId {
      EditedLineId(before, next0, id, items, a);
      EditedLineId(before, next0, id, items, b);
    }
    forall k | 0 <= k < |e| ensures e[k].lineId < next0 + |ItemsToAdd(items, LinesOf(before, id))| {
      EditedLineId(before, next0, id, items, k);
    }
  }
}

=== FILE: filter_badges.dfy ===
/**
 * The filter badges above a table (src/components/Table/filter-badges.tsx): one badge per
 * filter field that has a value in the URL, in field order, each describing its value
 * through the field's options; removing a badge deletes its URL parameter and goes back
 * to page 1; at most `maxVisible` badges show, followed by a "+N more" count.
 */
module FilterBadges {
  import opened Wrappers
  import opened Strings
  import opened Options
  import opened UrlQuery

  /** One active filter: the field's name, caption, raw URL value and the text shown. */
  datatype Badge = Badge(key: string, caption: string, value: string, displayValue: string)

  /** Each `.`-separated part shown as its option's caption, or as itself. */
  function PartCaptions(options: seq<FilterOption>, parts: seq<string>): (r: seq<string>)
    ensures |r| == |parts|
    ensures forall k | 0 <= k < |r| :: r[k] == CaptionOrValue(options, parts[k])
  {
    if |parts| == 0 then [] else [CaptionOrValue(options, parts[0])] + PartCaptions(options, parts[1..])
  }

  /** The text of a field's badge for a non-empty URL value. */
  function DisplayValue(field: FilterField, paramValue: string): string
  {
    match field.options
    case Some(options) =>
      if Contains(paramValue, ".") then
        field.caption + ": " + Join(PartCaptions(options, Split(paramValue, '.')), ", ")
      else field.caption + ": " + CaptionOrValue(options, paramValue)
    case None => field.caption + ": " + paramValue
  }

  /** The multi-value rendering of a single value is the single-value rendering: the two branches agree. */
  lemma SingleValueIsOnePart(field: FilterField, paramValue: string)
    requires field.options.Some? && '.' !in paramValue
    ensures Join(PartCaptions(field.options.value, Split(paramValue, '.')), ", ")
            == CaptionOrValue(field.options.value, paramValue)
  {
    SplitNoSeparator(paramValue, '.');
  }

  /** The badge a field contributes for a query, if any. */
  function BadgeOf(field: FilterField, q: Query): (r: Option<Badge>)
    ensures r.Some? <==> Get(q, field.key).Some? && Get(q, field.key).value != ""
    ensures r.Some? ==> r.value.key == field.key && Get(q, field.key) == Some(r.value.value)
  {
    match Get(q, field.key)
    case Some(v) => if v != "" then Some(Badge(field.key, field.caption, v, DisplayValue(field, v))) else None
    case None => None
  }

  /** `activeFilters`: the badges of the fields, in field order. */
  function Badges(fields: seq<FilterField>, q: Query): seq<Badge>
  {
    if |fields| == 0 then []
    else
      var init := Badges(fields[..|fields| - 1], q);
      match BadgeOf(fields[|fields| - 1], q)
      case Some(b) => init + [b]
      case None => init
  }

  /** The `forEach` that pushes one badge per field with a URL value. */
  method ActiveFilters(fields: seq<FilterField>, q: Query) returns (filters: seq<Badge>)
    ensures filters == Badges(fields, q)
  {
    filters := [];
    var i := 0;
    while i < |fields|
      invariant 0 <= i <= |fields|
      invariant filters == Badges(fields[..i], q)
    {
      assert fields[..i + 1][..i] == fields[..i];
      var field := fields[i];
      var paramValue := Get(q, field.key);
      if paramValue.Some? && paramValue.value != "" {
        ContainsChar(paramValue.value, '.');
        var displayValue := field.caption + ": " + paramValue.value;
        if field.options.Some? && '.' in paramValue.value {
          var values := Split(paramValue.value, '.');
          displayValue := field.caption + ": " + Join(PartCaptions(field.options.value, values), ", ");
        } else if field.options.Some? {
          displayValue := field.caption + ": " + CaptionOrValue(field.options.value, paramValue.value);
        }
        filters := filters + [Badge(field.key, field.caption, paramValue.value, displayValue)];
      }
      i := i + 1;
    }
    assert fields[..|fields|] == fields;
  }

  /** Every badge is the badge of one of the fields, so it carries that field's non-empty URL value. */
  lemma {:induction false} BadgesSound(fields: seq<FilterField>, q: Query)
    ensures forall b | b in Badges(fields, q) :: exists i | 0 <= i < |fields| :: BadgeOf(fields[i], q) == Some(b)
    decreases |fields|
  {
    if |fields| > 0 {
      var init := fields[..|fields| - 1];
      BadgesSound(init, q);
      forall b | b in Badges(fields, q) ensures exists i | 0 <= i < |fields| :: BadgeOf(fields[i], q) == Some(b) {
        if b in Badges(init, q) {
          var i :| 0 <= i < |init| && BadgeOf(init[i], q) == Some(b);
          assert fields[i] == init[i];
        } else {
          assert BadgeOf(fields[|fields| - 1], q) == Some(b);
        }
      }
    }
  }

  /** Every field with a non-empty URL value has its badge. */
  lemma {:induction false} BadgesComplete(fields: seq<FilterField>, q: Query)
    ensures forall i | 0 <= i < |fields| && BadgeOf(fields[i], q).Some? :: BadgeOf(fields[i], q).value in Badges(fields, q)
    ensures |Badges(fields, q)| <= |fields|
    decreases |fields|
  {
    if |fields| > 0 {
      var init := fields[..|fields| - 1];
      var last := BadgeOf(fields[|fields| - 1], q);
      BadgesComplete(init, q);
      var bs := Badges(init, q);
      assert Badges(fields, q) == if last.Some? then bs + [last.value] else bs;
      forall i | 0 <= i < |fields| && BadgeOf(fields[i], q).Some?
        ensures BadgeOf(fields[i], q).value in Badges(fields, q)
      {
        if i < |init| {
          assert init[i] == fields[i];
          assert BadgeOf(fields[i], q).value in bs;
        }
      }
    }
  }

  /** `removeFilter(key)`: the query with `key` deleted and `page` set to `"1"`. */
  function RemovedFilter(q: Query, key: string): Query
  {
    Put(Delete(q, key), "page", "1")
  }

  /** After removing a badge its parameter is gone, the page is 1, and every other parameter is kept. */
  lemma RemoveFilterEffect(q: Query, key: string, other: string)
    requires key != "page"
    ensures Get(RemovedFilter(q, key), key) == None
    ensures Get(RemovedFilter(q, key), "page") == Some("1")
    ensures other != key && other != "page" ==> Get(RemovedFilter(q, key), other) == Get(q, other)
  {
    GetPut(Delete(q, key), "page", "1", key);
    GetDelete(q, key, key);
    GetPut(Delete(q, key), "page", "1", other);
    GetDelete(q, key, other);
    GetPut(Delete(q, key), "page", "1", "page");
  }

  /** `activeFilters.slice(0, maxVisible)` with JavaScript's treatment of a negative end. */
  function Visible(badges: seq<Badge>, maxVisible: int): (r: seq<Badge>)
  {
    var end := if maxVisible >= 0 then (if maxVisible < |badges| then maxVisible else |badges|)
               else (if |badges| + maxVisible > 0 then |badges| + maxVisible else 0);
    badges[..end]
  }

  /** `activeFilters.length - maxVisible`; the "+N more" badge shows when it is positive. */
  function HiddenCount(badges: seq<Badge>, maxVisible: int): int
  {
    |badges| - maxVisible
  }

  /**
   * With a non-negative limit, the visible badges are the first ones, and together with
   * the "+N more" count they account for every badge exactly once.
   */
  lemma VisibleAndHidden(badges: seq<Badge>, maxVisible: int)
    requires maxVisible >= 0
    ensures Visible(badges, maxVisible) <= badges
    ensures |Visible(badges, maxVisible)| + (if HiddenCount(badges, maxVisible) > 0 then HiddenCount(badges, maxVisible) else 0)
            == |badges|
    ensures HiddenCount(badges, maxVisible) > 0 <==> |badges| > maxVisible
  {
  }

  /** The default limit is 5. */
  const DefaultMaxVisible := 5
}

=== FILE: filter_widgets.dfy ===
/**
 * The filter bar of the list pages (src/components/data-table/data-table-filters.tsx):
 * the text of a filter badge, and the row of active-filter badges, one per configured
 * filter whose value is not `"all"`, shown when some filter value is not `"all"`.
 */
module FilterWidgets {
  import opened Wrappers
  import opened Options
  import opened UrlQuery
  import opened DataTableFilters

  /** `getFilterLabel(config, value)`: `"<label>: <option label>"`, or the raw value when no option has a label. */
  function FilterLabel(config: FilterConfig, value: string): string
  {
    config.caption + ": " + CaptionOrValue(config.options, value)
  }

  /** A badge in the active-filters row; its remove button passes `key` to `onRemoveFilter`. */
  datatype ActiveBadge = ActiveBadge(key: string, text: string)

  /** The badge text for `filters[config.key]`, which reads `undefined` when the key is missing. */
  function BadgeText(config: FilterConfig, value: Option<string>): string
  {
    match value
    case Some(v) => FilterLabel(config, v)
    case None => config.caption + ": undefined"
  }

  /** The badges of the configs, in configuration order, skipping those whose value is `"all"`. */
  function ActiveBadges(configs: seq<FilterConfig>, fs: Filters): seq<ActiveBadge>
  {
    if |configs| == 0 then []
    else
      var c := configs[|configs| - 1];
      var value := Lookup(fs, c.key);
      ActiveBadges(configs[..|configs| - 1], fs) + (if value == Some("all") then [] else [ActiveBadge(c.key, BadgeText(c, value))])
  }

  /**
   * For the controller's filters (one entry per configured key, in configuration order),
   * the badges are exactly the active filters, in order, so their number is
   * `activeFilterCount` and the row shows exactly when `hasActiveFilters`.
   */
  lemma BadgesMatchActiveFilters(configs: seq<FilterConfig>, fs: Filters)
    requires ShapedBy(fs, configs) && UniqueKeys(fs)
    ensures |ActiveBadges(configs, fs)| == ActiveFilterCount(fs)
    ensures forall k | 0 <= k < |ActiveBadges(configs, fs)| :: ActiveBadges(configs, fs)[k].key == ActiveOnly(fs)[k].0
    ensures |ActiveBadges(configs, fs)| > 0 <==> HasActiveFilters(fs)
  {
    BadgesPrefix(configs, fs, |configs|);
    assert configs[..|configs|] == configs;
    assert fs[..|fs|] == fs;
    ActiveIffCounted(fs);
  }

  lemma {:induction false} BadgesPrefix(configs: seq<FilterConfig>, fs: Filters, n: nat)
    requires ShapedBy(fs, configs) && UniqueKeys(fs) && n <= |configs|
    ensures |ActiveBadges(configs[..n], fs)| == |ActiveOnly(fs[..n])|
    ensures forall k | 0 <= k < |ActiveBadges(configs[..n], fs)| :: ActiveBadges(configs[..n], fs)[k].key == ActiveOnly(fs[..n])[k].0
  {
    if n > 0 {
      BadgesPrefix(configs, fs, n - 1);
      var cs, gs := configs[..n], fs[..n];
      assert cs[..n - 1] == configs[..n - 1];
      assert gs[..n - 1] == fs[..n - 1];
      LookupFirstOf(fs, n - 1);
      var c, value := cs[n - 1], Lookup(fs, cs[n - 1].key);
      assert value == Some(fs[n - 1].1);
      var bs, ps := ActiveBadges(configs[..n - 1], fs), ActiveOnly(fs[..n - 1]);
      assert ActiveBadges(cs, fs) == bs + (if value == Some("all") then [] else [ActiveBadge(c.key, BadgeText(c, value))]);
      assert ActiveOnly(gs) == ps + (if fs[n - 1].1 != "all" then [fs[n - 1]] else []);
    }
  }

  /** Setting a filter to `"all"` (as `removeFilter` does) drops its badge and keeps every other. */
  lemma RemovedFilterLosesBadge(configs: seq<FilterConfig>, fs: Filters, i: nat)
    requires ShapedBy(fs, configs) && UniqueKeys(fs) && i < |fs|
    ensures ShapedBy(fs[i := (fs[i].0, "all")], configs)
    ensures forall b | b in ActiveBadges(configs, fs[i := (fs[i].0, "all")]) :: b.key != fs[i].0
    ensures ActiveFilterCount(fs[i := (fs[i].0, "all")]) == ActiveFilterCount(fs) - (if fs[i].1 != "all" then 1 else 0)
  {
    var gs := fs[i := (fs[i].0, "all")];
    assert UniqueKeys(gs) by {
      assert forall k | 0 <= k < |gs| :: gs[k].0 == fs[k].0;
    }
    BadgesMatchActiveFilters(configs, gs);
    forall b | b in ActiveBadges(configs, gs) ensures b.key != fs[i].0 {
      var k :| 0 <= k < |ActiveBadges(configs, gs)| && ActiveBadges(configs, gs)[k] == b;
      var p := ActiveOnly(gs)[k];
      assert p in ActiveOnly(gs);
      assert p in gs && p.1 != "all";
      var j :| 0 <= j < |gs| && gs[j] == p;
      assert j != i;
    }
    CountAfterSet(fs, i);
  }

  lemma {:induction false} CountAfterSet(fs: Filters, i: nat)
    requires i < |fs|
    ensures ActiveFilterCount(fs[i := (fs[i].0, "all")]) == ActiveFilterCount(fs) - (if fs[i].1 != "all" then 1 else 0)
    decreases |fs|
  {
    var gs := fs[i := (fs[i].0, "all")];
    if i < |fs| - 1 {
      CountAfterSet(fs[..|fs| - 1], i);
      assert gs[..|gs| - 1] == fs[..|fs| - 1][i := (fs[i].0, "all")];
    } else {
      assert gs[..|gs| - 1] == fs[..|fs| - 1];
    }
  }
}

=== FILE: item_forms.dfy ===
/**
 * The item modals (src/components/items/modals/add-item-modal.tsx and
 * edit-item-modal.tsx): the stock-status rule their effect applies, the step wizard of
 * the add modal, the label and colour lookups, the values the edit modal loads, and the
 * close button that asks for confirmation while the form is dirty.
 */
module ItemForms {
  import opened Wrappers
  import opened Options
  import opened DbIds
  import Wizard
  import Badges

  /** The status the effect computes from a quantity and its alert threshold. */
  function StockStatus(quantity: int, threshold: int): int
  {
    if quantity <= 0 then OUT_OF_STOCK_ID
    else if quantity <= threshold then LOW_STOCK_ID
    else IN_STOCK_ID
  }

  /** The three statuses partition the (quantity, threshold) plane. */
  lemma StockStatusCases(quantity: int, threshold: int)
    ensures StockStatus(quantity, threshold) == OUT_OF_STOCK_ID <==> quantity <= 0
    ensures StockStatus(quantity, threshold) == LOW_STOCK_ID <==> 0 < quantity <= threshold
    ensures StockStatus(quantity, threshold) == IN_STOCK_ID <==> quantity > 0 && quantity > threshold
  {
  }

  /** More stock never yields a worse status (status IDs grow as stock runs out). */
  lemma StockStatusMonotone(q1: int, q2: int, threshold: int)
    requires q1 <= q2
    ensures StockStatus(q2, threshold) <= StockStatus(q1, threshold)
  {
  }

  /**
   * With a non-negative threshold, the status is anything but "in stock" exactly when the
   * item view shows its stock alert and the item table highlights the quantity
   * (`quantity <= threshold`).
   */
  lemma NotInStockIffAlerted(quantity: int, threshold: int)
    requires threshold >= 0
    ensures StockStatus(quantity, threshold) != IN_STOCK_ID <==> quantity <= threshold
  {
  }

  /** The effect: with both quantity and threshold defined it overwrites `statusId`, otherwise it leaves it. */
  function StatusAfterEffect(quantity: Option<int>, threshold: Option<int>, statusId: Option<int>): (r: Option<int>)
    ensures quantity.None? || threshold.None? ==> r == statusId
  {
    if quantity.Some? && threshold.Some? then Some(StockStatus(quantity.value, threshold.value)) else statusId
  }

  /** The colour family of the edit modal's status colour; any other status is uncoloured. */
  function StatusTone(statusId: Option<int>): Option<Badges.Tone>
  {
    if statusId == Some(IN_STOCK_ID) then Some(Badges.Green)
    else if statusId == Some(LOW_STOCK_ID) then Some(Badges.Orange)
    else if statusId == Some(OUT_OF_STOCK_ID) then Some(Badges.Red)
    else None
  }

  /** Status colour of the edit modal. */
  function StatusColor(statusId: Option<int>): string
  {
    match StatusTone(statusId)
    case None => ""
    case Some(t) => Badges.TintClass(t)
  }

  /** Only the three item statuses get a colour, and each its own. */
  lemma StatusColorDistinct(a: Option<int>, b: Option<int>)
    ensures StatusColor(a) != "" <==> a.Some? && a.value in {IN_STOCK_ID, LOW_STOCK_ID, OUT_OF_STOCK_ID}
    ensures StatusColor(a) != "" && StatusColor(a) == StatusColor(b) ==> a == b
  {
    if StatusColor(a) != "" && StatusColor(a) == StatusColor(b) {
      Badges.TintClassInjective(StatusTone(a).value, StatusTone(b).value);
    }
  }

  /** `getStatusLabel` of both modals. */
  function StatusLabel(statuses: seq<FilterOption>, statusId: Option<int>): string
  {
    LabelOf(statuses, statusId, "Not calculated")
  }

  /** `getCategoryLabel`, `getSupplierLabel` and `getLocationLabel` of the add modal. */
  function ReferenceLabel(options: seq<FilterOption>, id: Option<int>): string
  {
    LabelOf(options, id, "N/A")
  }

  /** Before the status has been calculated, the label says so. */
  lemma UncalculatedStatusLabel(statuses: seq<FilterOption>)
    ensures StatusLabel(statuses, None) == "Not calculated"
    ensures forall options: seq<FilterOption> :: ReferenceLabel(options, None) == "N/A"
  {
    forall options: seq<FilterOption> ensures ReferenceLabel(options, None) == "N/A" {
      LabelIsCaptionOfMatch(options, None, "N/A");
    }
    LabelIsCaptionOfMatch(statuses, None, "Not calculated");
  }

  // ---------------------------------------------------------------------------
  // The add modal's step wizard

  const AddItemSteps := 4

  /** The form fields the add modal validates. */
  datatype ItemField = Name | Sku | CategoryId | SupplierId | LocationId | Quantity | Threshold | UnitPrice

  /** `validateStep`'s field lists; steps other than 1 to 3 validate no field. */
  function StepFields(step: int): (fields: set<ItemField>)
  {
    if step == 1 then {Name, Sku}
    else if step == 2 then {CategoryId, SupplierId, LocationId}
    else if step == 3 then {Quantity, Threshold, UnitPrice}
    else {}
  }

  /** `form.trigger(fields)`: every listed field passes the schema. */
  predicate StepValid(step: int, fieldValid: ItemField -> bool)
  {
    forall f | f in StepFields(step) :: fieldValid(f)
  }

  /** Every field is checked by exactly one of the first three steps, and the review step checks none. */
  lemma StepsCoverFields(f: ItemField)
    ensures exists step | 1 <= step <= 3 :: f in StepFields(step)
    ensures forall s, t | 1 <= s < t <= AddItemSteps :: !(f in StepFields(s) && f in StepFields(t))
    ensures StepFields(AddItemSteps) == {}
  {
    match f
    case Name => assert f in StepFields(1);
    case Sku => assert f in StepFields(1);
    case CategoryId => assert f in StepFields(2);
    case SupplierId => assert f in StepFields(2);
    case LocationId => assert f in StepFields(2);
    case Quantity => assert f in StepFields(3);
    case Threshold => assert f in StepFields(3);
    case UnitPrice => assert f in StepFields(3);
  }

  /** The add-item modal's state. */
  class AddItemForm {
    var currentStep: int
    var quantity: Option<int>
    var threshold: Option<int>
    var statusId: Option<int>
    var isDirty: bool
    var showExitConfirm: bool
    var open: bool

    /** The step is in range and, once quantity and threshold are both set, the status follows them. */
    ghost predicate Valid()
      reads this
    {
      && 1 <= currentStep <= AddItemSteps
      && (quantity.Some? && threshold.Some? ==> statusId == Some(StockStatus(quantity.value, threshold.value)))
    }

    /** The modal opened with the default values: nothing entered, no status, step 1. */
    constructor ()
      ensures Valid()
      ensures currentStep == 1 && quantity.None? && threshold.None? && statusId.None?
      ensures !isDirty && !showExitConfirm && open
    {
      currentStep := 1;
      quantity := None;
      threshold := None;
      statusId := None;
      isDirty := false;
      showExitConfirm := false;
      open := true;
    }

    /** The user edits the quantity; the form becomes dirty and the status effect runs. */
    method SetQuantity(q: Option<int>)
      requires Valid()
      modifies this
      ensures Valid()
      ensures quantity == q && threshold == old(threshold) && isDirty && currentStep == old(currentStep)
      ensures statusId == StatusAfterEffect(q, threshold, old(statusId))
      ensures showExitConfirm == old(showExitConfirm) && open == old(open)
    {
      quantity := q;
      isDirty := true;
      statusId := StatusAfterEffect(quantity, threshold, statusId);
    }

    /** The user edits the threshold; the form becomes dirty and the status effect runs. */
    method SetThreshold(t: Option<int>)
      requires Valid()
      modifies this
      ensures Valid()
      ensures threshold == t && quantity == old(quantity) && isDirty && currentStep == old(currentStep)
      ensures statusId == StatusAfterEffect(quantity, t, old(statusId))
      ensures showExitConfirm == old(showExitConfirm) && open == old(open)
    {
      threshold := t;
      isDirty := true;
      statusId := StatusAfterEffect(quantity, threshold, statusId);
    }

    /** `handleNext`, given the schema's verdict on each field. */
    method HandleNext(fieldValid: ItemField -> bool)
      requires Valid()
      modifies this
      ensures Valid()
      ensures currentStep == Wizard.Next(old(currentStep), StepValid(old(currentStep), fieldValid), AddItemSteps)
      ensures quantity == old(quantity) && threshold == old(threshold) && statusId == old(statusId)
      ensures isDirty == old(isDirty) && showExitConfirm == old(showExitConfirm) && open == old(open)
    {
      var isValid := StepValid(currentStep, fieldValid);
      currentStep := Wizard.Next(currentStep, isValid, AddItemSteps);
    }

    /** `handlePrevious` */
    method HandlePrevious()
      requires Valid()
      modifies this
      ensures Valid()
      ensures currentStep == Wizard.Previous(old(currentStep))
      ensures quantity == old(quantity) && threshold == old(threshold) && statusId == old(statusId)
      ensures isDirty == old(isDirty) && showExitConfirm == old(showExitConfirm) && open == old(open)
    {
      currentStep := Wizard.Previous(currentStep);
    }

    /** `handleClose`: a dirty form asks for confirmation instead of closing. */
    method HandleClose()
      modifies this
      ensures old(isDirty) ==> showExitConfirm && open == old(open)
      ensures !old(isDirty) ==> !open && showExitConfirm == old(showExitConfirm)
      ensures currentStep == old(currentStep) && quantity == old(quantity) && threshold == old(threshold)
      ensures statusId == old(statusId) && isDirty == old(isDirty)
    {
      if isDirty {
        showExitConfirm := true;
      } else {
        open := false;
      }
    }

    /** `handleConfirmExit` */
    method HandleConfirmExit()
      modifies this
      ensures !showExitConfirm && !open
      ensures currentStep == old(currentStep) && quantity == old(quantity) && threshold == old(threshold)
      ensures statusId == old(statusId) && isDirty == old(isDirty)
    {
      showExitConfirm := false;
      open := false;
    }
  }

  // ---------------------------------------------------------------------------
  // The edit modal

  /** The stored item the edit modal opens with. */
  datatype StoredItem = StoredItem(itemId: int, quantity: Option<int>, threshold: int, statusId: int)

  /** `quantity: item.Quantity || undefined`: a stored 0 (or null) loads as undefined. */
  function LoadedQuantity(item: StoredItem): (q: Option<int>)
    ensures q.None? <==> item.quantity.None? || item.quantity == Some(0)
    ensures q.Some? ==> q == item.quantity
  {
    if item.quantity.Some? && item.quantity.value != 0 then item.quantity else None
  }

  /** The status after the effect's first run on the loaded values. */
  function InitialStatus(item: StoredItem): Option<int>
  {
    StatusAfterEffect(LoadedQuantity(item), Some(item.threshold), Some(item.statusId))
  }

  /**
   * A stored quantity of 0 loads as undefined, so the effect does not run and the stored
   * status is kept, whatever it is; any other stored quantity recomputes it.
   */
  lemma ZeroQuantityKeepsStoredStatus(item: StoredItem)
    ensures item.quantity == Some(0) ==> InitialStatus(item) == Some(item.statusId)
    ensures item.quantity.Some? && item.quantity.value != 0 ==>
              InitialStatus(item) == Some(StockStatus(item.quantity.value, item.threshold))
  {
  }

  /**
   * The edit-item modal's state; `navigatedBack` records `router.back()`.  The form's default
   * values are the loaded ones, against which react-hook-form measures `isDirty`.
   */
  class EditItemForm {
    const defaultQuantity: Option<int>
    const defaultThreshold: Option<int>
    const defaultStatusId: Option<int>
    var quantity: Option<int>
    var threshold: Option<int>
    var statusId: Option<int>
    var isDirty: bool
    var showExitConfirm: bool
    var navigatedBack: bool

    ghost predicate Valid()
      reads this
    {
      quantity.Some? && threshold.Some? ==> statusId == Some(StockStatus(quantity.value, threshold.value))
    }

    /** Loads the stored values and runs the status effect once. */
    constructor (item: StoredItem)
      ensures Valid()
      ensures defaultQuantity == LoadedQuantity(item) && defaultThreshold == Some(item.threshold)
      ensures defaultStatusId == Some(item.statusId)
      ensures quantity == LoadedQuantity(item) && threshold == Some(item.threshold)
      ensures statusId == InitialStatus(item)
      ensures !isDirty && !showExitConfirm && !navigatedBack
    {
      defaultQuantity := LoadedQuantity(item);
      defaultThreshold := Some(item.threshold);
      defaultStatusId := Some(item.statusId);
      quantity := LoadedQuantity(item);
      threshold := Some(item.threshold);
      statusId := InitialStatus(item);
      isDirty := false;
      showExitConfirm := false;
      navigatedBack := false;
    }

    /**
     * The user edits the quantity.  The form is dirty when its values, as they stand at the
     * edit, differ from the defaults; the status the effect then writes does not re-measure it.
     */
    method SetQuantity(q: Option<int>)
      requires Valid()
      modifies this
      ensures Valid()
      ensures quantity == q && threshold == old(threshold)
      ensures isDirty <==> (q, old(threshold), old(statusId)) != (defaultQuantity, defaultThreshold, defaultStatusId)
      ensures statusId == StatusAfterEffect(q, threshold, old(statusId))
      ensures showExitConfirm == old(showExitConfirm) && navigatedBack == old(navigatedBack)
    {
      quantity := q;
      isDirty := (quantity, threshold, statusId) != (defaultQuantity, defaultThreshold, defaultStatusId);
      statusId := StatusAfterEffect(quantity, threshold, statusId);
    }

    /** The user edits the threshold; dirtiness is measured as for the quantity. */
    method SetThreshold(t: Option<int>)
      requires Valid()
      modifies this
      ensures Valid()
      ensures threshold == t && quantity == old(quantity)
      ensures isDirty <==> (old(quantity), t, old(statusId)) != (defaultQuantity, defaultThreshold, defaultStatusId)
      ensures statusId == StatusAfterEffect(quantity, t, old(statusId))
      ensures showExitConfirm == old(showExitConfirm) && navigatedBack == old(navigatedBack)
    {
      threshold := t;
      isDirty := (quantity, threshold, statusId) != (defaultQuantity, defaultThreshold, defaultStatusId);
      statusId := StatusAfterEffect(quantity, threshold, statusId);
    }

    /** `handleClose`: a dirty form asks for confirmation, a clean one navigates back. */
    method HandleClose()
      modifies this
      ensures old(isDirty) ==> showExitConfirm && navigatedBack == old(navigatedBack)
      ensures !old(isDirty) ==> navigatedBack && showExitConfirm == old(showExitConfirm)
      ensures quantity == old(quantity) && threshold == old(threshold) && statusId == old(statusId)
      ensures isDirty == old(isDirty)
    {
      if isDirty {
        showExitConfirm := true;
      } else {
        navigatedBack := true;
      }
    }

    /** `handleConfirmExit` */
    method HandleConfirmExit()
      modifies this
      ensures !showExitConfirm && navigatedBack
      ensures quantity == old(quantity) && threshold == old(threshold) && statusId == old(statusId)
      ensures isDirty == old(isDirty)
    {
      showExitConfirm := false;
      navigatedBack := true;
    }
  }
}

=== FILE: item_query.dfy ===
/**
 * `getItems` (src/server/database/items/get/items.ts): the paged, filtered list of
 * inventory items.  The `Items` table is a sequence of rows in table order.
 */
module ItemQuery {
  import opened Wrappers
  import opened Strings
  import opened Paging
  import opened ListQuery

  /** The columns of an `Items` row the query reads or filters on. */
  datatype ItemRow = ItemRow(itemId: int, name: string, sku: string, categoryId: int, locationId: int,
                             statusId: int, quantity: int, isActive: bool)

  /** The validated parameters; absent fields are None. */
  datatype ItemsInput = ItemsInput(page: Option<int>, perPage: Option<int>, itemId: Option<int>,
                                   searchTerm: Option<string>, categoryIds: Option<string>,
                                   locationIds: Option<string>, statusIds: Option<string>)

  const DefaultPage: int := 1
  const DefaultPerPage: int := 100

  /** `Search_Term ? Search_Term.split(" ") : []` */
  function SearchTerms(searchTerm: Option<string>): seq<string>
  {
    if searchTerm.Some? && searchTerm.value != "" then Split(searchTerm.value, ' ') else []
  }

  /** The search clause: with a search term, some space-separated term occurs in the name or the SKU. */
  predicate MatchesSearch(row: ItemRow, searchTerm: Option<string>)
  {
    var terms := SearchTerms(searchTerm);
    |terms| == 0 || exists k | 0 <= k < |terms| :: Contains(row.name, terms[k]) || Contains(row.sku, terms[k])
  }

  /** The `where` object: active, the search clause, and the three ID-set filters. */
  predicate Matches(input: ItemsInput, row: ItemRow)
  {
    && row.isActive
    && MatchesSearch(row, input.searchTerm)
    && InIdFilter(input.categoryIds, row.categoryId)
    && InIdFilter(input.locationIds, row.locationId)
    && InIdFilter(input.statusIds, row.statusId)
  }

  function MatchesOf(input: ItemsInput): ItemRow -> bool
  {
    row => Matches(input, row)
  }

  function MatchingItems(table: seq<ItemRow>, input: ItemsInput): seq<ItemRow>
  {
    Select(table, MatchesOf(input))
  }

  /** `getItems(input)` against the table. */
  function GetItems(table: seq<ItemRow>, input: ItemsInput): (r: QueryOutcome<ItemRow>)
    ensures var page := input.page.GetOr(DefaultPage);
            var size := input.perPage.GetOr(DefaultPerPage);
            && (r.Page? <==> page >= 1 && size >= 1)
            && (r.NoRows? <==> size == 0)
            && (r.NoRows? ==> r.totalCount == |MatchingItems(table, input)|)
            && (r.Page? ==> && r.data == Window(MatchingItems(table, input), Skip(page, size), size)
                            && r.pagination.page == page && r.pagination.pageSize == size
                            && |r.data| <= size
                            && r.pagination.totalCount == |MatchingItems(table, input)|
                            && r.pagination.totalPages == CeilDiv(|MatchingItems(table, input)|, size)
                            && forall row | row in r.data :: row in table && row.isActive && Matches(input, row))
  {
    PageOf(MatchingItems(table, input), input.page.GetOr(DefaultPage), input.perPage.GetOr(DefaultPerPage))
  }

  /** The same query at page `page` and page size `size`. */
  function AtPage(input: ItemsInput, page: nat, size: nat): ItemsInput
  {
    input.(page := Some(page), perPage := Some(size))
  }

  /** Page `p` at size `size` as one call returns it: its rows, or none when the call fails. */
  function PageRows(table: seq<ItemRow>, input: ItemsInput, size: nat): nat -> seq<ItemRow>
  {
    (p: nat) => var r := GetItems(table, AtPage(input, p, size)); if r.Page? then r.data else []
  }

  /**
   * Paging through the list: calling `getItems` for pages 1 to the reported `totalPages`
   * at a fixed page size lists every matching item exactly once, in table order.
   */
  lemma PagesListEveryMatch(table: seq<ItemRow>, input: ItemsInput, size: nat)
    requires size >= 1
    ensures var first := GetItems(table, AtPage(input, 1, size));
            && first.Page?
            && ReadPages(PageRows(table, input, size), 1, first.pagination.totalPages) == MatchingItems(table, input)
  {
    var rows := MatchingItems(table, input);
    var last := CeilDiv(|rows|, size);
    var read, same := PageRows(table, input, size), (s: seq<ItemRow>) => s;
    forall p | 1 <= p <= last ensures read(p) == same(Window(rows, Skip(p, size), size)) {
      AtPageWindow(table, input, p, size);
    }
    AtPageWindow(table, input, 1, size);
    ReadPagesFrom(read, same, rows, size, 1, last);
    PagesCover(rows, size);
  }

  /** Only the filters choose the matching rows; the page and its size only pick the window. */
  lemma AtPageWindow(table: seq<ItemRow>, input: ItemsInput, page: nat, size: nat)
    requires page >= 1 && size >= 1
    ensures var r := GetItems(table, AtPage(input, page, size));
            && r.Page?
            && r.data == Window(MatchingItems(table, input), Skip(page, size), size)
            && r.pagination.totalPages == CeilDiv(|MatchingItems(table, input)|, size)
  {
    var at := AtPage(input, page, size);
    assert forall x | x in table :: MatchesOf(at)(x) == MatchesOf(input)(x);
    SelectAgrees(table, MatchesOf(at), MatchesOf(input));
    assert MatchingItems(table, at) == MatchingItems(table, input);
  }

  function ActiveItems(table: seq<ItemRow>): seq<ItemRow>
  {
    Select(table, (row: ItemRow) => row.isActive)
  }

  /** Inactive rows are neither listed nor counted: the query answers as if they were absent. */
  lemma InactiveRowsInvisible(table: seq<ItemRow>, input: ItemsInput)
    ensures GetItems(table, input) == GetItems(ActiveItems(table), input)
  {
    SelectWithin(table, input);
  }

  lemma {:induction false} SelectWithin(table: seq<ItemRow>, input: ItemsInput)
    ensures MatchingItems(table, input) == MatchingItems(ActiveItems(table), input)
    decreases |table|
  {
    if |table| > 0 {
      SelectWithin(table[1..], input);
      var active := ActiveItems(table);
      if table[0].isActive {
        assert active == [table[0]] + ActiveItems(table[1..]);
        assert active[0] == table[0] && active[1..] == ActiveItems(table[1..]);
        assert MatchingItems(active, input)
               == (if Matches(input, table[0]) then [table[0]] else []) + MatchingItems(active[1..], input);
      } else {
        assert active == ActiveItems(table[1..]);
        assert !Matches(input, table[0]);
      }
    }
  }

  /** The `Item_ID` parameter is read but never constrains the query. */
  lemma ItemIdIgnored(table: seq<ItemRow>, input: ItemsInput, itemId: Option<int>)
    ensures GetItems(table, input.(itemId := itemId)) == GetItems(table, input)
  {
    SelectAgrees(table, MatchesOf(input.(itemId := itemId)), MatchesOf(input));
  }

  /** Searching for space-joined terms matches a row iff some term occurs in its name or SKU. */
  lemma SearchIsAnyTerm(row: ItemRow, terms: seq<string>)
    requires |terms| >= 1 && Join(terms, " ") != ""
    requires forall t | t in terms :: ' ' !in t
    ensures MatchesSearch(row, Some(Join(terms, " ")))
            <==> exists t | t in terms :: Contains(row.name, t) || Contains(row.sku, t)
  {
    SplitJoin(terms, ' ');
    var split := SearchTerms(Some(Join(terms, " ")));
    assert split == terms;
    if exists t | t in terms :: Contains(row.name, t) || Contains(row.sku, t) {
      var t :| t in terms && (Contains(row.name, t) || Contains(row.sku, t));
      var k :| 0 <= k < |terms| && terms[k] == t;
      assert Contains(row.name, split[k]) || Contains(row.sku, split[k]);
    }
  }

  /** A search text ending in a space yields an empty term, and the empty term occurs in every name. */
  lemma TrailingSpaceMatchesEveryRow(row: ItemRow, text: string)
    ensures MatchesSearch(row, Some(text + " "))
  {
    var terms := SearchTerms(Some(text + " "));
    SplitTrailingSeparator(text, ' ');
    EmptyIsContained(row.name);
    assert Contains(row.name, terms[|terms| - 1]);
  }
}

=== FILE: item_views.dfy ===
/**
 * How an item is shown: the read-only item modal (src/components/items/modals/view-item-modal.tsx)
 * and the item table's cells (src/components/items/items-columns.tsx).
 */
module ItemViews {
  import opened Wrappers
  import opened Strings
  import opened Options
  import opened DbIds
  import ItemForms
  import Badges

  // ---------------------------------------------------------------------------
  // The item modal

  /** `getCategoryLabel`, `getSupplierLabel` and `getLocationLabel`: the matching option's label, else "N/A". */
  function ViewReferenceLabel(options: seq<FilterOption>, id: int): string
  {
    LabelOf(options, Some(id), "N/A")
  }

  /** `getStatusLabel`: the matching option's label, else "Unknown". */
  function ViewStatusLabel(statuses: seq<FilterOption>, id: int): string
  {
    LabelOf(statuses, Some(id), "Unknown")
  }

  /** With no option for the ID, the labels fall back; with one, they show its caption. */
  lemma ViewLabelsFallBack(options: seq<FilterOption>, id: int)
    ensures (forall k | 0 <= k < |options| :: ParseNumber(options[k].value) != Some(id))
            ==> ViewReferenceLabel(options, id) == "N/A" && ViewStatusLabel(options, id) == "Unknown"
    ensures ViewReferenceLabel(options, id) != "N/A" ==>
              exists k | 0 <= k < |options| :: options[k].caption == ViewReferenceLabel(options, id)
  {
    LabelIsCaptionOfMatch(options, Some(id), "N/A");
    LabelIsCaptionOfMatch(options, Some(id), "Unknown");
  }

  /** The stock alert box: its heading and its detail line. */
  datatype StockAlert = StockAlert(outOfStock: bool, heading: string, detail: string)

  /** `${item.Quantity}`: a null quantity prints as "null". */
  function QuantityText(quantity: Option<int>): string
  {
    if quantity.Some? then IntToString(quantity.value) else "null"
  }

  /**
   * The alert shown when `(Quantity ?? 0) <= Threshold`; its wording says "out of stock"
   * only when the quantity is exactly 0.
   */
  function StockAlertOf(quantity: Option<int>, threshold: int): (r: Option<StockAlert>)
    ensures r.Some? <==> quantity.GetOr(0) <= threshold
    ensures r.Some? ==> (r.value.outOfStock <==> quantity == Some(0))
  {
    if quantity.GetOr(0) <= threshold then
      if quantity == Some(0) then
        Some(StockAlert(true, "\U{26A0}\U{FE0F} This item is out of stock", "Restock immediately to avoid disruptions"))
      else
        Some(StockAlert(false, "\U{26A0}\U{FE0F} This item is running low on stock",
                        "Only " + QuantityText(quantity) + " units remaining. Consider restocking soon."))
    else None
  }

  /**
   * For a recorded, non-negative quantity and a non-negative threshold the alert agrees with
   * the stored status rule: it shows exactly when the status is not "in stock", and says
   * "out of stock" exactly when the status is out of stock.
   */
  lemma AlertAgreesWithStatus(quantity: nat, threshold: nat)
    ensures StockAlertOf(Some(quantity), threshold).Some?
            <==> ItemForms.StockStatus(quantity, threshold) != IN_STOCK_ID
    ensures StockAlertOf(Some(quantity), threshold).Some? ==>
              (StockAlertOf(Some(quantity), threshold).value.outOfStock
               <==> ItemForms.StockStatus(quantity, threshold) == OUT_OF_STOCK_ID)
  {
    ItemForms.NotInStockIffAlerted(quantity, threshold);
    ItemForms.StockStatusCases(quantity, threshold);
  }

  /** A null quantity counts as 0 for showing the alert but gets the "running low" wording, and its detail prints "null". */
  lemma NullQuantityRunsLow(threshold: int)
    requires threshold >= 0
    ensures StockAlertOf(None, threshold).Some? && !StockAlertOf(None, threshold).value.outOfStock
    ensures |StockAlertOf(None, threshold).value.detail| > 9
    ensures StockAlertOf(None, threshold).value.detail[..9] == "Only null"
  {
    var p, q := "Only " + "null", " units remaining. Consider restocking soon.";
    assert StockAlertOf(None, threshold).value.detail == p + q;
    assert (p + q)[..|p|] == p;
  }

  // ---------------------------------------------------------------------------
  // The item table's cells

  /** The status badge's classes per status ID; any other ID gets the plain badge (no classes). */
  function StatusBadgeClass(id: int): string
  {
    match id
    case 1 => Badges.TintClass(Badges.Green)
    case 2 => Badges.TintClass(Badges.Orange)
    case 3 => Badges.TintClass(Badges.Red)
    case _ => ""
  }

  /** The table's badge and the modals' status colour agree on every status ID. */
  lemma BadgeMatchesModalColor(id: int)
    ensures StatusBadgeClass(id) == ItemForms.StatusColor(Some(id))
    ensures StatusBadgeClass(id) != "" <==> id in {IN_STOCK_ID, LOW_STOCK_ID, OUT_OF_STOCK_ID}
  {
  }

  /** The ID cell: "ITM-0" followed by the ID. */
  function ItemIdText(id: int): (r: string)
    ensures |r| > 5 && r[..5] == "ITM-0"
  {
    "ITM-0" + IntToString(id)
  }

  /** The ID reads back from the cell after its "ITM-0" prefix. */
  lemma ItemIdReadsBack(id: int)
    ensures ParseNumber(ItemIdText(id)[5..]) == Some(id)
  {
    assert ItemIdText(id)[5..] == IntToString(id);
    ParseIntToString(id);
  }

  /** The quantity cell: the quantity (null as 0), highlighted when at or below the threshold (null as 0), then " / threshold". */
  datatype QuantityCell = QuantityCell(quantity: string, highlighted: bool, suffix: string)

  function QuantityCellOf(quantity: Option<int>, threshold: Option<int>): (r: QuantityCell)
    ensures r.highlighted <==> quantity.GetOr(0) <= threshold.GetOr(0)
  {
    var q := quantity.GetOr(0);
    var t := threshold.GetOr(0);
    QuantityCell(IntToString(q), q <= t, " / " + IntToString(t))
  }

  /** The cell's numbers read back as the quantity and threshold, each null read as 0. */
  lemma QuantityCellReadsBack(quantity: Option<int>, threshold: Option<int>)
    ensures var r := QuantityCellOf(quantity, threshold);
            && ParseNumber(r.quantity) == Some(quantity.GetOr(0))
            && |r.suffix| > 3 && r.suffix[..3] == " / " && ParseNumber(r.suffix[3..]) == Some(threshold.GetOr(0))
  {
    var t := threshold.GetOr(0);
    ParseIntToString(quantity.GetOr(0));
    ParseIntToString(t);
    assert (" / " + IntToString(t))[3..] == IntToString(t);
  }

  /** With a recorded threshold, the table highlights a quantity exactly when the item modal shows its alert. */
  lemma HighlightMatchesAlert(quantity: Option<int>, threshold: int)
    ensures QuantityCellOf(quantity, Some(threshold)).highlighted <==> StockAlertOf(quantity, threshold).Some?
  {
  }
}

=== FILE: list_query.dfy ===
/**
 * What the two list queries share: `.`-separated ID-set filters, selecting the
 * matching rows in table order, and cutting one page out of them.
 */
module ListQuery {
  import opened Wrappers
  import opened Strings
  import opened Paging

  /** `s.split(".").map(Number)`; None stands for NaN. */
  function IdList(s: string): (r: seq<Option<int>>)
    ensures |r| == |Split(s, '.')|
  {
    ParseAll(Split(s, '.'))
  }

  function ParseAll(parts: seq<string>): (r: seq<Option<int>>)
    ensures |r| == |parts|
    ensures forall k | 0 <= k < |r| :: r[k] == ParseNumber(parts[k])
  {
    if |parts| == 0 then [] else [ParseNumber(parts[0])] + ParseAll(parts[1..])
  }

  /**
   * `filter ? { in: filter.split(".").map(Number) } : undefined`: an absent or empty
   * filter constrains nothing, otherwise the ID must be one of the parsed parts.
   * A part that is NaN matches no row.
   */
  predicate InIdFilter(filter: Option<string>, id: int)
  {
    filter.None? || filter.value == "" || Some(id) in IdList(filter.value)
  }

  /** A multi-value selection as the filter UI writes it: the IDs joined with `"."`. */
  function EncodeIds(ids: seq<int>): (s: string)
  {
    if |ids| == 0 then "" else if |ids| == 1 then IntToString(ids[0]) else IntToString(ids[0]) + "." + EncodeIds(ids[1..])
  }

  lemma {:induction false} EncodeIdsSplits(ids: seq<int>)
    requires |ids| >= 1
    ensures Split(EncodeIds(ids), '.') == seq(|ids|, k requires 0 <= k < |ids| => IntToString(ids[k]))
    decreases |ids|
  {
    var s := IntToString(ids[0]);
    assert '.' !in s by {
      forall k | 0 <= k < |s| ensures s[k] != '.' { }
    }
    if |ids| == 1 {
      SplitNoSeparator(s, '.');
    } else {
      var rest := EncodeIds(ids[1..]);
      assert EncodeIds(ids) == s + "." + rest;
      EncodeIdsSplits(ids[1..]);
      SplitHead(s, '.', rest);
      var tail := seq(|ids| - 1, k requires 0 <= k < |ids| - 1 => IntToString(ids[1..][k]));
      assert Split(rest, '.') == tail;
      assert seq(|ids|, k requires 0 <= k < |ids| => IntToString(ids[k])) == [s] + tail;
    }
  }

  /** An encoded non-empty selection admits exactly the selected IDs. */
  lemma IdFilterRoundTrip(ids: seq<int>, id: int)
    requires |ids| >= 1
    ensures InIdFilter(Some(EncodeIds(ids)), id) <==> id in ids
  {
    EncodeIdsSplits(ids);
    var parsed := IdList(EncodeIds(ids));
    forall k | 0 <= k < |ids| ensures parsed[k] == Some(ids[k]) {
      ParseIntToString(ids[k]);
    }
    if id in ids {
      var k :| 0 <= k < |ids| && ids[k] == id;
      assert parsed[k] == Some(id);
    }
  }

  /** A part that is empty, as in `"3."`, reads as `Number("") == 0` and admits ID 0. */
  lemma TrailingDotAdmitsZero(s: string)
    ensures InIdFilter(Some(s + "."), 0)
  {
    var parts := Split(s + ".", '.');
    JoinSplit(s + ".", '.');
    assert parts[|parts| - 1] == "" by {
      SplitTrailingSeparator(s, '.');
    }
    assert IdList(s + ".")[|parts| - 1] == Some(0);
  }

  lemma {:induction false} SplitTrailingSeparator(s: string, sep: char)
    ensures Split(s + [sep], sep)[|Split(s + [sep], sep)| - 1] == ""
    decreases |s|
  {
    if |s| == 0 {
      assert [sep][1..] == "";
    } else {
      SplitTrailingSeparator(s[1..], sep);
      assert (s + [sep])[1..] == s[1..] + [sep];
    }
  }

  /** `findMany({ where })` without paging: the rows satisfying `p`, in table order. */
  function Select<T>(rows: seq<T>, p: T -> bool): (r: seq<T>)
    ensures |r| <= |rows|
    ensures forall x | x in r :: x in rows && p(x)
    ensures forall x | x in rows && p(x) :: x in r
  {
    if |rows| == 0 then []
    else (if p(rows[0]) then [rows[0]] else []) + Select(rows[1..], p)
  }

  /** Selecting with two predicates that agree on every row gives the same rows. */
  lemma {:induction false} SelectAgrees<T>(rows: seq<T>, p: T -> bool, q: T -> bool)
    requires forall x | x in rows :: p(x) == q(x)
    ensures Select(rows, p) == Select(rows, q)
    decreases |rows|
  {
    if |rows| > 0 {
      SelectAgrees(rows[1..], p, q);
    }
  }

  /** A list query's answer: one page and its pagination, or the database rejecting it. */
  datatype QueryOutcome<R> =
    | Page(data: seq<R>, pagination: PageInfo)
      /** `take: 0`: no rows, and `Math.ceil(totalCount / 0)` is Infinity for a positive count, NaN for 0. */
    | NoRows(page: int, totalCount: int, infinitePages: bool)
    | DatabaseError   // a negative `skip`, which the database refuses
    | Unsupported     // a negative `take` with a non-negative `skip`

  /** `skip: (page - 1) * pageSize`, `take: pageSize`, `count`, `Math.ceil(count / pageSize)`. */
  function PageOf<R>(matches: seq<R>, page: int, pageSize: int): (r: QueryOutcome<R>)
    ensures r.Page? <==> page >= 1 && pageSize >= 1
    ensures r.Page? ==> && r.data == Window(matches, Skip(page, pageSize), pageSize)
                        && r.pagination.page == page && r.pagination.pageSize == pageSize
                        && r.pagination.totalCount == |matches|
                        && r.pagination.totalPages == CeilDiv(|matches|, pageSize)
                        && r.pagination.totalCount <= r.pagination.totalPages * pageSize
                        && |r.data| <= pageSize
                        && forall k | 0 <= k < |r.data| :: 0 <= (page - 1) * pageSize + k < |matches| && r.data[k] == matches[(page - 1) * pageSize + k]
    ensures r.NoRows? <==> pageSize == 0
    ensures r.NoRows? ==> r.page == page && r.totalCount == |matches| && (r.infinitePages <==> |matches| > 0)
    ensures r.DatabaseError? <==> (page - 1) * pageSize < 0
    ensures r.Unsupported? <==> pageSize < 0 && page <= 1
  {
    if (page - 1) * pageSize < 0 then DatabaseError
    else if pageSize == 0 then NoRows(page, |matches|, |matches| > 0)
    else if pageSize < 0 then Unsupported
    else
      Page(Window(matches, (page - 1) * pageSize, pageSize),
           PageInfo(page, pageSize, |matches|, CeilDiv(|matches|, pageSize)))
  }
}

=== FILE: location_stats.dfy ===
/**
 * `getLocations` (src/server/database/locations/GET/getLocations.ts): every location with its
 * current stock (the summed quantity of its items) and its item count. The grouped
 * stock query is an input; what the database computes for it is stated by a predicate.
 */
module LocationStats {
  import opened Wrappers
  import DirectoryPages

  /** An `Items` row, reduced to its location and its (nullable) quantity. */
  datatype StockRow = StockRow(locationId: int, quantity: Option<int>)

  /** One group of `items.groupBy(Location_ID)` with `_sum` of the quantity (null when no item has one). */
  datatype StockGroup = StockGroup(locationId: int, sum: Option<int>)

  /** A location row as selected, with `_count.Items` as `itemCount`. */
  datatype LocationRow = LocationRow(locationId: int, description: string, isActive: bool, maxCapacity: Option<int>,
                                     address: DirectoryPages.Address, contact: Option<DirectoryPages.Contact>,
                                     itemCount: Option<nat>)

  /** `{ ...location, currentStock, totalItems }` */
  datatype LocationWithStock = LocationWithStock(location: LocationRow, currentStock: int, totalItems: nat)

  /** SQL `SUM` over the non-null quantities of the items at a location: null when there are none. */
  function QuantitySum(items: seq<StockRow>, locationId: int): Option<int>
  {
    if |items| == 0 then None
    else
      var before := QuantitySum(items[..|items| - 1], locationId);
      var it := items[|items| - 1];
      if it.locationId == locationId && it.quantity.Some? then Some(before.GetOr(0) + it.quantity.value) else before
  }

  /** `groups` is what the `groupBy` returns: one group per location holding items, with its sum. */
  ghost predicate StockGroupsOf(groups: seq<StockGroup>, items: seq<StockRow>)
  {
    && (forall i, j | 0 <= i < j < |groups| :: groups[i].locationId != groups[j].locationId)
    && (forall i | 0 <= i < |groups| :: groups[i].sum == QuantitySum(items, groups[i].locationId))
    && (forall it | it in items :: exists i | 0 <= i < |groups| :: groups[i].locationId == it.locationId)
  }

  /** `stockMap` after the `forEach` has visited `groups`: each `set` overwrites, so the last group of a location wins. */
  function StockMapOf(groups: seq<StockGroup>): map<int, int>
  {
    if |groups| == 0 then map[]
    else
      var g := groups[|groups| - 1];
      StockMapOf(groups[..|groups| - 1])[g.locationId := g.sum.GetOr(0)]
  }

  /** The map has an entry exactly for the grouped locations, holding that location's sum with null read as 0. */
  lemma {:induction false} StockMapAgrees(groups: seq<StockGroup>, locationId: int)
    requires forall i, j | 0 <= i < j < |groups| :: groups[i].locationId != groups[j].locationId
    ensures locationId in StockMapOf(groups) <==> exists i | 0 <= i < |groups| :: groups[i].locationId == locationId
    ensures forall i | 0 <= i < |groups| && groups[i].locationId == locationId ::
              StockMapOf(groups)[locationId] == groups[i].sum.GetOr(0)
    decreases |groups|
  {
    if |groups| > 0 {
      var init := groups[..|groups| - 1];
      StockMapAgrees(init, locationId);
      if exists i | 0 <= i < |init| :: init[i].locationId == locationId {
        var i :| 0 <= i < |init| && init[i].locationId == locationId;
        assert groups[i].locationId == locationId;
      }
      if exists i | 0 <= i < |groups| :: groups[i].locationId == locationId {
        var i :| 0 <= i < |groups| && groups[i].locationId == locationId;
        if i < |init| {
          assert init[i].locationId == locationId;
        }
      }
    }
  }

  /** The `forEach` that fills `stockMap`. */
  method BuildStockMap(stockPerLocation: seq<StockGroup>) returns (stockMap: map<int, int>)
    ensures stockMap == StockMapOf(stockPerLocation)
  {
    stockMap := map[];
    var i := 0;
    while i < |stockPerLocation|
      invariant 0 <= i <= |stockPerLocation|
      invariant stockMap == StockMapOf(stockPerLocation[..i])
    {
      var stock := stockPerLocation[i];
      stockMap := stockMap[stock.locationId := stock.sum.GetOr(0)];
      assert stockPerLocation[..i + 1][..i] == stockPerLocation[..i];
      i := i + 1;
    }
    assert stockPerLocation[..|stockPerLocation|] == stockPerLocation;
  }

  /** One location of `locations.map(...)`: `stockMap.get(id) ?? 0` and `_count.Items ?? 0`. */
  function WithStock(location: LocationRow, stockMap: map<int, int>): LocationWithStock
  {
    var id := location.locationId;
    LocationWithStock(location, if id in stockMap then stockMap[id] else 0, location.itemCount.GetOr(0))
  }

  /** `getLocations()` over the rows the two queries return. */
  method GetLocations(locations: seq<LocationRow>, stockPerLocation: seq<StockGroup>) returns (r: seq<LocationWithStock>)
    ensures |r| == |locations|
    ensures forall k | 0 <= k < |r| :: r[k] == WithStock(locations[k], StockMapOf(stockPerLocation))
  {
    var stockMap := BuildStockMap(stockPerLocation);
    r := seq(|locations|, k requires 0 <= k < |locations| => WithStock(locations[k], stockMap));
  }

  lemma {:induction false} SumWithoutItems(items: seq<StockRow>, locationId: int)
    requires forall it | it in items :: it.locationId != locationId
    ensures QuantitySum(items, locationId) == None
    decreases |items|
  {
    if |items| > 0 {
      var init := items[..|items| - 1];
      assert forall it | it in init :: it in items;
      SumWithoutItems(init, locationId);
    }
  }

  /** The number of items at a location. */
  function CountAt(items: seq<StockRow>, locationId: int): nat
  {
    if |items| == 0 then 0
    else CountAt(items[..|items| - 1], locationId) + (if items[|items| - 1].locationId == locationId then 1 else 0)
  }

  /**
   * Each returned record keeps its location row; its current stock is the summed quantity
   * of the location's items (0 when it has none or all are null) and its item count is
   * the `_count` the query reports (0 when absent).
   */
  lemma LocationStatsCorrect(location: LocationRow, items: seq<StockRow>, stockPerLocation: seq<StockGroup>)
    requires StockGroupsOf(stockPerLocation, items)
    requires location.itemCount.Some? ==> location.itemCount.value == CountAt(items, location.locationId)
    ensures var r := WithStock(location, StockMapOf(stockPerLocation));
            && r.location == location
            && r.currentStock == QuantitySum(items, location.locationId).GetOr(0)
            && (location.itemCount.Some? ==> r.totalItems == CountAt(items, location.locationId))
            && (location.itemCount.None? ==> r.totalItems == 0)
  {
    var id := location.locationId;
    StockMapAgrees(stockPerLocation, id);
    if !exists i | 0 <= i < |stockPerLocation| :: stockPerLocation[i].locationId == id {
      SumWithoutItems(items, id);
    }
  }
}

=== FILE: options.dfy ===
/**
 * Select options (`FilterOption`, src/types/index.ts) and the label lookups the modals
 * and filter widgets perform over them.
 */
module Options {
  import opened Wrappers
  import opened Strings

  /** A selectable option: its value as a string and its display caption (`label`). */
  datatype FilterOption = FilterOption(value: string, caption: string)

  /** The first option with `Number(o.value) === id`; an undefined or null `id` matches none. */
  function FindByNumber(options: seq<FilterOption>, id: Option<int>): (r: Option<nat>)
    ensures r.Some? ==> r.value < |options| && id.Some? && ParseNumber(options[r.value].value) == id
    ensures r.Some? ==> forall k | 0 <= k < r.value :: ParseNumber(options[k].value) != id
    ensures r.None? ==> id.None? || forall k | 0 <= k < |options| :: ParseNumber(options[k].value) != id
  {
    if id.None? then None else FindByNumberFrom(options, id, 0)
  }

  /** The search of `find`, resumed at position `i`. */
  function FindByNumberFrom(options: seq<FilterOption>, id: Option<int>, i: nat): (r: Option<nat>)
    requires i <= |options|
    ensures r.Some? ==> i <= r.value < |options| && ParseNumber(options[r.value].value) == id
    ensures r.Some? ==> forall k | i <= k < r.value :: ParseNumber(options[k].value) != id
    ensures r.None? ==> forall k | i <= k < |options| :: ParseNumber(options[k].value) != id
    decreases |options| - i
  {
    if i == |options| then None
    else if ParseNumber(options[i].value) == id then Some(i)
    else FindByNumberFrom(options, id, i + 1)
  }

  /** `options.find((o) => Number(o.value) === id)?.label || fallback` */
  function LabelOf(options: seq<FilterOption>, id: Option<int>, fallback: string): string
  {
    match FindByNumber(options, id)
    case None => fallback
    case Some(k) => if options[k].caption != "" then options[k].caption else fallback
  }

  /** A label that is not the fallback is the caption of the first option whose value reads as `id`. */
  lemma LabelIsCaptionOfMatch(options: seq<FilterOption>, id: Option<int>, fallback: string)
    ensures var r := LabelOf(options, id, fallback);
            r == fallback || exists k | 0 <= k < |options| :: options[k].caption == r && ParseNumber(options[k].value) == id
    ensures id.None? ==> LabelOf(options, id, fallback) == fallback
  {
  }

  /** The option listed with the string form of `id` supplies the label, unless an earlier option reads as the same number. */
  lemma {:induction false} LabelOfListedId(options: seq<FilterOption>, id: int, k: nat, fallback: string)
    requires k < |options| && options[k].value == IntToString(id) && options[k].caption != ""
    requires forall j | 0 <= j < k :: ParseNumber(options[j].value) != Some(id)
    ensures LabelOf(options, Some(id), fallback) == options[k].caption
  {
    ParseIntToString(id);
    var r := FindByNumber(options, Some(id));
    assert r.Some? by {
      assert ParseNumber(options[k].value) == Some(id);
    }
  }

  /** `options.find((o) => o.value === value)`: the first option listed under `value`. */
  function FindByValue(options: seq<FilterOption>, value: string): (r: Option<FilterOption>)
    ensures r.Some? ==> r.value in options && r.value.value == value
    ensures r.None? ==> forall k | 0 <= k < |options| :: options[k].value != value
  {
    if |options| == 0 then None
    else if options[0].value == value then Some(options[0])
    else FindByValue(options[1..], value)
  }

  /** `options.find((o) => o.value === value)?.label || value` */
  function CaptionOrValue(options: seq<FilterOption>, value: string): string
  {
    match FindByValue(options, value)
    case Some(o) => if o.caption != "" then o.caption else value
    case None => value
  }

  /** A value shows the caption of the first option listed under it, or itself when none has a caption. */
  lemma {:induction false} CaptionOfListedValue(options: seq<FilterOption>, k: nat)
    requires k < |options| && options[k].caption != ""
    requires forall j | 0 <= j < k :: options[j].value != options[k].value
    ensures CaptionOrValue(options, options[k].value) == options[k].caption
  {
    FindByValueFirst(options, k);
  }

  lemma {:induction false} FindByValueFirst(options: seq<FilterOption>, k: nat)
    requires k < |options|
    requires forall j | 0 <= j < k :: options[j].value != options[k].value
    ensures FindByValue(options, options[k].value) == Some(options[k])
  {
    if k > 0 {
      FindByValueFirst(options[1..], k - 1);
    }
  }

  /** An unlisted value is shown as it is. */
  lemma UnlistedValueShownRaw(options: seq<FilterOption>, value: string)
    requires forall k | 0 <= k < |options| :: options[k].value != value
    ensures CaptionOrValue(options, value) == value
  {
  }

  /**
   * A table's filter field (`DataTableFilterField`): the column/URL name, its caption,
   * its options when it is a select, and whether it is a range slider.
   */
  datatype FilterField = FilterField(key: string, caption: string, options: Option<seq<FilterOption>>, isSlider: bool)
}

=== FILE: pagination.dfy ===
/**
 * The two pagination footers: src/components/data-table/data-table-pagination.tsx, which
 * reports page changes through `onPageChange`, and src/components/Table/data-table-pagination.tsx,
 * which drives the table's own pagination state. Both show the same "Showing x to y" range
 * and "Page n of m" label. Page indexes count from 0.
 */
module Pagination {
  import opened Wrappers
  import opened Strings
  import Paging

  /** The numbers in "Showing {from} to {to} of {total} items". */
  datatype Range = Range(from: int, to: int)

  /** `from = pageIndex * pageSize + 1`, `to = Math.min((pageIndex + 1) * pageSize, total)`. */
  function ShownRange(pageIndex: int, pageSize: int, total: int): Range
  {
    var end := (pageIndex + 1) * pageSize;
    Range(pageIndex * pageSize + 1, if end < total then end else total)
  }

  /** The 1-based position among all rows of the `k`-th row of page `pageIndex`. */
  function Position(pageIndex: int, pageSize: int, k: int): int
  {
    pageIndex * pageSize + k + 1
  }

  /**
   * The range counts the rows the page holds, and names them by their 1-based position:
   * on a page with rows it spans exactly the page's rows; past the last row it is empty.
   */
  lemma {:induction false} RangeMatchesWindow<T>(rows: seq<T>, pageIndex: nat, pageSize: nat)
    requires pageSize >= 1
    ensures var r := ShownRange(pageIndex, pageSize, |rows|);
            var w := Paging.Window(rows, pageIndex * pageSize, pageSize);
            && (pageIndex * pageSize < |rows| ==> r.to - r.from + 1 == |w|)
            && (pageIndex * pageSize >= |rows| ==> r.to < r.from && |w| == 0)
            && forall k | 0 <= k < |w| :: r.from <= Position(pageIndex, pageSize, k) <= r.to
  {
    Paging.MulStep(pageIndex, pageSize);
  }

  /** The table's page count on the dashboards: `Math.ceil(totalCount / pageSize)`. */
  function PageCount(totalCount: nat, pageSize: nat): nat
    requires pageSize >= 1
  {
    Paging.CeilDiv(totalCount, pageSize)
  }

  /** The last page's range ends at the last row, and every page before it is full. */
  lemma LastPageEndsAtTotal(totalCount: nat, pageSize: nat, pageIndex: nat)
    requires pageSize >= 1 && pageIndex < PageCount(totalCount, pageSize)
    ensures var r := ShownRange(pageIndex, pageSize, totalCount);
            && r.from <= r.to
            && (pageIndex == PageCount(totalCount, pageSize) - 1 ==> r.to == totalCount)
            && (pageIndex < PageCount(totalCount, pageSize) - 1 ==> r.to - r.from + 1 == pageSize)
  {
    var pages := PageCount(totalCount, pageSize);
    Paging.MulStep(pageIndex, pageSize);
    Paging.MulMonotone(pageIndex, pages - 1, pageSize);
    if pageIndex < pages - 1 {
      Paging.MulMonotone(pageIndex + 1, pages - 1, pageSize);
    }
  }

  /** `table.getCanPreviousPage()` */
  predicate CanPrevious(pageIndex: int)
  {
    pageIndex > 0
  }

  /** `table.getCanNextPage()`: an unknown page count (-1) always allows it, zero pages never. */
  predicate CanNext(pageIndex: int, pageCount: int)
  {
    pageCount == -1 || (pageCount != 0 && pageIndex < pageCount - 1)
  }

  /** The four navigation buttons. */
  datatype NavButton = FirstPage | PreviousPage | NextPage | LastPage

  /** The page index each button asks `onPageChange` for. */
  function Target(b: NavButton, pageIndex: int, pageCount: int): int
  {
    match b
    case FirstPage => 0
    case PreviousPage => pageIndex - 1
    case NextPage => pageIndex + 1
    case LastPage => pageCount - 1
  }

  /** The backward buttons follow `getCanPreviousPage`, the forward ones `getCanNextPage`, and loading disables all four. */
  predicate Disabled(b: NavButton, pageIndex: int, pageCount: int, isLoading: bool)
  {
    (if b == FirstPage || b == PreviousPage then !CanPrevious(pageIndex) else !CanNext(pageIndex, pageCount))
    || isLoading
  }

  /** From a page in range, an enabled button asks for a different page that is also in range. */
  lemma EnabledTargetInRange(b: NavButton, pageIndex: int, pageCount: int, isLoading: bool)
    requires 0 <= pageIndex < pageCount
    requires !Disabled(b, pageIndex, pageCount, isLoading)
    ensures 0 <= Target(b, pageIndex, pageCount) < pageCount
    ensures Target(b, pageIndex, pageCount) != pageIndex
    ensures !isLoading
  {
  }

  /** On the only page, and while loading, every button is disabled. */
  lemma NothingToNavigate(b: NavButton, pageIndex: int, pageCount: int, isLoading: bool)
    ensures pageCount == 1 && pageIndex == 0 ==> Disabled(b, pageIndex, pageCount, isLoading)
    ensures isLoading ==> Disabled(b, pageIndex, pageCount, isLoading)
  {
  }

  /** "Page {pageIndex + 1} of {pageCount}" */
  function PageLabel(pageIndex: int, pageCount: int): string
  {
    "Page " + IntToString(pageIndex + 1) + " of " + IntToString(pageCount)
  }

  /** The label reads the page number back: the digits after "Page " and before " of " are `pageIndex + 1`. */
  lemma PageLabelShowsPage(pageIndex: nat, pageCount: nat)
    ensures var l := PageLabel(pageIndex, pageCount);
            var n := IntToString(pageIndex + 1);
            && l[..5] == "Page " && l[5..5 + |n|] == n
            && ParseNumber(l[5..5 + |n|]) == Some(pageIndex + 1)
  {
    ParseIntToString(pageIndex + 1);
    var l := PageLabel(pageIndex, pageCount);
    assert l == "Page " + IntToString(pageIndex + 1) + (" of " + IntToString(pageCount));
  }

  /** The table's own pagination state (`table.getState().pagination`). */
  datatype PaginationState = PaginationState(pageIndex: int, pageSize: int)

  /** The table's `setPageIndex`: the index is clamped into [0, pageCount - 1], with no upper bound when the count is unknown. */
  function SetPageIndex(s: PaginationState, index: int, pageCount: int): (r: PaginationState)
    ensures r.pageSize == s.pageSize
    ensures r.pageIndex >= 0
    ensures pageCount >= 1 ==> r.pageIndex < pageCount
    ensures pageCount == 0 ==> r.pageIndex == 0
    ensures pageCount == -1 || pageCount >= 1 ==>
              (r.pageIndex == index <==> index >= 0 && (pageCount == -1 || index <= pageCount - 1))
  {
    var upper := if pageCount == -1 then index else pageCount - 1;
    var clamped := if index < upper then index else upper;
    s.(pageIndex := if clamped < 0 then 0 else clamped)
  }

  /** What each button of the table footer does to the table's state: first and last set the index, previous and next step it by one. */
  function Press(b: NavButton, s: PaginationState, pageCount: int): PaginationState
  {
    match b
    case FirstPage => SetPageIndex(s, 0, pageCount)
    case PreviousPage => SetPageIndex(s, s.pageIndex - 1, pageCount)
    case NextPage => SetPageIndex(s, s.pageIndex + 1, pageCount)
    case LastPage => SetPageIndex(s, pageCount - 1, pageCount)
  }

  /**
   * When a button of the table footer is enabled (it has no loading state), it moves the
   * table to the same page the other footer's button asks for, and the page size stays.
   */
  lemma PressMatchesTarget(b: NavButton, s: PaginationState, pageCount: int)
    requires 0 <= s.pageIndex < pageCount
    requires !Disabled(b, s.pageIndex, pageCount, false)
    ensures Press(b, s, pageCount) == s.(pageIndex := Target(b, s.pageIndex, pageCount))
  {
    EnabledTargetInRange(b, s.pageIndex, pageCount, false);
  }
}

=== FILE: paging.dfy ===
/**
 * Offset pagination as the list queries use it: `skip = (page - 1) * pageSize`,
 * `take = pageSize`, `totalPages = Math.ceil(totalCount / pageSize)`.
 */
module Paging {

  /** The `pagination` object every list query returns. */
  datatype PageInfo = PageInfo(page: int, pageSize: int, totalCount: int, totalPages: int)

  /** `Math.ceil(n / d)` for a non-negative count and a positive page size. */
  function CeilDiv(n: nat, d: nat): (r: nat)
    requires d > 0
    ensures n <= r * d
    ensures r == 0 || (r - 1) * d < n
  {
    var q := (n + d - 1) / d;
    assert q * d <= n + d - 1 < q * d + d;
    q
  }

  /** The rows a database returns for `skip`/`take`: at most `take` rows starting at offset `skip`. */
  function Window<T>(rows: seq<T>, skip: nat, take: nat): (r: seq<T>)
    ensures |r| <= take
    ensures |r| == if skip >= |rows| then 0 else if |rows| - skip < take then |rows| - skip else take
    ensures forall k | 0 <= k < |r| :: r[k] == rows[skip + k]
  {
    if skip >= |rows| then []
    else if |rows| - skip < take then rows[skip..]
    else rows[skip..skip + take]
  }

  /**
   * For `n` matching rows, page `page` (from 1) of size `size` holds `size` rows on every
   * full page, the remainder on the last page, and nothing past `totalPages`.
   */
  lemma PageLength<T>(rows: seq<T>, page: nat, size: nat)
    requires page >= 1 && size >= 1
    ensures var w := Window(rows, (page - 1) * size, size);
            var pages := CeilDiv(|rows|, size);
            && (page < pages ==> |w| == size)
            && (page == pages ==> |w| == |rows| - (page - 1) * size)
            && (page > pages ==> |w| == 0)
  {
    var pages := CeilDiv(|rows|, size);
    var off := (page - 1) * size;
    MulStep(page - 1, size);
    if page < pages {
      MulMonotone(page, pages - 1, size);
      assert off + size < |rows|;
    } else if page > pages {
      MulMonotone(pages, page - 1, size);
      assert off >= |rows|;
    } else {
      assert off < |rows| <= off + size;
    }
  }

  /** The rows before page `page`, which the query skips: `(page - 1) * pageSize`. */
  function Skip(page: int, size: int): nat
    requires page >= 1 && size >= 0
  {
    (page - 1) * size
  }

  /** Pages `page` through `last` of size `size`, concatenated. */
  function PagesFrom<T>(rows: seq<T>, page: nat, size: nat, last: nat): seq<T>
    requires page >= 1 && size >= 1
    decreases last + 1 - page
  {
    if page > last then [] else Window(rows, (page - 1) * size, size) + PagesFrom(rows, page + 1, size, last)
  }

  /** Reading pages 1 to `totalPages` in turn yields every matching row exactly once, in order. */
  lemma PagesCover<T>(rows: seq<T>, size: nat)
    requires size >= 1
    ensures PagesFrom(rows, 1, size, CeilDiv(|rows|, size)) == rows
  {
    PagesFromSuffix(rows, 1, size, CeilDiv(|rows|, size));
  }

  lemma {:induction false} PagesFromSuffix<T>(rows: seq<T>, page: nat, size: nat, last: nat)
    requires page >= 1 && size >= 1 && page <= last + 1
    requires |rows| <= last * size && (last == 0 || (last - 1) * size < |rows|)
    ensures PagesFrom(rows, page, size, last) == if page > last then [] else rows[(page - 1) * size..]
    decreases last + 1 - page
  {
    if page <= last {
      var off := (page - 1) * size;
      MulStep(page - 1, size);
      MulMonotone(page - 1, last - 1, size);
      assert off < |rows|;
      PagesFromSuffix(rows, page + 1, size, last);
      if page == last {
        assert |rows| <= off + size;
        assert PagesFrom(rows, page + 1, size, last) == [];
        assert Window(rows, off, size) == rows[off..];
      } else {
        MulMonotone(page, last - 1, size);
        assert page * size == off + size < |rows|;
        assert PagesFrom(rows, page + 1, size, last) == rows[off + size..];
        assert Window(rows, off, size) == rows[off..off + size];
        assert rows[off..off + size] + rows[off + size..] == rows[off..];
      }
    }
  }

  /** Pages `page` to `last`, each fetched by `read`, concatenated in order. */
  function ReadPages<U>(read: nat -> seq<U>, page: nat, last: nat): seq<U>
    decreases last + 1 - page
  {
    if page > last then [] else read(page) + ReadPages(read, page + 1, last)
  }

  /**
   * When a reader's page `p` is `f` of the `p`th window of `rows`, and `f` turns concatenation
   * into concatenation, reading pages `page` to `last` in turn yields `f` of those windows.
   */
  lemma {:induction false} ReadPagesFrom<T, U>(read: nat -> seq<U>, f: seq<T> -> seq<U>, rows: seq<T>, size: nat,
                                               page: nat, last: nat)
    requires page >= 1 && size >= 1
    requires forall p | page <= p <= last :: read(p) == f(Window(rows, Skip(p, size), size))
    requires f([]) == []
    requires forall a, b :: f(a + b) == f(a) + f(b)
    ensures ReadPages(read, page, last) == f(PagesFrom(rows, page, size, last))
    decreases last + 1 - page
  {
    if page <= last {
      ReadPagesFrom(read, f, rows, size, page + 1, last);
      var here, rest := Window(rows, (page - 1) * size, size), PagesFrom(rows, page + 1, size, last);
      assert PagesFrom(rows, page, size, last) == here + rest;
      assert f(here + rest) == f(here) + f(rest);
    }
  }

  lemma MulStep(a: nat, c: nat)
    ensures (a + 1) * c == a * c + c
  {
  }

  lemma MulMonotone(a: nat, b: nat, c: nat)
    requires a <= b
    ensures a * c <= b * c
  {
  }
}

=== FILE: purchase_order_form.dfy ===
/**
 * The add-purchase-order modal (src/components/purchase-orders/modals/add-purchase-order-modal.tsx):
 * a three-step wizard over the order header and its editable list of lines, where the
 * item choices follow the selected supplier and choosing an item fills in its price.
 */
module PurchaseOrderForm {
  import opened Wrappers
  import opened Strings
  import opened Options
  import opened DbIds
  import Wizard

  const PurchaseOrderSteps := 3

  /** One line of the form; `itemId` is null until an item is chosen. */
  datatype FormLine = FormLine(itemId: Option<int>, quantity: int, purchasePrice: int)

  /** The line "Add Item" appends. */
  const BlankLine := FormLine(None, 1, 0)

  /** An item the supplier sells, as the item choice lists it (`value`, `label`, `meta.unitPrice`). */
  datatype ItemChoice = ItemChoice(value: string, caption: string, unitPrice: int)

  /** `currentItems.filter((_, i) => i !== index)` */
  function Without(lines: seq<FormLine>, index: int): (r: seq<FormLine>)
    ensures 0 <= index < |lines| ==> |r| == |lines| - 1
    ensures 0 <= index < |lines| ==> forall k | 0 <= k < |r| :: r[k] == if k < index then lines[k] else lines[k + 1]
    ensures !(0 <= index < |lines|) ==> r == lines
  {
    if 0 <= index < |lines| then lines[..index] + lines[index + 1..] else lines
  }

  /** Removing the line just appended gives back the lines before it. */
  lemma RemoveUndoesAppend(lines: seq<FormLine>, line: FormLine)
    ensures Without(lines + [line], |lines|) == lines
  {
    var r := Without(lines + [line], |lines|);
    assert forall k | 0 <= k < |r| :: r[k] == lines[k];
  }

  /** Removing a line keeps every other line, so the multiset of lines loses exactly that one. */
  lemma RemoveDropsOne(lines: seq<FormLine>, index: nat)
    requires index < |lines|
    ensures multiset(Without(lines, index)) + multiset{lines[index]} == multiset(lines)
  {
    assert lines == lines[..index] + [lines[index]] + lines[index + 1..];
  }

  /** A line's amount: quantity times price. */
  function Amount(line: FormLine): int
  {
    line.quantity * line.purchasePrice
  }

  /** `calculateTotal`: the lines' amounts summed from the left. */
  function Total(lines: seq<FormLine>): int
  {
    if |lines| == 0 then 0 else Total(lines[..|lines| - 1]) + Amount(lines[|lines| - 1])
  }

  /** The total of two runs of lines is the sum of their totals. */
  lemma {:induction false} TotalConcat(a: seq<FormLine>, b: seq<FormLine>)
    ensures Total(a + b) == Total(a) + Total(b)
    decreases |b|
  {
    if |b| == 0 {
      assert a + b == a;
    } else {
      TotalConcat(a, b[..|b| - 1]);
      assert (a + b)[..|a + b| - 1] == a + b[..|b| - 1];
      assert (a + b)[|a + b| - 1] == b[|b| - 1];
    }
  }

  /** Replacing one line changes the total by the difference of the two amounts. */
  lemma TotalUpdate(lines: seq<FormLine>, index: nat, line: FormLine)
    requires index < |lines|
    ensures Total(lines[index := line]) == Total(lines) - Amount(lines[index]) + Amount(line)
  {
    TotalConcat(lines[..index] + [lines[index]], lines[index + 1..]);
    TotalConcat(lines[..index], [lines[index]]);
    TotalConcat(lines[..index] + [line], lines[index + 1..]);
    TotalConcat(lines[..index], [line]);
    assert lines == lines[..index] + [lines[index]] + lines[index + 1..];
    assert lines[index := line] == lines[..index] + [line] + lines[index + 1..];
    assert Total([lines[index]]) == Amount(lines[index]) && Total([line]) == Amount(line) by {
      assert [lines[index]][..0] == [] && [line][..0] == [];
    }
  }

  /** "Add Item" leaves the total as it was: the blank line is priced 0. */
  lemma AppendBlankKeepsTotal(lines: seq<FormLine>)
    ensures Total(lines + [BlankLine]) == Total(lines)
  {
    assert (lines + [BlankLine])[..|lines|] == lines;
  }

  /** Removing a line takes exactly its amount off the total. */
  lemma RemoveSubtractsLine(lines: seq<FormLine>, index: nat)
    requires index < |lines|
    ensures Total(Without(lines, index)) == Total(lines) - Amount(lines[index])
  {
    var pre, x, post := lines[..index], lines[index], lines[index + 1..];
    assert lines == (pre + [x]) + post;
    TotalConcat(pre + [x], post);
    assert (pre + [x])[..|pre|] == pre;
    assert Total(pre + [x]) == Total(pre) + Amount(x);
    TotalConcat(pre, post);
  }

  /** `items.find((item) => item.value === value)` */
  function FindChoice(items: seq<ItemChoice>, value: string): (r: Option<ItemChoice>)
    ensures r.Some? ==> r.value in items && r.value.value == value
    ensures r.None? ==> forall k | 0 <= k < |items| :: items[k].value != value
  {
    if |items| == 0 then None
    else if items[0].value == value then Some(items[0])
    else FindChoice(items[1..], value)
  }

  /** The line after choosing the item whose option value is `value`. */
  function Chosen(line: FormLine, value: string, items: seq<ItemChoice>): FormLine
  {
    var withId := line.(itemId := ParseNumber(value));
    match FindChoice(items, value)
    case None => withId
    case Some(c) => withId.(purchasePrice := c.unitPrice)
  }

  /** Choosing a listed item sets the line's price to that item's unit price and keeps its quantity. */
  lemma ChosenItemPrice(line: FormLine, items: seq<ItemChoice>, k: nat)
    requires k < |items|
    requires forall j | 0 <= j < k :: items[j].value != items[k].value
    ensures Chosen(line, items[k].value, items).purchasePrice == items[k].unitPrice
    ensures Chosen(line, items[k].value, items).quantity == line.quantity
  {
    FindChoiceFirst(items, k);
  }

  lemma {:induction false} FindChoiceFirst(items: seq<ItemChoice>, k: nat)
    requires k < |items|
    requires forall j | 0 <= j < k :: items[j].value != items[k].value
    ensures FindChoice(items, items[k].value) == Some(items[k])
  {
    if k > 0 {
      FindChoiceFirst(items[1..], k - 1);
    }
  }

  /** The item choices as options, for `getItemLabel`. */
  function ChoiceOptions(items: seq<ItemChoice>): (r: seq<FilterOption>)
    ensures |r| == |items|
    ensures forall k | 0 <= k < |r| :: r[k] == FilterOption(items[k].value, items[k].caption)
  {
    seq(|items|, k requires 0 <= k < |items| => FilterOption(items[k].value, items[k].caption))
  }

  /** `getSupplierLabel`, `getPriorityLabel` and `getStatusLabel`. */
  function ReferenceLabel(options: seq<FilterOption>, id: Option<int>): string
  {
    LabelOf(options, id, "N/A")
  }

  /** `getItemLabel`: a null item ID reads "N/A". */
  function ItemLabel(items: seq<ItemChoice>, id: Option<int>): string
  {
    LabelOf(ChoiceOptions(items), id, "N/A")
  }

  /** A line with no item chosen is labelled "N/A". */
  lemma UnchosenItemLabel(items: seq<ItemChoice>)
    ensures ItemLabel(items, None) == "N/A"
  {
    LabelIsCaptionOfMatch(ChoiceOptions(items), None, "N/A");
  }

  /** `!supplierId`: no supplier, or the falsy ID 0. */
  predicate NoSupplier(supplierId: Option<int>)
  {
    supplierId.None? || supplierId == Some(0)
  }

  /** The form fields the wizard validates. */
  datatype OrderField = SupplierId | PriorityId | OrderDate | ExpectedDeliveryDate | PurchaseOrderItems

  /** `validateStep`'s field lists; the review step validates none. */
  function StepFields(step: int): (fields: set<OrderField>)
  {
    if step == 1 then {SupplierId, PriorityId, OrderDate, ExpectedDeliveryDate}
    else if step == 2 then {PurchaseOrderItems}
    else {}
  }

  predicate StepValid(step: int, fieldValid: OrderField -> bool)
  {
    forall f | f in StepFields(step) :: fieldValid(f)
  }

  /** Every validated field belongs to exactly one of the first two steps. */
  lemma StepsCoverFields(f: OrderField)
    ensures f in StepFields(1) <==> !(f in StepFields(2))
    ensures StepFields(PurchaseOrderSteps) == {}
  {
  }

  /** The modal's state. */
  class AddPurchaseOrderForm {
    var currentStep: int
    var supplierId: Option<int>
    var priorityId: Option<int>
    var statusId: int
    var lines: seq<FormLine>
    var items: seq<ItemChoice>
    var isDirty: bool
    var showExitConfirm: bool
    var open: bool

    /** The step is in range and, with no supplier, there is nothing to choose from. */
    ghost predicate Valid()
      reads this
    {
      1 <= currentStep <= PurchaseOrderSteps && (NoSupplier(supplierId) ==> items == [])
    }

    /** Default values: pending approval, no lines, no supplier, step 1. */
    constructor ()
      ensures Valid()
      ensures currentStep == 1 && statusId == PENDING_APPROVAL && lines == []
      ensures supplierId.None? && priorityId.None? && items == []
      ensures !isDirty && !showExitConfirm && open
    {
      currentStep := 1;
      supplierId := None;
      priorityId := None;
      statusId := PENDING_APPROVAL;
      lines := [];
      items := [];
      isDirty := false;
      showExitConfirm := false;
      open := true;
    }

    /**
     * A supplier is chosen and the supplier effect runs: with no supplier the choices are
     * emptied; otherwise they become the fetched items, or stay as they were when the
     * fetch rejects (`fetched` is None).
     */
    method SetSupplier(s: Option<int>, fetched: Option<seq<ItemChoice>>)
      requires Valid()
      modifies this
      ensures Valid()
      ensures supplierId == s && isDirty
      ensures items == if NoSupplier(s) then [] else if fetched.Some? then fetched.value else old(items)
      ensures lines == old(lines) && currentStep == old(currentStep) && statusId == old(statusId)
      ensures priorityId == old(priorityId) && showExitConfirm == old(showExitConfirm) && open == old(open)
    {
      supplierId := s;
      isDirty := true;
      if NoSupplier(s) {
        items := [];
      } else if fetched.Some? {
        items := fetched.value;
      }
    }

    /** "Add Item": one blank line at the end. */
    method AppendLine()
      requires Valid()
      modifies this
      ensures Valid()
      ensures lines == old(lines) + [BlankLine] && isDirty
      ensures Total(lines) == Total(old(lines))
      ensures items == old(items) && supplierId == old(supplierId) && currentStep == old(currentStep)
      ensures statusId == old(statusId) && priorityId == old(priorityId)
      ensures showExitConfirm == old(showExitConfirm) && open == old(open)
    {
      AppendBlankKeepsTotal(lines);
      lines := lines + [BlankLine];
      isDirty := true;
    }

    /** The trash button of line `index`: it acts only while there is more than one line. */
    method RemoveLine(index: int)
      requires Valid()
      modifies this
      ensures Valid()
      ensures lines == if |old(lines)| > 1 then Without(old(lines), index) else old(lines)
      ensures |old(lines)| >= 1 ==> |lines| >= 1
      ensures Total(lines) == if |old(lines)| > 1 && 0 <= index < |old(lines)|
                              then Total(old(lines)) - Amount(old(lines)[index]) else Total(old(lines))
      ensures isDirty == (old(isDirty) || |old(lines)| > 1)
      ensures items == old(items) && supplierId == old(supplierId) && currentStep == old(currentStep)
      ensures statusId == old(statusId) && priorityId == old(priorityId)
      ensures showExitConfirm == old(showExitConfirm) && open == old(open)
    {
      var currentItems := lines;
      if |currentItems| > 1 {
        if 0 <= index < |currentItems| {
          RemoveSubtractsLine(currentItems, index);
        }
        lines := Without(currentItems, index);
        isDirty := true;
      }
    }

    /** Choosing option `value` for line `index`: its item ID, and its price when the choice is listed. */
    method SelectItem(index: nat, value: string)
      requires Valid() && index < |lines|
      modifies this
      ensures Valid()
      ensures lines == old(lines)[index := Chosen(old(lines)[index], value, items)] && isDirty
      ensures Total(lines) == Total(old(lines)) - Amount(old(lines)[index]) + Amount(lines[index])
      ensures items == old(items) && supplierId == old(supplierId) && currentStep == old(currentStep)
      ensures statusId == old(statusId) && priorityId == old(priorityId)
      ensures showExitConfirm == old(showExitConfirm) && open == old(open)
    {
      var line := lines[index].(itemId := ParseNumber(value));
      var selectedItem := FindChoice(items, value);
      if selectedItem.Some? {
        line := line.(purchasePrice := selectedItem.value.unitPrice);
      }
      TotalUpdate(lines, index, line);
      lines := lines[index := line];
      isDirty := true;
    }

    /** `handleNext`, given the schema's verdict on each field. */
    method HandleNext(fieldValid: OrderField -> bool)
      requires Valid()
      modifies this
      ensures Valid()
      ensures currentStep == Wizard.Next(old(currentStep), StepValid(old(currentStep), fieldValid), PurchaseOrderSteps)
      ensures lines == old(lines) && items == old(items) && supplierId == old(supplierId)
      ensures statusId == old(statusId) && priorityId == old(priorityId) && isDirty == old(isDirty)
      ensures showExitConfirm == old(showExitConfirm) && open == old(open)
    {
      var isValid := StepValid(currentStep, fieldValid);
      currentStep := Wizard.Next(currentStep, isValid, PurchaseOrderSteps);
    }

    /** `handlePrevious` */
    method HandlePrevious()
      requires Valid()
      modifies this
      ensures Valid()
      ensures currentStep == Wizard.Previous(old(currentStep))
      ensures lines == old(lines) && items == old(items) && supplierId == old(supplierId)
      ensures statusId == old(statusId) && priorityId == old(priorityId) && isDirty == old(isDirty)
      ensures showExitConfirm == old(showExitConfirm) && open == old(open)
    {
      currentStep := Wizard.Previous(currentStep);
    }

    /** `handleClose`: a dirty form asks for confirmation instead of closing. */
    method HandleClose()
      modifies this
      ensures old(isDirty) ==> showExitConfirm && open == old(open)
      ensures !old(isDirty) ==> !open && showExitConfirm == old(showExitConfirm)
      ensures lines == old(lines) && items == old(items) && supplierId == old(supplierId)
      ensures currentStep == old(currentStep) && isDirty == old(isDirty)
      ensures statusId == old(statusId) && priorityId == old(priorityId)
    {
      if isDirty {
        showExitConfirm := true;
      } else {
        open := false;
      }
    }

    /** `handleConfirmExit` */
    method HandleConfirmExit()
      modifies this
      ensures !showExitConfirm && !open
      ensures lines == old(lines) && items == old(items) && supplierId == old(supplierId)
      ensures currentStep == old(currentStep) && isDirty == old(isDirty)
      ensures statusId == old(statusId) && priorityId == old(priorityId)
    {
      showExitConfirm := false;
      open := false;
    }
  }
}

=== FILE: purchase_order_query.dfy ===
/**
 * `getPurchaseOrders` (src/server/database/purchase-orders/getPurchaseOrders.ts): the
 * paged, filtered list of purchase orders, each with its line count.
 */
module PurchaseOrderQuery {
  import opened Wrappers
  import opened Strings
  import opened Paging
  import opened ListQuery

  /** A `Purchase_Order_Item` row as selected with its order. */
  datatype OrderLine = OrderLine(purchaseOrderItemId: int, itemId: int, quantity: int, isActive: bool)

  /** The columns of a `Purchase_Order` row the query reads or filters on. */
  datatype PurchaseOrderRow = PurchaseOrderRow(purchaseOrderId: int, supplierId: int, supplierName: string,
                                               statusId: int, priorityId: int, isActive: bool,
                                               lines: seq<OrderLine>)

  /** A returned order: the selected row plus `Item_Count`. */
  datatype PurchaseOrderListing = PurchaseOrderListing(order: PurchaseOrderRow, itemCount: nat)

  /** The validated parameters; absent fields are None. */
  datatype PurchaseOrdersInput = PurchaseOrdersInput(page: Option<int>, perPage: Option<int>,
                                                     purchaseOrderId: Option<int>, searchTerm: Option<string>,
                                                     supplierIds: Option<string>, statusIds: Option<string>,
                                                     priorityIds: Option<string>)

  const DefaultPage: int := 1
  const DefaultPerPage: int := 100

  function SearchTerms(searchTerm: Option<string>): seq<string>
  {
    if searchTerm.Some? && searchTerm.value != "" then Split(searchTerm.value, ' ') else []
  }

  /** One term's clauses: the supplier name contains it ignoring case, or it is numeric and equals the order ID. */
  predicate TermMatches(row: PurchaseOrderRow, term: string)
  {
    || Contains(ToLower(row.supplierName), ToLower(term))
    || (ParseNumber(term).Some? && ParseNumber(term).value == row.purchaseOrderId)
  }

  predicate MatchesSearch(row: PurchaseOrderRow, searchTerm: Option<string>)
  {
    var terms := SearchTerms(searchTerm);
    |terms| == 0 || exists k | 0 <= k < |terms| :: TermMatches(row, terms[k])
  }

  /** The `where` object: the search clause and the three ID-set filters; no active-only flag. */
  predicate Matches(input: PurchaseOrdersInput, row: PurchaseOrderRow)
  {
    && MatchesSearch(row, input.searchTerm)
    && InIdFilter(input.supplierIds, row.supplierId)
    && InIdFilter(input.statusIds, row.statusId)
    && InIdFilter(input.priorityIds, row.priorityId)
  }

  function MatchesOf(input: PurchaseOrdersInput): PurchaseOrderRow -> bool
  {
    row => Matches(input, row)
  }

  function MatchingOrders(table: seq<PurchaseOrderRow>, input: PurchaseOrdersInput): seq<PurchaseOrderRow>
  {
    Select(table, MatchesOf(input))
  }

  /** `purchaseOrders.map(po => ({ ...po, Item_Count: po._count.Purchase_Order_Item }))` */
  function WithItemCounts(rows: seq<PurchaseOrderRow>): (r: seq<PurchaseOrderListing>)
    ensures |r| == |rows|
    ensures forall k | 0 <= k < |r| :: r[k].order == rows[k] && r[k].itemCount == |rows[k].lines|
  {
    if |rows| == 0 then [] else [PurchaseOrderListing(rows[0], |rows[0].lines|)] + WithItemCounts(rows[1..])
  }

  /** `getPurchaseOrders(input)` against the table. */
  function GetPurchaseOrders(table: seq<PurchaseOrderRow>, input: PurchaseOrdersInput): (r: QueryOutcome<PurchaseOrderListing>)
    ensures var page := input.page.GetOr(DefaultPage);
            var size := input.perPage.GetOr(DefaultPerPage);
            && (r.Page? <==> page >= 1 && size >= 1)
            && (r.NoRows? <==> size == 0)
            && (r.NoRows? ==> r.totalCount == |MatchingOrders(table, input)|)
            && (r.Page? ==> && r.data == WithItemCounts(Window(MatchingOrders(table, input), Skip(page, size), size))
                            && r.pagination.page == page && r.pagination.pageSize == size
                            && |r.data| <= size
                            && r.pagination.totalCount == |MatchingOrders(table, input)|
                            && r.pagination.totalPages == CeilDiv(|MatchingOrders(table, input)|, size)
                            && forall l | l in r.data :: l.order in table && Matches(input, l.order)
                                                         && l.itemCount == |l.order.lines|)
  {
    match PageOf(MatchingOrders(table, input), input.page.GetOr(DefaultPage), input.perPage.GetOr(DefaultPerPage))
    case Page(rows, info) => Page(WithItemCounts(rows), info)
    case NoRows(page, count, infinite) => NoRows(page, count, infinite)
    case DatabaseError => DatabaseError
    case Unsupported => Unsupported
  }

  /** The same query at page `page` and page size `size`. */
  function AtPage(input: PurchaseOrdersInput, page: nat, size: nat): PurchaseOrdersInput
  {
    input.(page := Some(page), perPage := Some(size))
  }

  /**
   * Paging through the list: calling `getPurchaseOrders` for pages 1 to the reported `totalPages`
   * at a fixed page size lists every matching order exactly once, in table order, with its item count.
   */
  lemma PagesListEveryMatch(table: seq<PurchaseOrderRow>, input: PurchaseOrdersInput, size: nat)
    requires size >= 1
    ensures var first := GetPurchaseOrders(table, AtPage(input, 1, size));
            && first.Page?
            && ReadPages(PageRows(table, input, size), 1, first.pagination.totalPages)
               == WithItemCounts(MatchingOrders(table, input))
  {
    var rows := MatchingOrders(table, input);
    var last := CeilDiv(|rows|, size);
    var read := PageRows(table, input, size);
    forall p | 1 <= p <= last ensures read(p) == WithItemCounts(Window(rows, Skip(p, size), size)) {
      AtPageWindow(table, input, p, size);
    }
    forall a, b ensures WithItemCounts(a + b) == WithItemCounts(a) + WithItemCounts(b) {
      WithItemCountsAppend(a, b);
    }
    AtPageWindow(table, input, 1, size);
    ReadPagesFrom(read, WithItemCounts, rows, size, 1, last);
    PagesCover(rows, size);
  }

  /** Page `p` at size `size` as one call returns it: its listings, or none when the call fails. */
  function PageRows(table: seq<PurchaseOrderRow>, input: PurchaseOrdersInput, size: nat): nat -> seq<PurchaseOrderListing>
  {
    (p: nat) => var r := GetPurchaseOrders(table, AtPage(input, p, size)); if r.Page? then r.data else []
  }

  /** Only the filters choose the matching orders; the page and its size only pick the window. */
  lemma AtPageWindow(table: seq<PurchaseOrderRow>, input: PurchaseOrdersInput, page: nat, size: nat)
    requires page >= 1 && size >= 1
    ensures var r := GetPurchaseOrders(table, AtPage(input, page, size));
            && r.Page?
            && r.data == WithItemCounts(Window(MatchingOrders(table, input), Skip(page, size), size))
            && r.pagination.totalPages == CeilDiv(|MatchingOrders(table, input)|, size)
  {
    var at := AtPage(input, page, size);
    assert forall x | x in table :: MatchesOf(at)(x) == MatchesOf(input)(x);
    SelectAgrees(table, MatchesOf(at), MatchesOf(input));
    var rows := MatchingOrders(table, input);
    assert MatchingOrders(table, at) == rows;
    assert at.page.GetOr(DefaultPage) == page && at.perPage.GetOr(DefaultPerPage) == size;
    assert GetPurchaseOrders(table, at) == Page(WithItemCounts(Window(rows, Skip(page, size), size)),
                                                PageInfo(page, size, |rows|, CeilDiv(|rows|, size)));
  }

  lemma WithItemCountsAppend(a: seq<PurchaseOrderRow>, b: seq<PurchaseOrderRow>)
    ensures WithItemCounts(a + b) == WithItemCounts(a) + WithItemCounts(b)
  {
    var l, r := WithItemCounts(a + b), WithItemCounts(a) + WithItemCounts(b);
    assert |l| == |r|;
    forall k | 0 <= k < |l| ensures l[k] == r[k] {
      if k < |a| { assert (a + b)[k] == a[k]; } else { assert (a + b)[k] == b[k - |a|]; }
    }
  }

  /** Whether an order is active never affects whether it is listed: there is no active-only flag. */
  lemma ActiveFlagIgnored(input: PurchaseOrdersInput, row: PurchaseOrderRow, active: bool)
    ensures Matches(input, row.(isActive := active)) == Matches(input, row)
  {
  }

  /** The `Purchase_Order_ID` parameter is read but never constrains the query. */
  lemma PurchaseOrderIdIgnored(table: seq<PurchaseOrderRow>, input: PurchaseOrdersInput, id: Option<int>)
    ensures GetPurchaseOrders(table, input.(purchaseOrderId := id)) == GetPurchaseOrders(table, input)
  {
    SelectAgrees(table, MatchesOf(input.(purchaseOrderId := id)), MatchesOf(input));
  }

  /** Searching for an order's own number finds it, whatever its supplier is called. */
  lemma SearchByOrderNumber(row: PurchaseOrderRow)
    ensures MatchesSearch(row, Some(IntToString(row.purchaseOrderId)))
  {
    var text := IntToString(row.purchaseOrderId);
    assert ' ' !in text by {
      forall k | 0 <= k < |text| ensures text[k] != ' ' { }
    }
    SplitNoSeparator(text, ' ');
    ParseIntToString(row.purchaseOrderId);
    assert TermMatches(row, SearchTerms(Some(text))[0]);
  }

  /** The supplier-name match ignores case: an upper-cased supplier name matches the same searches. */
  lemma SupplierNameCaseIgnored(row: PurchaseOrderRow, searchTerm: Option<string>)
    ensures MatchesSearch(row.(supplierName := ToUpper(row.supplierName)), searchTerm) == MatchesSearch(row, searchTerm)
  {
    LowerOfUpper(row.supplierName);
    var terms := SearchTerms(searchTerm);
    assert forall k | 0 <= k < |terms| ::
      TermMatches(row.(supplierName := ToUpper(row.supplierName)), terms[k]) == TermMatches(row, terms[k]);
  }

  /** Searching for space-joined terms matches an order iff one of the terms matches it. */
  lemma SearchIsAnyTerm(row: PurchaseOrderRow, terms: seq<string>)
    requires |terms| >= 1 && Join(terms, " ") != ""
    requires forall t | t in terms :: ' ' !in t
    ensures MatchesSearch(row, Some(Join(terms, " "))) <==> exists t | t in terms :: TermMatches(row, t)
  {
    SplitJoin(terms, ' ');
    var split := SearchTerms(Some(Join(terms, " ")));
    assert split == terms;
    if exists t | t in terms :: TermMatches(row, t) {
      var t :| t in terms && TermMatches(row, t);
      var k :| 0 <= k < |terms| && terms[k] == t;
      assert TermMatches(row, split[k]);
    }
  }
}

=== FILE: purchase_order_views.dfy ===
/**
 * How a purchase order is shown: the read-only order modal
 * (src/components/purchase-orders/modals/view-purchase-order-modal.tsx) and the order
 * table's cells (src/components/purchase-orders/purchase-orders-columns.tsx).
 */
module PurchaseOrderViews {
  import opened Wrappers
  import opened Strings
  import opened Options
  import opened DbIds
  import Badges

  // ---------------------------------------------------------------------------
  // The order modal

  /** `getSupplierLabel` and `getPriorityLabel` fall back to "N/A", `getStatusLabel` to "Unknown". */
  function OrderLabel(options: seq<FilterOption>, id: int, isStatus: bool): string
  {
    LabelOf(options, Some(id), if isStatus then "Unknown" else "N/A")
  }

  /** An ID no option reads as shows the fallback. */
  lemma UnlistedOrderLabel(options: seq<FilterOption>, id: int)
    requires forall k | 0 <= k < |options| :: ParseNumber(options[k].value) != Some(id)
    ensures OrderLabel(options, id, true) == "Unknown" && OrderLabel(options, id, false) == "N/A"
  {
    LabelIsCaptionOfMatch(options, Some(id), "Unknown");
    LabelIsCaptionOfMatch(options, Some(id), "N/A");
  }

  /** The colour family of `getStatusColor`: one per status, red for both cancelled and rejected, none for ORDERED or an unknown ID. */
  function StatusTone(statusId: int): Option<Badges.Tone>
  {
    if statusId == PENDING_APPROVAL then Some(Badges.Orange)
    else if statusId == APPROVED then Some(Badges.Blue)
    else if statusId == RECEIVED_PARTIAL then Some(Badges.Yellow)
    else if statusId == RECEIVED_FULL then Some(Badges.Purple)
    else if statusId == COMPLETED then Some(Badges.Green)
    else if statusId == CANCELLED then Some(Badges.Red)
    else if statusId == REJECTED then Some(Badges.Red)
    else None
  }

  /** `getStatusColor` */
  function StatusColor(statusId: int): string
  {
    match StatusTone(statusId)
    case None => ""
    case Some(t) => Badges.TintClass(t)
  }

  /** Exactly the statuses other than ORDERED get a colour, and only cancelled and rejected share one. */
  lemma StatusColorCases(a: int, b: int)
    ensures StatusColor(a) != "" <==> 1 <= a <= 8 && a != ORDERED
    ensures StatusColor(a) != "" && StatusColor(a) == StatusColor(b) && a != b ==> {a, b} == {CANCELLED, REJECTED}
  {
    if StatusColor(a) != "" && StatusColor(a) == StatusColor(b) {
      Badges.TintClassInjective(StatusTone(a).value, StatusTone(b).value);
    }
  }

  /** `getPriorityColor`: high red, medium orange, low gray, anything else none. */
  function PriorityColor(priorityId: int): (r: string)
    ensures r != "" <==> priorityId in {PRIORITY_LOW, PRIORITY_MEDIUM, PRIORITY_HIGH}
  {
    if priorityId == PRIORITY_HIGH then Badges.TintClass(Badges.Red)
    else if priorityId == PRIORITY_MEDIUM then Badges.TintClass(Badges.Orange)
    else if priorityId == PRIORITY_LOW then Badges.TintClass(Badges.Gray)
    else ""
  }

  /** `(order.Purchase_Order_Item || []).reduce((sum, item) => sum + item.Quantity, 0)` */
  function TotalItems(quantities: Option<seq<int>>): int
  {
    match quantities
    case None => 0
    case Some(qs) => SumFrom(qs)
  }

  /** The left-to-right `reduce` sum. */
  function SumFrom(qs: seq<int>): int
  {
    if |qs| == 0 then 0 else SumFrom(qs[..|qs| - 1]) + qs[|qs| - 1]
  }

  /** The total is additive over the lines and, with non-negative quantities, bounds each line's quantity. */
  lemma {:induction false} TotalItemsAdds(a: seq<int>, b: seq<int>)
    ensures TotalItems(Some(a + b)) == TotalItems(Some(a)) + TotalItems(Some(b))
    decreases |b|
  {
    if |b| > 0 {
      TotalItemsAdds(a, b[..|b| - 1]);
      assert (a + b)[..|a + b| - 1] == a + b[..|b| - 1];
    } else {
      assert a + b == a;
    }
  }

  lemma {:induction false} TotalItemsBound(qs: seq<int>, k: nat)
    requires k < |qs|
    requires forall j | 0 <= j < |qs| :: qs[j] >= 0
    ensures 0 <= qs[k] <= TotalItems(Some(qs))
    decreases |qs|
  {
    if k < |qs| - 1 {
      TotalItemsBound(qs[..|qs| - 1], k);
    } else {
      TotalItemsNonNegative(qs[..|qs| - 1]);
    }
  }

  lemma {:induction false} TotalItemsNonNegative(qs: seq<int>)
    requires forall j | 0 <= j < |qs| :: qs[j] >= 0
    ensures TotalItems(Some(qs)) >= 0
    decreases |qs|
  {
    if |qs| > 0 {
      TotalItemsNonNegative(qs[..|qs| - 1]);
    }
  }

  /** The two banners: "Pending Approval" for status 1, "Cancelled" for status 7; never both. */
  datatype Banners = Banners(pending: bool, cancelled: bool)

  function BannersOf(statusId: int): (r: Banners)
    ensures r.pending <==> statusId == PENDING_APPROVAL
    ensures r.cancelled <==> statusId == CANCELLED
    ensures !(r.pending && r.cancelled)
  {
    Banners(statusId == PENDING_APPROVAL, statusId == CANCELLED)
  }

  /** The dashboard state the modal reports to: whether it is open and which order it shows. */
  class OrderViewer {
    var open: bool
    var selectedOrder: Option<int>

    /** Opening the modal on a row. */
    constructor (orderId: int)
      ensures open && selectedOrder == Some(orderId)
    {
      open := true;
      selectedOrder := Some(orderId);
    }

    /** `onOpenChange` of the dialog: `onOpenChange(false)` then `onOrderChange(undefined)`. */
    method Close()
      modifies this
      ensures !open && selectedOrder.None?
    {
      open := false;
      selectedOrder := None;
    }
  }

  // ---------------------------------------------------------------------------
  // The order table's cells

  /** The status badge's classes per status ID; ORDERED and unknown IDs get the plain badge. */
  function StatusBadgeClass(id: int): string
  {
    match id
    case 1 => Badges.TintClass(Badges.Orange)
    case 2 => Badges.TintClass(Badges.Blue)
    case 4 => Badges.TintClass(Badges.Yellow)
    case 5 => Badges.TintClass(Badges.Purple)
    case 6 => Badges.TintClass(Badges.Green)
    case 7 => Badges.TintClass(Badges.Red)
    case 8 => Badges.TintClass(Badges.Red)
    case _ => ""
  }

  /** The table's badge and the modal's colour agree on every status ID. */
  lemma BadgeMatchesModalColor(id: int)
    ensures StatusBadgeClass(id) == StatusColor(id)
  {
  }

  /** The priority badge's variant. */
  function PriorityVariant(id: int): string
  {
    match id
    case 3 => "destructive"
    case 2 => "outline"
    case 1 => "secondary"
    case _ => "default"
  }

  /** Each known priority has its own variant, and exactly the unknown ones fall to the default. */
  lemma PriorityVariantCases(a: int, b: int)
    ensures PriorityVariant(a) == "default" <==> a !in {PRIORITY_LOW, PRIORITY_MEDIUM, PRIORITY_HIGH}
    ensures PriorityVariant(a) != "default" && PriorityVariant(a) == PriorityVariant(b) ==> a == b
    ensures PriorityVariant(a) == "default" <==> PriorityColor(a) == ""
  {
  }

  /** The ID cell: "PO-0" followed by the ID. */
  function OrderIdText(id: int): (r: string)
    ensures |r| > 4 && r[..4] == "PO-0"
  {
    "PO-0" + IntToString(id)
  }

  /** The ID reads back from the cell after its "PO-0" prefix. */
  lemma OrderIdReadsBack(id: int)
    ensures ParseNumber(OrderIdText(id)[4..]) == Some(id)
  {
    assert OrderIdText(id)[4..] == IntToString(id);
    ParseIntToString(id);
  }

  /** The Items cell prints `Item_Count`. */
  function ItemsCell(itemCount: int): (r: string)
    ensures ParseNumber(r) == Some(itemCount)
  {
    ParseIntToString(itemCount);
    IntToString(itemCount)
  }
}

=== FILE: query_actions.dfy ===
/**
 * The server actions in front of the list queries (src/server/actions/get/items.ts and
 * src/server/actions/purchase-orders/get/purchase-orders.ts): rename the caller's
 * parameters, validate them, and either fail with "Invalid parameters" or run the query.
 *
 * JavaScript numbers are integers here; None stands for NaN.
 */
module QueryActions {
  import opened Wrappers
  import opened ListQuery
  import ItemQuery
  import PurchaseOrderQuery

  const InvalidParameters: string := "Invalid parameters"

  // ---------------------------------------------------------------------------
  // Items

  /** The arguments of `getItemsAction`. */
  datatype ItemsActionParams = ItemsActionParams(page: Option<int>, pageSize: Option<int>, search: Option<string>,
                                                 category: Option<string>, status: Option<string>,
                                                 location: Option<string>, quantityRange: Option<string>)

  /** The object handed to the items schema. */
  datatype ItemsSchemaInput = ItemsSchemaInput(page: Option<int>, perPage: Option<int>, searchTerm: Option<string>,
                                               categoryIds: Option<string>, statusIds: Option<string>,
                                               locationIds: Option<string>)

  /** The renaming: pageSize to per_page, search to Search_Term, category/status/location to the ID fields. */
  function RenameItemsParams(params: ItemsActionParams): (r: ItemsSchemaInput)
    ensures r.perPage == params.pageSize && r.searchTerm == params.search
    ensures r.categoryIds == params.category && r.statusIds == params.status && r.locationIds == params.location
  {
    ItemsSchemaInput(params.page, params.pageSize, params.search, params.category, params.status, params.location)
  }

  /**
   * `getItemsAction`: the items schema's `safeParse` is the `validate` argument (None
   * when validation fails); on failure the query is not run.
   */
  function GetItemsAction(table: seq<ItemQuery.ItemRow>, validate: ItemsSchemaInput -> Option<ItemQuery.ItemsInput>,
                          params: ItemsActionParams): (r: Result<QueryOutcome<ItemQuery.ItemRow>, string>)
    ensures r.Failure? <==> validate(RenameItemsParams(params)).None?
    ensures r.Failure? ==> r.error == InvalidParameters
    ensures r.Success? ==> r.value == ItemQuery.GetItems(table, validate(RenameItemsParams(params)).value)
  {
    match validate(RenameItemsParams(params))
    case None => Failure(InvalidParameters)
    case Some(data) => Success(ItemQuery.GetItems(table, data))
  }

  /** `quantityRange` is accepted but never forwarded. */
  lemma QuantityRangeIgnored(table: seq<ItemQuery.ItemRow>, validate: ItemsSchemaInput -> Option<ItemQuery.ItemsInput>,
                             params: ItemsActionParams, quantityRange: Option<string>)
    ensures GetItemsAction(table, validate, params.(quantityRange := quantityRange)) == GetItemsAction(table, validate, params)
  {
    assert RenameItemsParams(params.(quantityRange := quantityRange)) == RenameItemsParams(params);
  }

  // ---------------------------------------------------------------------------
  // Purchase orders

  /** A value handed to `z.coerce.number()`: absent, or a number (None for NaN). */
  datatype NumberArg = Absent | Number(value: Option<int>)

  /** `z.coerce.number().default(d)`: absent takes the default, NaN fails (None), a number passes. */
  function CoerceNumber(arg: NumberArg, default: int): (r: Option<int>)
    ensures arg.Absent? ==> r == Some(default)
    ensures arg.Number? ==> r == arg.value
  {
    match arg
    case Absent => Some(default)
    case Number(v) => v
  }

  /** The object handed to the purchase-orders schema. */
  datatype PurchaseOrdersSchemaInput = PurchaseOrdersSchemaInput(page: NumberArg, perPage: NumberArg, purchaseOrderId: NumberArg,
                                                                 searchTerm: Option<string>, supplierIds: Option<string>,
                                                                 statusIds: Option<string>, priorityIds: Option<string>)

  /**
   * `searchParamsSchema.safeParse`: `page` and `per_page` default to 1 and 10,
   * `Purchase_Order_ID` is optional, and a NaN in any of the three fails validation.
   */
  function ParsePurchaseOrdersSchema(raw: PurchaseOrdersSchemaInput): (r: Option<PurchaseOrderQuery.PurchaseOrdersInput>)
    ensures r.Some? <==> raw.page != Number(None) && raw.perPage != Number(None) && raw.purchaseOrderId != Number(None)
    ensures r.Some? ==> && r.value.page == Some(CoerceNumber(raw.page, 1).value)
                        && r.value.perPage == Some(CoerceNumber(raw.perPage, 10).value)
                        && r.value.searchTerm == raw.searchTerm && r.value.supplierIds == raw.supplierIds
                        && r.value.statusIds == raw.statusIds && r.value.priorityIds == raw.priorityIds
  {
    var page := CoerceNumber(raw.page, 1);
    var perPage := CoerceNumber(raw.perPage, 10);
    var id := match raw.purchaseOrderId case Absent => Some(None) case Number(v) => if v.Some? then Some(v) else None;
    if page.None? || perPage.None? || id.None? then None
    else Some(PurchaseOrderQuery.PurchaseOrdersInput(page, perPage, id.value, raw.searchTerm,
                                                     raw.supplierIds, raw.statusIds, raw.priorityIds))
  }

  /** The arguments of `getPurchaseOrdersAction`. */
  datatype PurchaseOrdersActionParams = PurchaseOrdersActionParams(page: Option<int>, pageSize: Option<int>, search: Option<string>,
                                                                   supplier: Option<string>, status: Option<string>,
                                                                   priority: Option<string>)

  /** The renaming: pageSize to per_page, search to Search_Term, supplier/status/priority to the ID fields. */
  function RenamePurchaseOrdersParams(params: PurchaseOrdersActionParams): PurchaseOrdersSchemaInput
  {
    PurchaseOrdersSchemaInput(Number(params.page), Number(params.pageSize), Absent, params.search,
                              params.supplier, params.status, params.priority)
  }

  /** `getPurchaseOrdersAction` */
  function GetPurchaseOrdersAction(table: seq<PurchaseOrderQuery.PurchaseOrderRow>, params: PurchaseOrdersActionParams)
    : Result<QueryOutcome<PurchaseOrderQuery.PurchaseOrderListing>, string>
  {
    match ParsePurchaseOrdersSchema(RenamePurchaseOrdersParams(params))
    case None => Failure(InvalidParameters)
    case Some(data) => Success(PurchaseOrderQuery.GetPurchaseOrders(table, data))
  }

  /**
   * The action fails with "Invalid parameters" exactly when the page or the page size is
   * NaN; otherwise it runs the query on the renamed parameters, with no order ID.
   */
  lemma PurchaseOrdersActionOutcome(table: seq<PurchaseOrderQuery.PurchaseOrderRow>, params: PurchaseOrdersActionParams)
    ensures var r := GetPurchaseOrdersAction(table, params);
      && (r.Failure? <==> params.page.None? || params.pageSize.None?)
      && (r.Failure? ==> r.error == InvalidParameters)
      && (r.Success? ==> r.value == PurchaseOrderQuery.GetPurchaseOrders(table,
            PurchaseOrderQuery.PurchaseOrdersInput(params.page, params.pageSize, None, params.search,
                                                   params.supplier, params.status, params.priority)))
  {
  }

  /** Through the action, the pagination echoes the caller's page and page size; no default applies. */
  lemma PurchaseOrdersActionEchoesPaging(table: seq<PurchaseOrderQuery.PurchaseOrderRow>, params: PurchaseOrdersActionParams)
    requires GetPurchaseOrdersAction(table, params).Success?
    requires GetPurchaseOrdersAction(table, params).value.Page?
    ensures params.page.Some? && params.pageSize.Some?
    ensures GetPurchaseOrdersAction(table, params).value.pagination.page == params.page.value
    ensures GetPurchaseOrdersAction(table, params).value.pagination.pageSize == params.pageSize.value
  {
    PurchaseOrdersActionOutcome(table, params);
  }

  /** Validating an object without `page` or `per_page` fills in 1 and 10. */
  lemma SchemaDefaults(raw: PurchaseOrdersSchemaInput)
    requires raw.page == Absent && raw.perPage == Absent && raw.purchaseOrderId != Number(None)
    ensures ParsePurchaseOrdersSchema(raw).Some?
    ensures ParsePurchaseOrdersSchema(raw).value.page == Some(1)
    ensures ParsePurchaseOrdersSchema(raw).value.perPage == Some(10)
  {
  }
}

=== FILE: strings.dfy ===
/**
 * The JavaScript string operations the inventory application relies on:
 * `includes`/`contains`, `split`, `join`, `trim`, ASCII case mapping,
 * `String(n)` for integers and `Number(s)` for integer-shaped strings.
 */
module Strings {
  import opened Wrappers

  predicate IsPrefix(p: string, s: string) {
    |p| <= |s| && s[..|p|] == p
  }

  /** `s.includes(t)`: `t` occurs in `s` at some offset (the empty string occurs everywhere). */
  predicate Contains(s: string, t: string)
    decreases |s|
  {
    IsPrefix(t, s) || (|s| > 0 && Contains(s[1..], t))
  }

  /** `t` occurs in `s` starting at offset `i`. */
  predicate OccursAt(s: string, t: string, i: int) {
    0 <= i <= |s| - |t| && s[i..i + |t|] == t
  }

  /** The recursive definition of Contains agrees with "some slice of `s` equals `t`". */
  lemma {:induction false} ContainsAt(s: string, t: string)
    ensures Contains(s, t) <==> exists i :: OccursAt(s, t, i)
    decreases |s|
  {
    if |s| == 0 {
      if Contains(s, t) {
        assert OccursAt(s, t, 0);
      }
    } else {
      ContainsAt(s[1..], t);
      if Contains(s, t) {
        if IsPrefix(t, s) {
          assert OccursAt(s, t, 0);
        } else {
          var j :| OccursAt(s[1..], t, j);
          assert s[j + 1..j + 1 + |t|] == s[1..][j..j + |t|];
          assert OccursAt(s, t, j + 1);
        }
      }
      if exists i :: OccursAt(s, t, i) {
        var i :| OccursAt(s, t, i);
        if i == 0 {
          assert IsPrefix(t, s);
        } else {
          assert s[1..][i - 1..i - 1 + |t|] == s[i..i + |t|];
          assert OccursAt(s[1..], t, i - 1);
        }
      }
    }
  }

  /** Every string contains the empty string, so an empty search term matches everything. */
  lemma EmptyIsContained(s: string)
    ensures Contains(s, "")
  {
    assert IsPrefix("", s);
  }

  /** `s.includes(c)` for a one-character string is membership of the character. */
  lemma {:induction false} ContainsChar(s: string, c: char)
    ensures Contains(s, [c]) <==> c in s
    decreases |s|
  {
    if |s| > 0 {
      ContainsChar(s[1..], c);
      assert s == [s[0]] + s[1..];
    }
  }

  /** `s.split(sep)` for a one-character separator: always at least one part, none holding `sep`. */
  function Split(s: string, sep: char): (parts: seq<string>)
    ensures |parts| >= 1
    ensures forall p | p in parts :: sep !in p
    decreases |s|
  {
    if |s| == 0 then [""]
    else
      var rest := Split(s[1..], sep);
      if s[0] == sep then [""] + rest
      else [[s[0]] + rest[0]] + rest[1..]
  }

  /** `parts.join(sep)` */
  function Join(parts: seq<string>, sep: string): string
  {
    if |parts| == 0 then ""
    else if |parts| == 1 then parts[0]
    else parts[0] + sep + Join(parts[1..], sep)
  }

  /** Joining the parts of a split with the same separator gives back the original string. */
  lemma {:induction false} JoinSplit(s: string, sep: char)
    ensures Join(Split(s, sep), [sep]) == s
    decreases |s|
  {
    if |s| > 0 {
      var rest := Split(s[1..], sep);
      JoinSplit(s[1..], sep);
      if s[0] == sep {
        assert Split(s, sep) == [""] + rest;
        assert ([""] + rest)[1..] == rest;
        assert s == [sep] + s[1..];
      } else {
        var parts := Split(s, sep);
        assert parts == [[s[0]] + rest[0]] + rest[1..];
        if |rest| == 1 {
          assert s == [s[0]] + s[1..];
        } else {
          assert parts[1..] == rest[1..];
          assert Join(rest, [sep]) == rest[0] + [sep] + Join(rest[1..], [sep]);
          assert s == [s[0]] + s[1..];
        }
      }
    }
  }

  /** Splitting a separator-free head followed by the separator peels off exactly that head. */
  lemma {:induction false} SplitHead(a: string, sep: char, rest: string)
    requires sep !in a
    ensures Split(a + [sep] + rest, sep) == [a] + Split(rest, sep)
    decreases |a|
  {
    if |a| == 0 {
      assert a + [sep] + rest == [sep] + rest;
      assert ([sep] + rest)[1..] == rest;
    } else {
      SplitHead(a[1..], sep, rest);
      assert (a + [sep] + rest)[1..] == a[1..] + [sep] + rest;
      assert [a[0]] + a[1..] == a;
    }
  }

  /** A string without the separator splits into itself alone. */
  lemma {:induction false} SplitNoSeparator(a: string, sep: char)
    requires sep !in a
    ensures Split(a, sep) == [a]
    decreases |a|
  {
    if |a| > 0 {
      SplitNoSeparator(a[1..], sep);
      assert [a[0]] + a[1..] == a;
    }
  }

  /** Joining separator-free parts and splitting again gives back the parts: the `.`-joined id encoding round-trips. */
  lemma {:induction false} SplitJoin(parts: seq<string>, sep: char)
    requires |parts| >= 1
    requires forall p | p in parts :: sep !in p
    ensures Split(Join(parts, [sep]), sep) == parts
    decreases |parts|
  {
    if |parts| == 1 {
      SplitNoSeparator(parts[0], sep);
    } else {
      SplitJoin(parts[1..], sep);
      SplitHead(parts[0], sep, Join(parts[1..], [sep]));
      assert [parts[0]] + parts[1..] == parts;
    }
  }

  // ---------------------------------------------------------------------------
  // ASCII case mapping (`toUpperCase` / `toLowerCase` on ASCII letters)

  function UpperChar(c: char): char {
    if 'a' <= c <= 'z' then (c as int - 32) as char else c
  }

  function LowerChar(c: char): char {
    if 'A' <= c <= 'Z' then (c as int + 32) as char else c
  }

  /** `toUpperCase`. */
  function ToUpper(s: string): string
  {
    seq(|s|, k requires 0 <= k < |s| => UpperChar(s[k]))
  }

  /** `toLowerCase`. */
  function ToLower(s: string): string
  {
    seq(|s|, k requires 0 <= k < |s| => LowerChar(s[k]))
  }

  /** Case mapping keeps the length and leaves every character that is not a letter of the other case alone. */
  lemma CaseMappingKeepsOthers(s: string)
    ensures |ToUpper(s)| == |s| && |ToLower(s)| == |s|
    ensures forall k | 0 <= k < |s| && !('a' <= s[k] <= 'z') :: ToUpper(s)[k] == s[k]
    ensures forall k | 0 <= k < |s| && !('A' <= s[k] <= 'Z') :: ToLower(s)[k] == s[k]
  {
  }

  /** Upper-casing twice is upper-casing once, and likewise for lower-casing. */
  lemma CaseMappingIdempotent(s: string)
    ensures ToUpper(ToUpper(s)) == ToUpper(s)
    ensures ToLower(ToLower(s)) == ToLower(s)
  {
  }

  /** An upper-cased string holds no lower-case ASCII letter, and a lower-cased one no upper-case letter. */
  lemma UpperHasNoLower(s: string)
    ensures forall k | 0 <= k < |ToUpper(s)| :: !('a' <= ToUpper(s)[k] <= 'z')
    ensures forall k | 0 <= k < |ToLower(s)| :: !('A' <= ToLower(s)[k] <= 'Z')
  {
  }

  /** Lower-casing forgets whether a letter was upper-cased first, and upper-casing the reverse. */
  lemma LowerOfUpper(s: string)
    ensures ToLower(ToUpper(s)) == ToLower(s)
    ensures ToUpper(ToLower(s)) == ToUpper(s)
  {
    forall k | 0 <= k < |s| ensures ToLower(ToUpper(s))[k] == ToLower(s)[k] {
      assert ToUpper(s)[k] == UpperChar(s[k]);
    }
    forall k | 0 <= k < |s| ensures ToUpper(ToLower(s))[k] == ToUpper(s)[k] {
      assert ToLower(s)[k] == LowerChar(s[k]);
    }
  }

  /** A case-sensitive match is also a case-insensitive one. */
  lemma ContainsIgnoringCase(s: string, t: string)
    requires Contains(s, t)
    ensures Contains(ToLower(s), ToLower(t))
  {
    ContainsAt(s, t);
    var i :| OccursAt(s, t, i);
    assert ToLower(s)[i..i + |t|] == ToLower(t);
    assert OccursAt(ToLower(s), ToLower(t), i);
    ContainsAt(ToLower(s), ToLower(t));
  }

  // ---------------------------------------------------------------------------
  // Whitespace and `trim`

  /** The white-space characters JavaScript's `trim` removes, restricted to the common ones. */
  predicate IsWhitespace(c: char) {
    c == ' ' || c == '\t' || c == '\n' || c == '\r' || c == '\U{000B}' || c == '\U{000C}'
    || c == '\U{00A0}' || c == '\U{FEFF}'
  }

  function TrimStart(s: string): (r: string)
    ensures |r| <= |s| && r == s[|s| - |r|..]
    ensures forall k | 0 <= k < |s| - |r| :: IsWhitespace(s[k])
    ensures r == [] || !IsWhitespace(r[0])
    decreases |s|
  {
    if |s| > 0 && IsWhitespace(s[0]) then TrimStart(s[1..]) else s
  }

  function TrimEnd(s: string): (r: string)
    ensures |r| <= |s| && r == s[..|r|]
    ensures forall k | |r| <= k < |s| :: IsWhitespace(s[k])
    ensures r == [] || !IsWhitespace(r[|r| - 1])
    decreases |s|
  {
    if |s| > 0 && IsWhitespace(s[|s| - 1]) then TrimEnd(s[..|s| - 1]) else s
  }

  /** `s.trim()`: white space dropped at both ends. */
  function Trim(s: string): (r: string)
    ensures |r| <= |s|
    ensures r == [] || (!IsWhitespace(r[0]) && !IsWhitespace(r[|r| - 1]))
  {
    TrimEnd(TrimStart(s))
  }

  /** `trim` keeps the slice `s[i..j]` of the string and drops only white space around it. */
  lemma TrimIsSlice(s: string) returns (i: nat, j: nat)
    ensures i <= j <= |s| && Trim(s) == s[i..j]
    ensures forall k | 0 <= k < i :: IsWhitespace(s[k])
    ensures forall k | j <= k < |s| :: IsWhitespace(s[k])
  {
    var a := TrimStart(s);
    var b := TrimEnd(a);
    i, j := |s| - |a|, |s| - |a| + |b|;
    assert a == s[i..];
    assert b == a[..|b|];
    assert s[i..][..|b|] == s[i..j];
    forall k | j <= k < |s|
      ensures IsWhitespace(s[k])
    {
      assert s[k] == a[k - i];
    }
  }

  /** Trimming a string whose ends are not white space changes nothing. */
  lemma TrimUnchanged(s: string)
    requires s == [] || (!IsWhitespace(s[0]) && !IsWhitespace(s[|s| - 1]))
    ensures Trim(s) == s
  {
  }

  // ---------------------------------------------------------------------------
  // Integers as decimal text: `String(n)` and `Number(s)`

  predicate IsDigit(c: char) {
    '0' <= c <= '9'
  }

  predicate AllDigits(s: string) {
    forall k | 0 <= k < |s| :: IsDigit(s[k])
  }

  function DigitChar(d: nat): (c: char)
    requires d < 10
    ensures IsDigit(c)
  {
    ('0' as int + d) as char
  }

  function DigitValue(c: char): nat
    requires IsDigit(c)
  {
    c as int - '0' as int
  }

  /** `String(n)` for a natural number: its decimal digits. */
  function NatToString(n: nat): (r: string)
    ensures |r| >= 1 && AllDigits(r)
    decreases n
  {
    if n < 10 then [DigitChar(n)] else NatToString(n / 10) + [DigitChar(n % 10)]
  }

  /** `String(n)` for an integer. */
  function IntToString(n: int): (r: string)
    ensures |r| >= 1 && !IsWhitespace(r[0]) && !IsWhitespace(r[|r| - 1])
    ensures forall k | 0 <= k < |r| :: IsDigit(r[k]) || (k == 0 && r[k] == '-')
  {
    if n < 0 then "-" + NatToString(-n) else NatToString(n)
  }

  /** The value of a string of decimal digits. */
  function DigitsValue(s: string): nat
    requires AllDigits(s)
    decreases |s|
  {
    if |s| == 0 then 0 else DigitsValue(s[..|s| - 1]) * 10 + DigitValue(s[|s| - 1])
  }

  lemma {:induction false} DigitsValueOfNat(n: nat)
    ensures DigitsValue(NatToString(n)) == n
    decreases n
  {
    if n >= 10 {
      DigitsValueOfNat(n / 10);
      var s := NatToString(n);
      assert s[..|s| - 1] == NatToString(n / 10);
    }
  }

  /**
   * `Number(s)` on the strings this application feeds it: white space at either end is
   * skipped, the empty string reads as 0, an optionally signed run of decimal digits
   * reads as its value, and anything else is NaN (None). The white space is skipped one
   * character at a time; `ParseNumberTrims` shows this is parsing `s.trim()`.
   */
  function ParseNumber(s: string): Option<int>
    decreases |s|
  {
    if |s| > 0 && IsWhitespace(s[0]) then ParseNumber(s[1..])
    else if |s| > 0 && IsWhitespace(s[|s| - 1]) then ParseNumber(s[..|s| - 1])
    else ParseDecimal(s)
  }

  /** `Number(t)` for a string `t` that neither starts nor ends with white space. */
  function ParseDecimal(t: string): Option<int>
  {
    if t == "" then Some(0)
    else if AllDigits(t) then Some(DigitsValue(t))
    else if |t| > 1 && (t[0] == '-' || t[0] == '+') && AllDigits(t[1..]) then
      Some(if t[0] == '-' then -(DigitsValue(t[1..]) as int) else DigitsValue(t[1..]))
    else None
  }

  /** `Number(s)` parses what `s.trim()` leaves. */
  lemma {:induction false} ParseNumberTrims(s: string)
    ensures ParseNumber(s) == ParseDecimal(Trim(s))
    decreases |s|
  {
    if |s| > 0 && IsWhitespace(s[0]) {
      ParseNumberTrims(s[1..]);
      assert TrimStart(s) == TrimStart(s[1..]);
    } else if |s| > 0 && IsWhitespace(s[|s| - 1]) {
      var u := s[..|s| - 1];
      ParseNumberTrims(u);
      assert TrimStart(s) == s;
      assert TrimEnd(s) == TrimEnd(u);
      assert |u| > 0 && u[0] == s[0];
      assert TrimStart(u) == u;
    } else {
      TrimUnchanged(s);
    }
  }

  /** `Number(String(n)) == n` for every integer. */
  lemma ParseIntToString(n: int)
    ensures ParseNumber(IntToString(n)) == Some(n)
  {
    var s := IntToString(n);
    assert ParseNumber(s) == ParseDecimal(s);
    if n < 0 {
      DigitsValueOfNat(-n);
      assert s[1..] == NatToString(-n);
      assert !IsDigit(s[0]);
    } else {
      DigitsValueOfNat(n);
    }
  }
}

=== FILE: supplier_stats.dfy ===
/**
 * `getSuppliers` (src/server/database/suppliers/GET/getSuppliers.ts): every supplier with its
 * number of purchase orders, of active purchase orders, and the summed purchase price of
 * all its orders' lines. The three grouped queries are inputs here; what the database
 * computes for each is stated by a predicate against the underlying tables.
 */
module SupplierStats {
  import opened Wrappers
  import DirectoryPages

  /** A `Purchase_Order` row, reduced to the columns the statistics read. */
  datatype PurchaseOrderRow = PurchaseOrderRow(orderId: int, supplierId: int, isActive: bool)

  /** A `Purchase_Order_Item` row: its order and its (nullable) `Purchase_Price`. */
  datatype OrderLineRow = OrderLineRow(orderId: int, purchasePrice: Option<int>)

  /** A supplier row as selected: its columns, its address and its first active contact. */
  datatype SupplierRow = SupplierRow(supplierId: int, name: string, isActive: bool,
                                     address: DirectoryPages.Address, contact: Option<DirectoryPages.Contact>)

  /** `{ ...supplier, totalOrders, activeOrders, totalValue }` */
  datatype SupplierWithOrders = SupplierWithOrders(supplier: SupplierRow, totalOrders: nat, activeOrders: nat, totalValue: int)

  /** One group of a `groupBy` with `_count`: the key and the number of rows in it. */
  datatype CountGroup = CountGroup(key: int, count: nat)

  /** One group of the `groupBy` of lines by order with `_sum` of the price (null when no line has a price). */
  datatype SumGroup = SumGroup(orderId: int, sum: Option<int>)

  // ---------------------------------------------------------------------------
  // What the database computes

  /** The number of orders of supplier `s`, counting only active ones when `activeOnly`. */
  function CountOrders(orders: seq<PurchaseOrderRow>, s: int, activeOnly: bool): nat
  {
    if |orders| == 0 then 0
    else CountOrders(orders[..|orders| - 1], s, activeOnly)
         + (var o := orders[|orders| - 1]; if o.supplierId == s && (o.isActive || !activeOnly) then 1 else 0)
  }

  /** SQL `SUM` over the non-null prices of an order's lines: null when there are none. */
  function PriceSum(lines: seq<OrderLineRow>, orderId: int): Option<int>
  {
    if |lines| == 0 then None
    else
      var before := PriceSum(lines[..|lines| - 1], orderId);
      var l := lines[|lines| - 1];
      if l.orderId == orderId && l.purchasePrice.Some? then Some(before.GetOr(0) + l.purchasePrice.value) else before
  }

  /** `groups` is what `groupBy(Supplier_ID)` with `_count` returns: one group per supplier that has (active) orders, with its count. */
  ghost predicate CountGroupsOf(groups: seq<CountGroup>, orders: seq<PurchaseOrderRow>, activeOnly: bool)
  {
    && (forall i, j | 0 <= i < j < |groups| :: groups[i].key != groups[j].key)
    && (forall i | 0 <= i < |groups| :: groups[i].count == CountOrders(orders, groups[i].key, activeOnly))
    && (forall o | o in orders && (o.isActive || !activeOnly) :: exists i | 0 <= i < |groups| :: groups[i].key == o.supplierId)
  }

  /** `sums` is what `groupBy(Purchase_Order_ID)` with `_sum` returns: one group per order that has lines. */
  ghost predicate SumGroupsOf(sums: seq<SumGroup>, lines: seq<OrderLineRow>)
  {
    && (forall i, j | 0 <= i < j < |sums| :: sums[i].orderId != sums[j].orderId)
    && (forall i | 0 <= i < |sums| :: sums[i].sum == PriceSum(lines, sums[i].orderId))
    && (forall l | l in lines :: exists i | 0 <= i < |sums| :: sums[i].orderId == l.orderId)
  }

  // ---------------------------------------------------------------------------
  // The lookups

  /** `groups.find((o) => o.Supplier_ID === key)?._count.Purchase_Order_ID ?? 0` */
  function FindCount(groups: seq<CountGroup>, key: int): (r: nat)
    ensures r != 0 ==> exists i | 0 <= i < |groups| :: groups[i].key == key && groups[i].count == r
  {
    if |groups| == 0 then 0
    else if groups[0].key == key then groups[0].count
    else FindCount(groups[1..], key)
  }

  /** `totalValueBySupplier.find((t) => t.Purchase_Order_ID === orderId)?._sum.Purchase_Price ?? 0` */
  function OrderTotal(sums: seq<SumGroup>, orderId: int): int
  {
    if |sums| == 0 then 0
    else if sums[0].orderId == orderId then sums[0].sum.GetOr(0)
    else OrderTotal(sums[1..], orderId)
  }

  lemma {:induction false} FindCountAt(groups: seq<CountGroup>, i: nat)
    requires i < |groups|
    requires forall j | 0 <= j < i :: groups[j].key != groups[i].key
    ensures FindCount(groups, groups[i].key) == groups[i].count
  {
    if i > 0 {
      FindCountAt(groups[1..], i - 1);
    }
  }

  lemma {:induction false} FindCountMissing(groups: seq<CountGroup>, key: int)
    requires forall i | 0 <= i < |groups| :: groups[i].key != key
    ensures FindCount(groups, key) == 0
  {
    if |groups| > 0 {
      FindCountMissing(groups[1..], key);
    }
  }

  lemma {:induction false} CountWithoutOrders(orders: seq<PurchaseOrderRow>, s: int, activeOnly: bool)
    requires forall o | o in orders && (o.isActive || !activeOnly) :: o.supplierId != s
    ensures CountOrders(orders, s, activeOnly) == 0
    decreases |orders|
  {
    if |orders| > 0 {
      var init := orders[..|orders| - 1];
      assert forall o | o in init :: o in orders;
      CountWithoutOrders(init, s, activeOnly);
    }
  }

  /** Against a faithful `groupBy`, the `find(...) ?? 0` lookup is the supplier's order count, including 0 for a supplier without orders. */
  lemma FindCountIsCount(groups: seq<CountGroup>, orders: seq<PurchaseOrderRow>, activeOnly: bool, s: int)
    requires CountGroupsOf(groups, orders, activeOnly)
    ensures FindCount(groups, s) == CountOrders(orders, s, activeOnly)
  {
    if i :| 0 <= i < |groups| && groups[i].key == s {
      FindCountAt(groups, i);
    } else {
      FindCountMissing(groups, s);
      CountWithoutOrders(orders, s, activeOnly);
    }
  }

  lemma {:induction false} OrderTotalAt(sums: seq<SumGroup>, i: nat)
    requires i < |sums|
    requires forall j | 0 <= j < i :: sums[j].orderId != sums[i].orderId
    ensures OrderTotal(sums, sums[i].orderId) == sums[i].sum.GetOr(0)
  {
    if i > 0 {
      OrderTotalAt(sums[1..], i - 1);
    }
  }

  lemma {:induction false} OrderTotalMissing(sums: seq<SumGroup>, orderId: int)
    requires forall i | 0 <= i < |sums| :: sums[i].orderId != orderId
    ensures OrderTotal(sums, orderId) == 0
  {
    if |sums| > 0 {
      OrderTotalMissing(sums[1..], orderId);
    }
  }

  lemma {:induction false} SumWithoutLines(lines: seq<OrderLineRow>, orderId: int)
    requires forall l | l in lines :: l.orderId != orderId
    ensures PriceSum(lines, orderId) == None
    decreases |lines|
  {
    if |lines| > 0 {
      var init := lines[..|lines| - 1];
      assert forall l | l in init :: l in lines;
      SumWithoutLines(init, orderId);
    }
  }

  /** Against a faithful `groupBy`, an order's looked-up total is the sum of its lines' prices, 0 when it has none. */
  lemma OrderTotalIsPriceSum(sums: seq<SumGroup>, lines: seq<OrderLineRow>, orderId: int)
    requires SumGroupsOf(sums, lines)
    ensures OrderTotal(sums, orderId) == PriceSum(lines, orderId).GetOr(0)
  {
    if i :| 0 <= i < |sums| && sums[i].orderId == orderId {
      OrderTotalAt(sums, i);
    } else {
      OrderTotalMissing(sums, orderId);
      SumWithoutLines(lines, orderId);
    }
  }

  // ---------------------------------------------------------------------------
  // The `totalValueMap` loop

  /** `totalValueMap` after the `forEach` has visited `orders`. */
  function TotalValues(orders: seq<PurchaseOrderRow>, sums: seq<SumGroup>): map<int, int>
  {
    if |orders| == 0 then map[]
    else
      var m := TotalValues(orders[..|orders| - 1], sums);
      var po := orders[|orders| - 1];
      m[po.supplierId := (if po.supplierId in m then m[po.supplierId] else 0) + OrderTotal(sums, po.orderId)]
  }

  /** The summed totals of the orders of supplier `s`. */
  function SupplierValue(orders: seq<PurchaseOrderRow>, sums: seq<SumGroup>, s: int): int
  {
    if |orders| == 0 then 0
    else
      var po := orders[|orders| - 1];
      SupplierValue(orders[..|orders| - 1], sums, s) + (if po.supplierId == s then OrderTotal(sums, po.orderId) else 0)
  }

  /** The map has an entry exactly for the suppliers that have orders, holding the sum of those orders' totals. */
  lemma {:induction false} TotalValuesAgree(orders: seq<PurchaseOrderRow>, sums: seq<SumGroup>, s: int)
    ensures s in TotalValues(orders, sums) <==> exists k | 0 <= k < |orders| :: orders[k].supplierId == s
    ensures s in TotalValues(orders, sums) ==> TotalValues(orders, sums)[s] == SupplierValue(orders, sums, s)
    ensures s !in TotalValues(orders, sums) ==> SupplierValue(orders, sums, s) == 0
    decreases |orders|
  {
    if |orders| > 0 {
      var init := orders[..|orders| - 1];
      TotalValuesAgree(init, sums, s);
      if exists k | 0 <= k < |init| :: init[k].supplierId == s {
        var k :| 0 <= k < |init| && init[k].supplierId == s;
        assert orders[k].supplierId == s;
      }
      if exists k | 0 <= k < |orders| :: orders[k].supplierId == s {
        var k :| 0 <= k < |orders| && orders[k].supplierId == s;
        if k < |init| {
          assert init[k].supplierId == s;
        }
      }
    }
  }

  /** The `forEach` that fills `totalValueMap`. */
  method BuildTotalValueMap(orders: seq<PurchaseOrderRow>, sums: seq<SumGroup>) returns (totalValueMap: map<int, int>)
    ensures totalValueMap == TotalValues(orders, sums)
  {
    totalValueMap := map[];
    var i := 0;
    while i < |orders|
      invariant 0 <= i <= |orders|
      invariant totalValueMap == TotalValues(orders[..i], sums)
    {
      var po := orders[i];
      var total := OrderTotal(sums, po.orderId);
      var previous := if po.supplierId in totalValueMap then totalValueMap[po.supplierId] else 0;
      totalValueMap := totalValueMap[po.supplierId := previous + total];
      assert orders[..i + 1][..i] == orders[..i];
      i := i + 1;
    }
    assert orders[..|orders|] == orders;
  }

  // ---------------------------------------------------------------------------
  // The combine

  /** One supplier of `suppliers.map(...)`: its counts looked up with a default of 0, its value likewise. */
  function WithOrders(supplier: SupplierRow, ordersBySupplier: seq<CountGroup>, activeOrdersBySupplier: seq<CountGroup>,
                      totalValueMap: map<int, int>): SupplierWithOrders
  {
    var id := supplier.supplierId;
    SupplierWithOrders(supplier, FindCount(ordersBySupplier, id), FindCount(activeOrdersBySupplier, id),
                       if id in totalValueMap then totalValueMap[id] else 0)
  }

  /** `getSuppliers()` over the rows the four queries return. */
  method GetSuppliers(suppliers: seq<SupplierRow>, purchaseOrders: seq<PurchaseOrderRow>,
                      ordersBySupplier: seq<CountGroup>, activeOrdersBySupplier: seq<CountGroup>,
                      totalValueBySupplier: seq<SumGroup>)
    returns (r: seq<SupplierWithOrders>)
    ensures |r| == |suppliers|
    ensures forall k | 0 <= k < |r| ::
              r[k] == WithOrders(suppliers[k], ordersBySupplier, activeOrdersBySupplier,
                                 TotalValues(purchaseOrders, totalValueBySupplier))
  {
    var totalValueMap := BuildTotalValueMap(purchaseOrders, totalValueBySupplier);
    r := seq(|suppliers|, k requires 0 <= k < |suppliers| =>
               WithOrders(suppliers[k], ordersBySupplier, activeOrdersBySupplier, totalValueMap));
  }

  /** The summed line prices of supplier `s`'s orders, read straight from the tables. */
  function SupplierPrice(orders: seq<PurchaseOrderRow>, lines: seq<OrderLineRow>, s: int): int
  {
    if |orders| == 0 then 0
    else
      var po := orders[|orders| - 1];
      SupplierPrice(orders[..|orders| - 1], lines, s) + (if po.supplierId == s then PriceSum(lines, po.orderId).GetOr(0) else 0)
  }

  lemma {:induction false} SupplierValueIsPrice(orders: seq<PurchaseOrderRow>, sums: seq<SumGroup>, lines: seq<OrderLineRow>, s: int)
    requires SumGroupsOf(sums, lines)
    ensures SupplierValue(orders, sums, s) == SupplierPrice(orders, lines, s)
    decreases |orders|
  {
    if |orders| > 0 {
      SupplierValueIsPrice(orders[..|orders| - 1], sums, lines, s);
      OrderTotalIsPriceSum(sums, lines, orders[|orders| - 1].orderId);
    }
  }

  /**
   * Each returned record keeps its supplier row and reports the supplier's order count,
   * active order count and the summed prices of its orders' lines, each 0 when it has none.
   */
  lemma SupplierStatsCorrect(supplier: SupplierRow, orders: seq<PurchaseOrderRow>, lines: seq<OrderLineRow>,
                             ordersBySupplier: seq<CountGroup>, activeOrdersBySupplier: seq<CountGroup>,
                             totalValueBySupplier: seq<SumGroup>)
    requires CountGroupsOf(ordersBySupplier, orders, false)
    requires CountGroupsOf(activeOrdersBySupplier, orders, true)
    requires SumGroupsOf(totalValueBySupplier, lines)
    ensures var r := WithOrders(supplier, ordersBySupplier, activeOrdersBySupplier, TotalValues(orders, totalValueBySupplier));
            && r.supplier == supplier
            && r.totalOrders == CountOrders(orders, supplier.supplierId, false)
            && r.activeOrders == CountOrders(orders, supplier.supplierId, true)
            && r.totalValue == SupplierPrice(orders, lines, supplier.supplierId)
  {
    var s := supplier.supplierId;
    FindCountIsCount(ordersBySupplier, orders, false, s);
    FindCountIsCount(activeOrdersBySupplier, orders, true, s);
    TotalValuesAgree(orders, totalValueBySupplier, s);
    SupplierValueIsPrice(orders, totalValueBySupplier, lines, s);
  }

  /** A supplier without purchase orders gets zero counts and a zero value. */
  lemma NoOrdersNoValue(supplier: SupplierRow, orders: seq<PurchaseOrderRow>,
                        ordersBySupplier: seq<CountGroup>, activeOrdersBySupplier: seq<CountGroup>, sums: seq<SumGroup>)
    requires CountGroupsOf(ordersBySupplier, orders, false)
    requires CountGroupsOf(activeOrdersBySupplier, orders, true)
    requires forall k | 0 <= k < |orders| :: orders[k].supplierId != supplier.supplierId
    ensures WithOrders(supplier, ordersBySupplier, activeOrdersBySupplier, TotalValues(orders, sums))
            == SupplierWithOrders(supplier, 0, 0, 0)
  {
    var s := supplier.supplierId;
    FindCountIsCount(ordersBySupplier, orders, false, s);
    FindCountIsCount(activeOrdersBySupplier, orders, true, s);
    CountWithoutOrders(orders, s, false);
    CountWithoutOrders(orders, s, true);
    TotalValuesAgree(orders, sums, s);
  }
}

=== FILE: table_filters_context.dfy ===
/**
 * The table-filters context (src/context/table-filters-context.tsx): for each table ID it
 * keeps the option lists its filter selects show, and lets a table merge new lists into
 * its own entry.
 */
module TableFiltersContext {
  import opened Wrappers
  import opened Options

  /** The option lists a table may carry (`TableFilterValues`). */
  datatype FilterKind = Categories | Conditions | Locations | Statuses | Suppliers | Priorities

  /**
   * One table's entry. A key that is present may still hold `undefined` (None), which is
   * what spreading an object with an explicit `undefined` member stores.
   */
  type TableFilterValues = map<FilterKind, Option<seq<FilterOption>>>

  /** `{ ...prev[tableId], ...filters }`: spreading a missing entry contributes nothing. */
  function Merge(prev: Option<TableFilterValues>, filters: TableFilterValues): (r: TableFilterValues)
    ensures r.Keys == prev.GetOr(map[]).Keys + filters.Keys
    ensures forall k | k in filters :: r[k] == filters[k]
    ensures forall k | k in prev.GetOr(map[]) && k !in filters :: r[k] == prev.value[k]
  {
    prev.GetOr(map[]) + filters
  }

  /** Merging the same lists twice is merging them once. */
  lemma MergeIdempotent(prev: Option<TableFilterValues>, filters: TableFilterValues)
    ensures Merge(Some(Merge(prev, filters)), filters) == Merge(prev, filters)
  {
  }

  /** A later merge wins on the keys it names: merging `f` then `g` is merging `f` overwritten by `g`. */
  lemma MergeTwice(prev: Option<TableFilterValues>, f: TableFilterValues, g: TableFilterValues)
    ensures Merge(Some(Merge(prev, f)), g) == Merge(prev, f + g)
  {
  }

  /** The error `useTableFilters` throws outside a provider. */
  const OutsideProvider := "useTableFilters must be used within a TableFiltersContextProvider"

  /** The provider's state: every table's entry, keyed by table ID. */
  class TableFiltersProvider {
    var tables: map<string, TableFilterValues>

    /** The provider starts from `initialFilters` (empty by default). */
    constructor (initialFilters: map<string, TableFilterValues>)
      ensures tables == initialFilters
    {
      tables := initialFilters;
    }

    /** `getTableFilters(tableId)`: the table's entry, undefined when it has none. */
    function GetTableFilters(tableId: string): (r: Option<TableFilterValues>)
      reads this
      ensures r.Some? <==> tableId in tables
      ensures r.Some? ==> r.value == tables[tableId]
    {
      if tableId in tables then Some(tables[tableId]) else None
    }

    /** `setTableFilters(tableId, filters)`: the table's entry absorbs `filters`; other tables are untouched. */
    method SetTableFilters(tableId: string, filters: TableFilterValues)
      modifies this
      ensures tables == old(tables)[tableId := Merge(old(GetTableFilters(tableId)), filters)]
      ensures forall other | other != tableId :: GetTableFilters(other) == old(GetTableFilters(other))
    {
      var prev := GetTableFilters(tableId);
      tables := tables[tableId := Merge(prev, filters)];
    }
  }

  /** What `useTableFilters(tableId)` hands a table: its entry as it is now. */
  function UseTableFilters(context: Option<map<string, TableFilterValues>>, tableId: string): (r: Result<Option<TableFilterValues>, string>)
    ensures context.None? <==> r == Failure(OutsideProvider)
    ensures context.Some? ==> r.Success? && (r.value.Some? <==> tableId in context.value)
    ensures context.Some? && tableId in context.value ==> r.value == Some(context.value[tableId])
  {
    match context
    case None => Failure(OutsideProvider)
    case Some(tables) => Success(if tableId in tables then Some(tables[tableId]) else None)
  }

  /** After a table merges lists through the context, reading its entry back shows them, on top of what it had. */
  lemma SetThenUse(tables: map<string, TableFilterValues>, tableId: string, filters: TableFilterValues, k: FilterKind)
    ensures var after := tables[tableId := Merge(if tableId in tables then Some(tables[tableId]) else None, filters)];
            var r := UseTableFilters(Some(after), tableId);
            && r.Success? && r.value.Some?
            && (k in filters ==> k in r.value.value && r.value.value[k] == filters[k])
            && (k !in filters && tableId in tables && k in tables[tableId] ==> r.value.value[k] == tables[tableId][k])
  {
  }
}

=== FILE: url_query.dfy ===
/**
 * The URL query string and the `useSearchParams` hook (src/hooks/use-search-params.ts).
 *
 * A query string is an ordered list of (name, value) pairs, as a browser's
 * `URLSearchParams` keeps it: `get` reads the first pair with a name, `set`
 * overwrites the first such pair and drops the others (or appends a new pair),
 * and `delete` drops every pair with the name.  The hook's state is the current
 * location (path and query) and the router's history stack.
 */
module UrlQuery {
  import opened Wrappers
  import opened Strings

  type Query = seq<(string, string)>

  /** `searchParams.get(key)`: the first value stored under `key`, or null. */
  function Get(q: Query, key: string): Option<string>
  {
    if |q| == 0 then None
    else if q[0].0 == key then Some(q[0].1)
    else Get(q[1..], key)
  }

  /** `URLSearchParams.delete(key)` */
  function Delete(q: Query, key: string): (r: Query)
    ensures forall p | p in r :: p in q && p.0 != key
  {
    if |q| == 0 then []
    else if q[0].0 == key then Delete(q[1..], key)
    else [q[0]] + Delete(q[1..], key)
  }

  /** `URLSearchParams.set(key, value)` */
  function Put(q: Query, key: string, value: string): Query
  {
    if |q| == 0 then [(key, value)]
    else if q[0].0 == key then [(key, value)] + Delete(q[1..], key)
    else [q[0]] + Put(q[1..], key, value)
  }

  /** After `delete(key)`, `get(key)` is null and every other name reads as before. */
  lemma {:induction false} GetDelete(q: Query, key: string, other: string)
    ensures Get(Delete(q, key), other) == if other == key then None else Get(q, other)
  {
    if |q| > 0 {
      GetDelete(q[1..], key, other);
      if q[0].0 != key {
        assert ([q[0]] + Delete(q[1..], key))[1..] == Delete(q[1..], key);
      }
    }
  }

  /** After `set(key, value)`, `get(key)` is `value` and every other name reads as before. */
  lemma {:induction false} GetPut(q: Query, key: string, value: string, other: string)
    ensures Get(Put(q, key, value), other) == if other == key then Some(value) else Get(q, other)
  {
    if |q| > 0 {
      if q[0].0 == key {
        GetDelete(q[1..], key, other);
        assert ([(key, value)] + Delete(q[1..], key))[1..] == Delete(q[1..], key);
      } else {
        GetPut(q[1..], key, value, other);
        assert ([q[0]] + Put(q[1..], key, value))[1..] == Put(q[1..], key, value);
      }
    }
  }

  /** No name occurs twice. */
  predicate UniqueNames(q: Query) {
    forall i, j | 0 <= i < j < |q| :: q[i].0 != q[j].0
  }

  /**
   * The object `getAllParams` builds by visiting the pairs in order and assigning
   * `params[key] = value`: a later pair overwrites an earlier one with the same name.
   */
  function AllParams(q: Query): map<string, string>
  {
    if |q| == 0 then map[] else AllParams(q[..|q| - 1])[q[|q| - 1].0 := q[|q| - 1].1]
  }

  /** Every name in the query, and only those, appears in `getAllParams`. */
  lemma {:induction false} AllParamsKeys(q: Query, key: string)
    ensures key in AllParams(q) <==> Get(q, key).Some?
    decreases |q|
  {
    if |q| > 0 {
      var init := q[..|q| - 1];
      AllParamsKeys(init, key);
      GetLastPair(q, key);
    }
  }

  /** Reading a name through the query without its last pair. */
  lemma {:induction false} GetLastPair(q: Query, key: string)
    requires |q| > 0
    ensures Get(q, key) == if Get(q[..|q| - 1], key).Some? then Get(q[..|q| - 1], key)
                           else if q[|q| - 1].0 == key then Some(q[|q| - 1].1) else None
    decreases |q|
  {
    if |q| > 1 {
      GetLastPair(q[1..], key);
      assert q[1..][..|q[1..]| - 1] == q[..|q| - 1][1..];
    }
  }

  /** With unique names, `getAllParams()[k]` is exactly `getParam(k)`. */
  lemma {:induction false} AllParamsAgreesWithGet(q: Query, key: string)
    requires UniqueNames(q)
    requires key in AllParams(q)
    ensures Get(q, key) == Some(AllParams(q)[key])
    decreases |q|
  {
    var n := |q| - 1;
    var init := q[..n];
    assert UniqueNames(init);
    GetLastPair(q, key);
    if q[n].0 == key {
      GetSome(init, key);
      assert forall i | 0 <= i < |init| :: init[i].0 != key by {
        forall i | 0 <= i < |init| ensures init[i].0 != key {
          assert init[i] == q[i];
        }
      }
    } else {
      AllParamsAgreesWithGet(init, key);
    }
  }

  lemma {:induction false} GetFound(q: Query, key: string)
    requires Get(q, key).Some?
    ensures exists i :: 0 <= i < |q| && q[i].0 == key && q[i].1 == Get(q, key).value
  {
    if q[0].0 != key {
      GetFound(q[1..], key);
      var i :| 0 <= i < |q[1..]| && q[1..][i].0 == key && q[1..][i].1 == Get(q[1..], key).value;
      assert q[i + 1] == q[1..][i];
    }
  }

  // ---------------------------------------------------------------------------
  // Values handed to `setParams`

  /** `string | number | null | undefined` */
  datatype ParamValue = Null | Undefined | Str(s: string) | Num(n: int)

  /** `setParams` deletes a name whose value is null, undefined, `""` or `"all"`. */
  predicate Clears(v: ParamValue) {
    v.Null? || v.Undefined? || (v.Str? && (v.s == "" || v.s == "all"))
  }

  /** `String(value)` */
  function Render(v: ParamValue): string
    requires !Clears(v)
  {
    match v
    case Str(s) => s
    case Num(n) => IntToString(n)
  }

  /** The entries of a JavaScript object, in insertion order; names are unique. */
  type Entries = seq<(string, ParamValue)>

  /** No name occurs twice among an object's entries. */
  predicate UniqueKeys<V>(ps: seq<(string, V)>) {
    forall i, j | 0 <= i < j < |ps| :: ps[i].0 != ps[j].0
  }

  /** `obj[key] = value`: a present name keeps its place and takes the value, a new one is appended. */
  function Assign<V>(ps: seq<(string, V)>, key: string, value: V): (r: seq<(string, V)>)
    ensures |r| == |ps| || |r| == |ps| + 1
  {
    if |ps| == 0 then [(key, value)]
    else if ps[0].0 == key then [(key, value)] + ps[1..]
    else [ps[0]] + Assign(ps[1..], key, value)
  }

  /** The value an object of entries holds under `key`: the last entry with that name. */
  function Lookup<V>(ps: seq<(string, V)>, key: string): Option<V>
  {
    if |ps| == 0 then None
    else if ps[|ps| - 1].0 == key then Some(ps[|ps| - 1].1)
    else Lookup(ps[..|ps| - 1], key)
  }

  /** Looking up in an object after `obj[key] = value`. */
  lemma {:induction false} LookupAssign<V>(ps: seq<(string, V)>, key: string, value: V, other: string)
    requires UniqueKeys(ps)
    ensures UniqueKeys(Assign(ps, key, value))
    ensures Lookup(Assign(ps, key, value), other) == if other == key then Some(value) else Lookup(ps, other)
    decreases |ps|
  {
    var r := Assign(ps, key, value);
    if |ps| > 0 {
      LookupFirst(ps, other);
      if ps[0].0 == key {
        assert r[1..] == ps[1..];
        forall i, j | 0 <= i < j < |r| ensures r[i].0 != r[j].0 {
          assert r[j] == ps[j];
          if i > 0 { assert r[i] == ps[i]; }
        }
        LookupFirst(r, other);
      } else {
        LookupAssign(ps[1..], key, value, other);
        assert r[1..] == Assign(ps[1..], key, value);
        KeyOfAssign(ps[1..], key, value);
        forall i, j | 0 <= i < j < |r| ensures r[i].0 != r[j].0 {
          if i == 0 {
            var k := j - 1;
            assert r[j] == Assign(ps[1..], key, value)[k];
            if Assign(ps[1..], key, value)[k].0 != key {
              assert exists m :: 0 <= m < |ps[1..]| && ps[1..][m].0 == r[j].0;
            }
          }
        }
        LookupFirst(r, other);
      }
    }
  }

  /** Every name of an assigned object is the assigned name or an old one. */
  lemma {:induction false} KeyOfAssign<V>(ps: seq<(string, V)>, key: string, value: V)
    ensures forall k | 0 <= k < |Assign(ps, key, value)| ::
              Assign(ps, key, value)[k].0 == key || exists m :: 0 <= m < |ps| && ps[m].0 == Assign(ps, key, value)[k].0
    decreases |ps|
  {
    var r := Assign(ps, key, value);
    if |ps| > 0 && ps[0].0 != key {
      KeyOfAssign(ps[1..], key, value);
      forall k | 0 <= k < |r| ensures r[k].0 == key || exists m :: 0 <= m < |ps| && ps[m].0 == r[k].0 {
        if k == 0 {
          assert ps[0].0 == r[k].0;
        } else {
          assert r[k] == Assign(ps[1..], key, value)[k - 1];
          if r[k].0 != key {
            var m :| 0 <= m < |ps[1..]| && ps[1..][m].0 == r[k].0;
            assert ps[m + 1].0 == r[k].0;
          }
        }
      }
    } else if |ps| > 0 {
      forall k | 0 <= k < |r| ensures r[k].0 == key || exists m :: 0 <= m < |ps| && ps[m].0 == r[k].0 {
        if k > 0 { assert ps[k].0 == r[k].0; }
      }
    }
  }

  /** With unique names the last entry for a name is also the first one. */
  lemma {:induction false} LookupFirst<V>(ps: seq<(string, V)>, key: string)
    requires |ps| > 0
    requires UniqueKeys(ps)
    ensures Lookup(ps, key) == if ps[0].0 == key then Some(ps[0].1) else Lookup(ps[1..], key)
    decreases |ps|
  {
    if |ps| > 1 {
      LookupFirst(ps[..|ps| - 1], key);
      assert ps[..|ps| - 1][1..] == ps[1..][..|ps[1..]| - 1];
      assert ps[..|ps| - 1][0] == ps[0];
    }
  }

  /** The effect of one entry of `setParams` on the query. */
  function ApplyEntry(q: Query, e: (string, ParamValue)): Query
  {
    if Clears(e.1) then Delete(q, e.0) else Put(q, e.0, Render(e.1))
  }

  /** The query after `setParams` has visited the entries in order. */
  function ApplyEntries(q: Query, ps: Entries): Query
  {
    if |ps| == 0 then q else ApplyEntry(ApplyEntries(q, ps[..|ps| - 1]), ps[|ps| - 1])
  }

  /** What `setParams` leaves under one name: the entry's rendering, nothing, or the old value. */
  function Expected(q: Query, ps: Entries, key: string): Option<string>
  {
    match Lookup(ps, key)
    case None => Get(q, key)
    case Some(v) => if Clears(v) then None else Some(Render(v))
  }

  /** Named entries are written or deleted; every other name keeps its value. */
  lemma {:induction false} GetApplyEntries(q: Query, ps: Entries, key: string)
    ensures Get(ApplyEntries(q, ps), key) == Expected(q, ps, key)
    decreases |ps|
  {
    if |ps| > 0 {
      var e := ps[|ps| - 1];
      GetApplyEntries(q, ps[..|ps| - 1], key);
      if Clears(e.1) {
        GetDelete(ApplyEntries(q, ps[..|ps| - 1]), e.0, key);
      } else {
        GetPut(ApplyEntries(q, ps[..|ps| - 1]), e.0, Render(e.1), key);
      }
    }
  }

  // ---------------------------------------------------------------------------
  // The hook

  datatype Url = Url(pathname: string, query: Query)

  /** The current location as the hook reads it, and the router's history stack it writes. */
  class SearchParams {
    var pathname: string
    var query: Query
    var history: seq<Url>

    /** The top of the history stack is the current location. */
    ghost predicate Valid()
      reads this
    {
      |history| >= 1 && history[|history| - 1] == Url(pathname, query)
    }

    constructor (pathname: string, query: Query)
      ensures Valid()
      ensures this.pathname == pathname && this.query == query
      ensures history == [Url(pathname, query)]
    {
      this.pathname := pathname;
      this.query := query;
      history := [Url(pathname, query)];
    }

    /** `router.replace(url)` when `replace`, otherwise `router.push(url)`. */
    method Navigate(url: Url, replace: bool)
      requires Valid()
      modifies this
      ensures Valid()
      ensures pathname == url.pathname && query == url.query
      ensures history == (if replace then old(history)[..|old(history)| - 1] else old(history)) + [url]
    {
      if replace {
        history := history[..|history| - 1] + [url];
      } else {
        history := history + [url];
      }
      pathname, query := url.pathname, url.query;
    }

    /** `getParam(key)` */
    function GetParam(key: string): (r: Option<string>)
      reads this
      ensures r.Some? <==> exists i :: 0 <= i < |query| && query[i].0 == key
    {
      GetSome(query, key);
      Get(query, key)
    }

    /** `getAllParams()`: copies the pairs into an object, later pairs overwriting earlier ones. */
    method GetAllParams() returns (params: map<string, string>)
      ensures params == AllParams(query)
      ensures forall key :: key in params <==> GetParam(key).Some?
    {
      params := map[];
      var i := 0;
      while i < |query|
        invariant 0 <= i <= |query|
        invariant params == AllParams(query[..i])
      {
        assert query[..i + 1][..i] == query[..i];
        params := params[query[i].0 := query[i].1];
        i := i + 1;
      }
      assert query[..|query|] == query;
      forall key ensures key in params <==> GetParam(key).Some? {
        AllParamsKeys(query, key);
      }
    }

    /**
     * `setParams(params, replace)`: starting from a copy of the current query, every
     * entry whose value is null, undefined, `""` or `"all"` deletes its name and every
     * other entry sets its name to the value's string form; the result is navigated to.
     */
    method SetParams(params: Entries, replace: bool)
      requires Valid()
      modifies this
      ensures Valid()
      ensures pathname == old(pathname)
      ensures query == ApplyEntries(old(query), params)
      ensures forall key :: Get(query, key) == Expected(old(query), params, key)
      ensures history == (if replace then old(history)[..|old(history)| - 1] else old(history))
                         + [Url(pathname, query)]
    {
      var next := query;
      var i := 0;
      while i < |params|
        invariant 0 <= i <= |params|
        invariant next == ApplyEntries(query, params[..i])
      {
        assert params[..i + 1][..i] == params[..i];
        var (key, value) := params[i];
        if value.Null? || value.Undefined? || value == Str("") || value == Str("all") {
          next := Delete(next, key);
        } else {
          next := Put(next, key, Render(value));
        }
        i := i + 1;
      }
      assert params[..|params|] == params;
      ghost var before := query;
      Navigate(Url(pathname, next), replace);
      forall key ensures Get(query, key) == Expected(before, params, key) {
        GetApplyEntries(before, params, key);
      }
    }

    /** `setParam(key, value, replace)` is `setParams({[key]: value}, replace)`. */
    method SetParam(key: string, value: ParamValue, replace: bool)
      requires Valid()
      modifies this
      ensures Valid()
      ensures pathname == old(pathname)
      ensures query == ApplyEntries(old(query), [(key, value)])
      ensures Get(query, key) == if Clears(value) then None else Some(Render(value))
      ensures forall other | other != key :: Get(query, other) == Get(old(query), other)
      ensures history == (if replace then old(history)[..|old(history)| - 1] else old(history))
                         + [Url(pathname, query)]
    {
      SetParams([(key, value)], replace);
      assert [(key, value)][..0] == [];
      assert forall other | other != key :: Lookup([(key, value)], other) == None;
    }

    /** `removeParams(keys, replace)`: every listed name is gone, every other name is untouched. */
    method RemoveParams(keys: seq<string>, replace: bool)
      requires Valid()
      modifies this
      ensures Valid()
      ensures pathname == old(pathname)
      ensures forall key :: Get(query, key) == if key in keys then None else Get(old(query), key)
      ensures history == (if replace then old(history)[..|old(history)| - 1] else old(history))
                         + [Url(pathname, query)]
    {
      var toRemove: Entries := [];
      var i := 0;
      while i < |keys|
        invariant 0 <= i <= |keys|
        invariant Valid() && unchanged(this)
        invariant UniqueKeys(toRemove)
        invariant forall key :: Lookup(toRemove, key) == if key in keys[..i] then Some(Null) else None
      {
        forall key ensures Lookup(Assign(toRemove, keys[i], Null), key)
                           == if key in keys[..i + 1] then Some(Null) else None {
          LookupAssign(toRemove, keys[i], Null, key);
          assert keys[..i + 1] == keys[..i] + [keys[i]];
        }
        LookupAssign(toRemove, keys[i], Null, keys[i]);
        toRemove := Assign(toRemove, keys[i], Null);
        i := i + 1;
      }
      assert keys[..|keys|] == keys;
      SetParams(toRemove, replace);
    }

    /** `clearParams(replace)`: navigates to the bare path, so the query is empty. */
    method ClearParams(replace: bool)
      requires Valid()
      modifies this
      ensures Valid()
      ensures pathname == old(pathname) && query == []
      ensures forall key :: Get(query, key) == None
      ensures history == (if replace then old(history)[..|old(history)| - 1] else old(history))
                         + [Url(pathname, [])]
    {
      Navigate(Url(pathname, []), replace);
    }
  }

  lemma {:induction false} GetSome(q: Query, key: string)
    ensures Get(q, key).Some? <==> exists i :: 0 <= i < |q| && q[i].0 == key
  {
    if |q| > 0 {
      GetSome(q[1..], key);
      if q[0].0 != key && exists i :: 0 <= i < |q| && q[i].0 == key {
        var i :| 0 <= i < |q| && q[i].0 == key;
        assert q[1..][i - 1].0 == key;
      }
    }
  }

  /** The values stored under `name`, in order. */
  function ValuesOf(q: Query, name: string): seq<string>
  {
    if |q| == 0 then [] else (if q[0].0 == name then [q[0].1] else []) + ValuesOf(q[1..], name)
  }

  lemma {:induction false} ValuesOfAppend(a: Query, b: Query, name: string)
    ensures ValuesOf(a + b, name) == ValuesOf(a, name) + ValuesOf(b, name)
    decreases |a|
  {
    if |a| == 0 {
      assert a + b == b;
    } else {
      ValuesOfAppend(a[1..], b, name);
      assert (a + b)[0] == a[0] && (a + b)[1..] == a[1..] + b;
    }
  }

  /** `getAllParams()[name]` is the last value stored under `name`, and present exactly when there is one. */
  lemma {:induction false} AllParamsIsLastValue(q: Query, name: string)
    ensures name in AllParams(q) <==> |ValuesOf(q, name)| > 0
    ensures name in AllParams(q) ==> AllParams(q)[name] == ValuesOf(q, name)[|ValuesOf(q, name)| - 1]
    decreases |q|
  {
    if |q| > 0 {
      var init, last := q[..|q| - 1], q[|q| - 1];
      AllParamsIsLastValue(init, name);
      assert q == init + [last];
      ValuesOfAppend(init, [last], name);
      assert ValuesOf([last], name) == if last.0 == name then [last.1] else [];
    }
  }

  /** `delete(key)` drops every value stored under `key` and keeps every other name's values. */
  lemma {:induction false} ValuesOfDelete(q: Query, key: string, name: string)
    ensures ValuesOf(Delete(q, key), name) == if name == key then [] else ValuesOf(q, name)
    decreases |q|
  {
    if |q| > 0 {
      ValuesOfDelete(q[1..], key, name);
      if q[0].0 != key {
        assert ([q[0]] + Delete(q[1..], key))[1..] == Delete(q[1..], key);
      }
    }
  }

  /** `set(key, value)` leaves `value` as the only value under `key` and keeps every other name's values. */
  lemma {:induction false} ValuesOfPut(q: Query, key: string, value: string, name: string)
    ensures ValuesOf(Put(q, key, value), name) == if name == key then [value] else ValuesOf(q, name)
    decreases |q|
  {
    if |q| == 0 {
      assert ValuesOf([(key, value)], name) == (if key == name then [value] else []) + ValuesOf([], name);
    } else if q[0].0 == key {
      ValuesOfDelete(q[1..], key, name);
      ValuesOfDelete(q[1..], key, key);
      assert ([(key, value)] + Delete(q[1..], key))[1..] == Delete(q[1..], key);
    } else {
      ValuesOfPut(q[1..], key, value, name);
      assert ([q[0]] + Put(q[1..], key, value))[1..] == Put(q[1..], key, value);
    }
  }

  /** One `setParam(key, value)`: the values under `key` are replaced or removed, every other name keeps its values. */
  lemma ValuesOfSetParam(q: Query, key: string, value: ParamValue, name: string)
    ensures ValuesOf(ApplyEntries(q, [(key, value)]), name)
            == if name != key then ValuesOf(q, name) else if Clears(value) then [] else [Render(value)]
  {
    assert [(key, value)][..0] == [];
    if Clears(value) {
      ValuesOfDelete(q, key, name);
    } else {
      ValuesOfPut(q, key, Render(value), name);
    }
  }

  /** Deleting a name the query does not hold leaves the query as it was. */
  lemma {:induction false} DeleteAbsent(q: Query, key: string)
    requires Get(q, key).None?
    ensures Delete(q, key) == q
    decreases |q|
  {
    if |q| > 0 {
      DeleteAbsent(q[1..], key);
    }
  }
}

=== FILE: wizard.dfy ===
/**
 * The multi-step form counter shared by the add-item and add-purchase-order modals:
 * `handleNext` advances only when the current step's fields validate and is capped at
 * `totalSteps`; `handlePrevious` is floored at 1.
 */
module Wizard {

  /** `Math.min(prev + 1, totalSteps)` when the step validated, `prev` otherwise. */
  function Next(step: int, isValid: bool, totalSteps: int): (r: int)
    ensures isValid && step < totalSteps ==> r == step + 1
    ensures !isValid || step >= totalSteps ==> r == if isValid then totalSteps else step
  {
    if isValid then (if step + 1 < totalSteps then step + 1 else totalSteps) else step
  }

  /** `Math.max(prev - 1, 1)` */
  function Previous(step: int): (r: int)
    ensures step > 1 ==> r == step - 1
    ensures step <= 1 ==> r == 1
  {
    if step - 1 > 1 then step - 1 else 1
  }

  /** A click on the wizard's buttons, with the outcome of the validation `handleNext` runs. */
  datatype Click = NextClick(isValid: bool) | PreviousClick

  /** The step after a sequence of clicks. */
  function Run(step: int, clicks: seq<Click>, totalSteps: int): int
    decreases |clicks|
  {
    if |clicks| == 0 then step
    else
      var s := match clicks[0]
        case NextClick(v) => Next(step, v, totalSteps)
        case PreviousClick => Previous(step);
      Run(s, clicks[1..], totalSteps)
  }

  /** Each button keeps the step within [1, totalSteps]. */
  lemma StepStaysInRange(step: int, isValid: bool, totalSteps: int)
    requires 1 <= step <= totalSteps
    ensures 1 <= Next(step, isValid, totalSteps) <= totalSteps
    ensures 1 <= Previous(step) <= totalSteps
  {
  }

  /** Any sequence of clicks from a step in range ends in range. */
  lemma {:induction false} RunStaysInRange(step: int, clicks: seq<Click>, totalSteps: int)
    requires 1 <= step <= totalSteps
    ensures 1 <= Run(step, clicks, totalSteps) <= totalSteps
    decreases |clicks|
  {
    if |clicks| > 0 {
      var s := match clicks[0]
        case NextClick(v) => Next(step, v, totalSteps)
        case PreviousClick => Previous(step);
      StepStaysInRange(step, if clicks[0].NextClick? then clicks[0].isValid else false, totalSteps);
      RunStaysInRange(s, clicks[1..], totalSteps);
    }
  }

  /** The number of clicks on "next" whose step validated. */
  function ValidatedNexts(clicks: seq<Click>): nat
  {
    if |clicks| == 0 then 0
    else (if clicks[0] == NextClick(true) then 1 else 0) + ValidatedNexts(clicks[1..])
  }

  /** The wizard never gets further ahead than the number of successful validations. */
  lemma {:induction false} RunBoundedByValidations(step: int, clicks: seq<Click>, totalSteps: int)
    ensures Run(step, clicks, totalSteps) <= (if step > 1 then step else 1) + ValidatedNexts(clicks)
    decreases |clicks|
  {
    if |clicks| > 0 {
      var s := match clicks[0]
        case NextClick(v) => Next(step, v, totalSteps)
        case PreviousClick => Previous(step);
      RunBoundedByValidations(s, clicks[1..], totalSteps);
    }
  }
}

=== FILE: wrappers.dfy ===
/** Optional values and success/failure results shared by every module of the model. */
module Wrappers {

  /** A value that may be absent: JavaScript's `null`/`undefined` next to a present value. */
  datatype Option<T> = None | Some(value: T) {
    /** `x ?? default` */
    function GetOr(default: T): T {
      if Some? then value else default
    }
  }

  /** The outcome of an operation that either returns a value or throws/reports an error. */
  datatype Result<T, E> = Success(value: T) | Failure(error: E)
}
